=== FILE: README.md ===
# Nimble Engine core, modelled in Dafny

The Nimble Game Engine is a C library with a few Python build scripts. This
project models its small, self-contained parts of sequential logic. They are:

- the big-number code: integers as word arrays with the sign in the top bit
  of word 0, decimals as an integer part, a decimal part and a count of
  leading zeros after the point, the ten comparison tests, the argument
  guards of the unfinished arithmetic, and the conversion from decimal text;
- the digit counters of `NimbleMath.c` and the vector initialisers of
  `NimbleMath.h` and `GameMath.h`;
- the 64-bit byte swap;
- the error-code layout and its message table;
- microsecond time arithmetic and timers;
- the allocation counter kept by the memory wrappers;
- the object and texture tables of the world-object module;
- log-line formatting;
- the executable-directory truncation;
- the string helpers of `scripts/Builder.py`;
- the two license generators, which turn LICENSE.md into a C string literal;
- the operating-system name table.

Each source file has one Dafny module:

- `CTypes`: fixed-width integers, C division, and the `Option` and
  `Outcome` types. An `Outcome` is `Returns(value)`, `Diverges` (the code
  never returns) or `Undefined` (the code has undefined behaviour).
  The loops that diverge have controlling expressions that are not
  constant, so section 6.8.5 of ISO C11 also lets a compiler assume they
  end; `Diverges` stands for that licence as well.
- `NimbleError`, `Endianness`, `NimbleTime`, `SystemInfo`, `NimbleMath` and
  `GameMath`, `NimbleMemory`, `FileManager`, `Logger`, `WorldObjects`.
- `BigNumber`, `BigNumberBits`, `BigNumberParse`, `BigNumberText` and
  `BigDecimal`, for `NimbleBigNumber.c`.
- `Builder` and `PyText` (the Python string methods it relies on), and
  `LicenseGenerator`.
- `Decimal`, the `%d`/`%0Nd` rendering of numbers and the value of a digit
  string.

Where the C code has undefined behaviour or never returns on some input,
the model returns `Undefined` or `Diverges` for that input rather than
excluding it with a precondition. Four kinds of undefined behaviour are
given the meaning the GNU toolchain gives them instead, each named under
"## Left out":

- the left shift `sign << 31` of a promoted `int` (BigNumberBits.WithSign);
- the left shift `1 << (bit % 32)` of an `int` when the bit index is 31,
  reached by every value of 2^30 or more (BigNumberParse.UintStringToBinary);
- the `memcpy` of no bytes from a NULL array (BigDecimal.ToBigDec);
- the platform widths of `time_t`, `suseconds_t` and `clock_t`
  (NimbleTime.TimeSub).

Allocation is taken to succeed everywhere; the members that write through
an unchecked `malloc` or `realloc` result are named there too.

Where the code as written departs from what it evidently means, the model
keeps both. A function flagged `asWritten`, or a member named `…AsWritten`,
follows the code. A corrected twin states the intended property. Both are
listed under "## Findings".

Two comments in the source disagree with the code, and the model follows the
code:

- `src/NimbleBigNumber.c` line 102 calls the integer format little endian.
  The conversion loop writes the least significant word at the highest index
  and the sign into word 0, so the words are most significant first.
- `src/NimbleEndianness.c` says the swap forces little endian. It swaps
  every word unconditionally, whatever the host's byte order.

Two passages do not compile as written, and the model takes the evident meaning:

- `src/NimbleSystemInfo.c` lines 196-208 declare `struct utsname` as a type
  and then use `utsname` as a variable. The model reads the `sysname` and
  `release` strings `uname` would report, taken as parameters.
- `src/NimbleWorldObjects.c` lines 139-140 call `nimbleMathVec4InitFrom` and
  `nimbleMathVec3InitFrom` with two arguments, while `src/NimbleMath.h`
  declares them with a third, `error`. The model follows the two-argument
  versions of `src/GameMath.h`, which copy the components.

`src/NimbleBigNumber.h` declares a "-1 on error" convention. The model
follows the `.c` file, which returns the error codes themselves as `int32_t`.

## Model

| member | source | states |
|---|---|---|
| NimbleError.MakeError | src/NimbleError.h:31-43 | a code built from a category and a sub-code has the error bit set and reads both fields back |
| NimbleError.AsInt32 | src/NimbleError.h:31-43 | a code returned as `int32_t` is negative exactly when its error bit is set |
| NimbleError.ErrorString | src/NimbleError.c:29-83 | a code outside the four defined ones gets "Unknown error code."; the null, overflow, divide-by-zero and big-number codes each get their own message |
| NimbleError.CodeLayout | src/NimbleError.h:31-43 | the four codes are 0x80000001, 0x81000001, 0x81000002 and 0x82000001, all carry the error bit, and their categories are GENERAL 0, MATH 1 and BIGNUM 2 |
| NimbleError.ErrorStringInjective | src/NimbleError.c:33-79 | distinct defined codes have distinct messages |
| Endianness.SwapWordReversesBytes | src/NimbleEndianness.c:31-39 | byte k of a swapped word is byte 7-k of the original |
| Endianness.SwapWordInvolution | src/NimbleEndianness.c:31-39 | swapping a word twice restores it |
| Endianness.SwappedCount | src/NimbleEndianness.c:29 | the signed loop index visits `length` words for 1..2^63, and none for 0 or above 2^63 |
| Endianness.SwapPrefix | src/NimbleEndianness.c:29-40 | reference result: the first n words swapped, the rest untouched |
| Endianness.SwapPrefixInvolution | src/NimbleEndianness.c:26-43 | converting an array twice restores it |
| Endianness.ByteSwap | src/NimbleEndianness.c:26-43 | the descending in-place loop produces the reference result, each visited word swapped on its own |
| Endianness.ByteSwapNoOp | src/NimbleEndianness.c:29 | a length of 0 or above 2^63 leaves the array unchanged |
| NimbleTime.TimeAdd | src/NimbleTime.h:42-45 | the sum of the two instants in microseconds |
| NimbleTime.TimeSub | src/NimbleTime.h:48-51 | with a signed 64-bit `clock_t`, the signed distance between the two instants in microseconds |
| NimbleTime.TimeSubUnsigned | src/NimbleTime.h:47-51 | with Darwin's unsigned 64-bit `clock_t`: the distance when t1 is not earlier, 2^64 - d when t1 lies d microseconds before t2 |
| NimbleTime.TimeSubUnsignedDirections | src/NimbleTime.h:47-51 | unsigned, the two directions between distinct instants add up to 2^64, a backward step of at most 2^63 gives at least 2^63, and forward distances are the signed ones |
| NimbleTime.TimeSubInvertsAdd | src/NimbleTime.h:25-51 | adding back the difference restores t1; Sub is antisymmetric and Sub(t,t) is 0; Add is commutative; microseconds per second is microseconds per millisecond times milliseconds per second |
| NimbleTime.HasPast | src/NimbleTime.c:26-31 | 1 exactly when the clock reading is strictly later than t, 0 otherwise |
| NimbleTime.HasPastStrictOrder | src/NimbleTime.c:30 | no instant has passed itself; of two distinct instants exactly one has passed the other |
| NimbleTime.SetTimerMillisAsWritten | src/NimbleTime.c:34-41 | as written the timer lies `ms/1000` seconds plus `ms%1000` microseconds ahead |
| NimbleTime.SetTimerMillisAsWrittenCounterexample | src/NimbleTime.c:38-39 | a 1500 ms timer as written expires after 1 000 500 µs, not 1 500 000 |
| NimbleTime.SetTimerMillisAsWrittenExactIff | src/NimbleTime.c:38-39 | the as-written timer has not passed when set, and is exact iff `ms` is a whole number of seconds |
| NimbleTime.SetTimerMillis | src/NimbleTime.c:34-41 | corrected: the timer lies exactly `ms` milliseconds ahead, and the microsecond field moves by less than a second |
| NimbleTime.TimerExpiresAfterDelay | src/NimbleTime.c:26-41 | a timer with a non-negative delay has not passed when set, and has passed at a later reading iff more than the delay has elapsed |
| SystemInfo.WindowsName | src/NimbleSystemInfo.c:48-166 | major 10 and major 6 with minors 0-3 give the edition's name, every other version gives none |
| SystemInfo.WindowsNamesDistinct | src/NimbleSystemInfo.c:51-159 | distinct known versions and editions get distinct names |
| SystemInfo.LinuxOsString | src/NimbleSystemInfo.c:209-214 | for fields of `uname`'s size (at most 64 characters each) the name is sysname, a space and release, and the 8-bit length reported is exactly its length |
| SystemInfo.LinuxNameSplits | src/NimbleSystemInfo.c:212-214 | a space-free sysname and the release can be split back out of the name |
| SystemInfo.AppleOsStringAsWritten | src/NimbleSystemInfo.c:169-193 | as written, failed or oversized queries give NULL, a failed second query leaves the first part's length, and a success reports one less than the name's length |
| SystemInfo.AppleLengthCounterexample | src/NimbleSystemInfo.c:180-188 | "Darwin 19.6.0" has 13 characters but 12 are reported |
| SystemInfo.AppleOsString | src/NimbleSystemInfo.c:169-193 | corrected: a success reports the full length; a failed second query leaves the first part's length |
| SystemInfo.GetOSStringAsWritten | src/NimbleSystemInfo.c:39-218 | as written: on Windows the name comes from the table and a length is written exactly when there is a name; off Apple any reported length below 256 is the name's length; on Apple a named result reports one less |
| SystemInfo.GetOSString | src/NimbleSystemInfo.c:39-218 | with the Apple length corrected: on Windows the name comes from the table and a length is written exactly when there is a name; any reported length below 256 is the name's length |
| SystemInfo.GetOSStringCorrectionOnlyApple | src/NimbleSystemInfo.c:180-188 | the correction keeps every name and changes exactly the length of a named Apple result, by one |
| NimbleMath.Digits64uAsWritten | src/NimbleMath.c:15-25 | as written the result lies in 1..20 and is never 15 |
| NimbleMath.Digits64uAsWrittenCounterexample | src/NimbleMath.c:19 | 10^14 has 15 digits, but 14 are reported |
| NimbleMath.Digits64uAsWrittenAgrees | src/NimbleMath.c:15-25 | outside [10^14, 10^15) the as-written count is the number of decimal digits |
| NimbleMath.Digits64uCorrect | src/NimbleMath.c:15-25 | corrected cascade: the count is the number of decimal digits for every 64-bit value |
| NimbleMath.Digits64AsWritten | src/NimbleMath.c:28-38 | undefined exactly for INT64_MIN, whose \|x\| overflows before the test meant for it; otherwise the result lies in 1..19 and is never 15 |
| NimbleMath.Digits64AsWrittenCounterexample | src/NimbleMath.c:33 | -10^14 has 15 digits, but 14 are reported |
| NimbleMath.Digits64AsWrittenAgrees | src/NimbleMath.c:28-38 | when \|x\| is outside [10^14, 10^15) the as-written count is the number of digits of \|x\|, except that INT64_MIN is undefined |
| NimbleMath.Digits64Correct | src/NimbleMath.c:28-38 | intended cascade, with 10^14 in the second test and INT64_MIN answered before \|x\| is computed: the digits of \|x\|, INT64_MIN giving 19 |
| NimbleMath.Digits32u | src/NimbleMath.c:41-46 | the count lies in 1..10 |
| NimbleMath.Digits32uCorrect | src/NimbleMath.c:41-46 | the count is the number of decimal digits, with 0 having one |
| NimbleMath.Digits32AsWritten | src/NimbleMath.c:49-55 | undefined exactly for INT32_MIN, whose \|x\| overflows before the test meant for it; otherwise the digits of \|x\| |
| NimbleMath.Digits32Correct | src/NimbleMath.c:49-55 | intended, with INT32_MIN answered before \|x\| is computed: the digits of \|x\|, INT32_MIN giving 10 |
| NimbleMath.Digits16uCorrect | src/NimbleMath.c:58-61 | the count is the number of decimal digits |
| NimbleMath.Digits16Correct | src/NimbleMath.c:64-69 | the digits of \|x\|, with INT16_MIN giving 5 |
| NimbleMath.Digits8uCorrect | src/NimbleMath.h:203-206 | the count is the number of decimal digits; the copy at src/GameMath.h lines 105-108 is the same |
| NimbleMath.Digits8Correct | src/NimbleMath.h:209-213 | the digits of \|x\|, with -128 giving 3; the copy at src/GameMath.h lines 111-115 is the same |
| NimbleMath.Digits32uMonotone | src/NimbleMath.c:43-45 | a larger value never has fewer digits |
| NimbleMath.Digits64uMonotone | src/NimbleMath.c:17-24 | a larger value never has fewer digits (corrected cascade) |
| NimbleMath.SignedDigitsSymmetric | src/NimbleMath.c:30-66 | above the minimum, x and -x have the same count, for 64, 32, 16 and 8 bits |
| NimbleMath.SignedDigitsMinimum | src/NimbleMath.c:28-67 | at the minimum values the 64- and 32-bit counters as written are undefined and the intended ones give 19 and 10; the 16- and 8-bit counters, computing in `int`, give 5 and 3 |
| NimbleMath.FlagNull | src/NimbleMath.h:49-52 | nothing is written; the error becomes GENERAL_NULL only when an error pointer was given |
| NimbleMath.Vec3Init | src/NimbleMath.h:41-54 | a non-null destination gets exactly indices 0..2 written with the values, the rest kept; a null one changes nothing but the error |
| NimbleMath.Vec3InitFrom | src/NimbleMath.h:57-70 | indices 0..2 copied from the source; a null destination or source changes nothing but the error |
| NimbleMath.Vec4Init | src/NimbleMath.h:73-87 | exactly indices 0..3 written with the values; null handled as above |
| NimbleMath.Vec4InitFrom | src/NimbleMath.h:91-105 | indices 0..3 get `from[0], from[2], from[2], from[3]`; null handled as above |
| NimbleMath.Vec4InitFromDropsIndexOne | src/NimbleMath.h:97 | whenever `from[1] != from[2]` the copy differs from the source |
| NimbleMath.Vec4InitFromIntended | src/NimbleMath.h:91-105 | intended copy: indices 0..3 get `from[0..3]`, the rest kept; null handled as above |
| NimbleMath.Vec4InitFromIntendedAgrees | src/NimbleMath.h:97 | the copy as written and the intended copy agree exactly when `from[1] == from[2]` |
| GameMath.Vec3Init | src/GameMath.h:25-30 | indices 0..2 written unconditionally, the rest kept |
| GameMath.Vec3InitFrom | src/GameMath.h:33-38 | indices 0..2 copied unconditionally |
| GameMath.Vec4Init | src/GameMath.h:41-47 | exactly four elements written |
| GameMath.Vec4InitFrom | src/GameMath.h:50-56 | the same `from[2]` duplication into index 1 |
| GameMath.UncheckedMatchesChecked | src/GameMath.h:25-56 | on non-null arguments the unchecked helpers write what the checked ones of NimbleMath.h write |
| NimbleMemory.Allocate | src/NimbleMemory.h:41-45 | the counter grows by the size modulo 2^64, and size plus a pointer's width is requested |
| NimbleMemory.Reallocate | src/NimbleMemory.h:48-61 | the counter moves by new minus old modulo 2^64; a NULL pointer is served by malloc, any other by realloc |
| NimbleMemory.Free | src/NimbleMemory.h:64-68 | the counter shrinks by the size modulo 2^64 |
| NimbleMemory.FreeUndoesAllocate | src/NimbleMemory.h:41-68 | freeing what was allocated restores the counter |
| NimbleMemory.ReallocateRoundTrip | src/NimbleMemory.h:48-61 | resizing and resizing back restores the counter |
| NimbleMemory.ReallocateIsFreeThenAllocate | src/NimbleMemory.h:41-68 | a resize accounts like a free of the old size followed by an allocation of the new one |
| NimbleMemory.AllocateThenReallocate | src/NimbleMemory.h:41-61 | allocating then resizing counts as allocating the final size |
| NimbleMemory.ApplyIsNet | src/NimbleMemory.h:38-68 | after any run of calls the counter is the start plus the net bytes, modulo 2^64 |
| NimbleMemory.BalancedRunRestoresCounter | src/NimbleMemory.h:38-68 | a run that gives back all it takes leaves the counter unchanged |
| FileManager.LastIndexOf | src/NimbleFileManager.c:45 | `strrchr`: the position of the last occurrence, none when absent |
| FileManager.Truncate | src/NimbleFileManager.c:45-48 | a path without `/` is undefined; otherwise the result is the path up to and including its last `/` |
| FileManager.TruncateIdempotent | src/NimbleFileManager.c:45-47 | truncating a truncated path changes nothing |
| FileManager.ExecutableDirectory | src/FileManager.h:51-60 | NULL stays NULL, a path without `/` is undefined, any other is cut after its last `/` |
| FileManager.DirectoryThenName | src/FileManager.h:56-59 | the path is the directory followed by a final component without `/` |
| FileManager.TrackedExecutableDirectory | src/NimbleFileManager.c:28-51 | the same truncation, with the counter moved by the final length plus one |
| Decimal.Render | src/NimbleLogger.c:33 | `%d`: digits only, as many as the number has, no leading zero |
| Decimal.ValueOfRender | src/NimbleLogger.c:33 | a rendered number reads back as itself |
| Decimal.ZeroPad | src/NimbleLogger.c:33 | `%0Nd`: digits only, width N or the number's own width if larger |
| Decimal.ValueOfZeroPad | src/NimbleLogger.c:33 | the padded rendering reads back as the number |
| Logger.DatePart | src/NimbleLogger.c:53-55 | `[MM-DD-YYYY` with the month counted from 1 and the year from 0 |
| Logger.TimePart | src/NimbleLogger.c:53-55 | `HH:MM:SS`, each field two digits |
| Logger.Timestamp | src/NimbleLogger.c:33-40 | the prefix has the 30 characters the source budgets, with its fields in place |
| Logger.TimestampFieldsReadBack | src/NimbleLogger.c:33 | every field of the prefix reads back as the calendar value it came from |
| Logger.Tag | src/NimbleLogger.c:43-98 | INFO gives "INFO: ", WARNING gives "WARNING: ", every other type nothing |
| Logger.Strncat | src/NimbleLogger.c:57-61 | at most n characters of the source appended |
| Logger.Snprintf | src/NimbleLogger.c:53-55 | `snprintf` leaves the longest prefix of the text that fits before the NUL |
| Logger.Append | src/NimbleLogger.c:56-61 | the three `strncat`s keep the stamp, add no more of tag and entry than their budgets, and end in the newline whenever its budget is positive |
| Logger.OutputLength | src/NimbleLogger.c:49-61 | in `size_t` arithmetic the budget left for the newline is one character for every `entryLength`, wrapped or not |
| Logger.FittingBudgets | src/NimbleLogger.c:49-61 | while nothing wraps, the buffer is `ptrSize` bytes larger than `outputLength` and the budgets allow the whole tag and `entryLength + 1` entry characters |
| Logger.WrappedBudgets | src/NimbleLogger.c:49-61 | once `outputLength` wraps it is at most 31 plus the tag length, and the budgets after it borrow round to huge values unless exact |
| Logger.NearlyWrappedBuffer | src/NimbleLogger.c:49-51 | a sum within `ptrSize` of 2^64 leaves a buffer smaller than `ptrSize` bytes |
| Logger.FormatLine | src/NimbleLogger.c:43-98 | in `size_t` arithmetic: while the sums fit, the line has the prefix, tag, at most `entryLength + 1` entry characters and a newline; whenever it is defined it fits the `ptrSize + outputLength` buffer and ends in a newline |
| Logger.AppendWithinBudget | src/NimbleLogger.c:56-61 | budgets that do not cut the tag give tag, entry cut to `entryLength + 1` characters, and newline |
| Logger.AppendNoEntry | src/NimbleLogger.c:56-61 | with no budget for the entry the line is stamp, tag and newline |
| Logger.FormatLineContents | src/NimbleLogger.c:43-98 | while the lengths fit in 64 bits, the line is prefix, tag, entry (cut to `entryLength + 1` characters) and newline |
| Logger.FormatLineDropsEntry | src/NimbleLogger.c:49-61 | `entryLength` = 2^64 - 1 wraps `outputLength` to just past the tag: the line is prefix, tag and newline, with none of the entry |
| Logger.AppendOverruns | src/NimbleLogger.c:56-61 | the line reaches the buffer's size once stamp, tag part and `ptrSize` entry characters fill it |
| Logger.FormatLineOverruns | src/NimbleLogger.c:43-98 | every other length whose sums wrap writes past the buffer (undefined) once the entry has `ptrSize` or more characters |
| Logger.FormatLineExact | src/NimbleLogger.c:46-62 | when the length is right and fits, the entry can be cut back out of the line after the prefix and tag |
| Logger.Emit | src/NimbleLogger.c:102-116 | one copy to the console when asked (standard error for WARNING), then one to the file; a file error gives `LOG_ERROR_FWRITE` |
| Logger.Log | src/NimbleLogger.c:13-117 | a NULL entry fails before a zero length; otherwise the call is undefined exactly when the line is, and else emits the assembled line |
| Logger.LogConsoleStream | src/NimbleLogger.c:104-107 | the console copy goes to standard error exactly for WARNING, and a call whose lengths fit is defined |
| WorldObjects.Initial | src/NimbleWorldObjects.c:20-24 | the tables start empty and the registry valid |
| WorldObjects.Grown | src/NimbleWorldObjects.c:96 | growing a table by one record adds one record size to the counter, modulo 2^64 |
| WorldObjects.Shrunk | src/NimbleWorldObjects.c:184 | shrinking by one record removes one record size from the counter, modulo 2^64 |
| WorldObjects.ShiftDown | src/NimbleWorldObjects.c:181 | intended move: the records after the index move down one slot, the earlier ones stay |
| WorldObjects.ShiftDownAsWritten | src/NimbleWorldObjects.c:173-182 | the doubly scaled `memcpy`, undefined when it reaches past the table or its ranges overlap |
| WorldObjects.ShiftDownAsWrittenDefinedIff | src/NimbleWorldObjects.c:173-182 | for records wider than a byte, the removal is defined exactly for the last index and for the first of two records, and there it matches the intended move |
| WorldObjects.ShiftDownAsWrittenCounterexample | src/NimbleWorldObjects.c:181 | destroying the middle of three objects reads past the table; destroying the first copies between overlapping ranges |
| WorldObjects.RemoveObject | src/NimbleWorldObjects.c:173-185 | reference removal: the record gone and every later index decremented |
| WorldObjects.NewObject | src/NimbleWorldObjects.c:101-141 | the record holds the ID, the index, the mesh, `faces & 0xff` texture IDs, the position, the orientation as the code copies it, and the parent |
| WorldObjects.ObjectCreate | src/NimbleWorldObjects.c:94-144 | returns the current `nextID` and increments it; appends one record at the end, keeps the rest and counts one record more |
| WorldObjects.ObjectCreatePreservesValid | src/NimbleWorldObjects.c:96-102 | creation keeps the tables indexed and the IDs strictly increasing |
| WorldObjects.AppendPreservesOrder | src/NimbleWorldObjects.c:98-102 | a record appended with the next index and ID keeps both orders |
| WorldObjects.FirstObjectIdIsNoParent | src/NimbleWorldObjects.c:22 | the first ID handed out is 0, the value that marks "no parent" |
| WorldObjects.ClearSlot | src/NimbleWorldObjects.c:149-170 | the destroyed slot's ID, GL handles and index count are zeroed, the rest kept |
| WorldObjects.MeshDeletions | src/NimbleWorldObjects.c:152-168 | each of the index buffer, vertex buffer and vertex array is deleted exactly when its name is non-zero, in that order |
| WorldObjects.RenumberObjects | src/NimbleWorldObjects.c:176-179 | every record from the index on has its index decremented, the earlier ones untouched |
| WorldObjects.ObjectDestroy | src/NimbleWorldObjects.c:147-186 | with the intended move: the reference removal, the mesh deletions, one record size less counted, validity kept |
| WorldObjects.RemoveObjectPreservesValid | src/NimbleWorldObjects.c:173-185 | removal keeps the registry valid, keeps every other ID and drops the removed one |
| WorldObjects.TextureLoad | src/NimbleWorldObjects.c:28-67 | a failed decode returns 0 and changes nothing; a success appends one record at the next index and counts it |
| WorldObjects.RemoveTexture | src/NimbleWorldObjects.c:77-90 | reference removal: the record gone and every later index decremented |
| WorldObjects.TextureUnload | src/NimbleWorldObjects.c:70-91 | with the intended move: deletes the GL texture, applies the reference removal, counts one record less |
| WorldObjects.RemoveTexturePreservesIndexed | src/NimbleWorldObjects.c:77-90 | unloading keeps every texture's index equal to its position |
| WorldObjects.TextureLoadUnloadLast | src/NimbleWorldObjects.c:28-91 | loading a texture and unloading it again restores the texture table |
| PyText.Find | scripts/Builder.py:21 | `str.find`: -1 or a match at or after the start |
| PyText.FindFirst | scripts/Builder.py:21-23 | no match lies between the start and the result, and none at all when the result is -1 |
| PyText.FindIsFirst | scripts/Builder.py:21-23 | the first match from the start is what `find` returns |
| PyText.Slice | scripts/Builder.py:87 | Python slicing: negative bounds count from the end, bounds are clamped, a reversed range is empty |
| PyText.RIndex | scripts/Builder.py:89 | `rindex`: the position of the last occurrence |
| PyText.RemoveAllOnce | scripts/Builder.py:90 | `replace(p, "")` cuts out a single occurrence |
| PyText.RemoveAllAbsent | scripts/Builder.py:90 | text without the pattern is unchanged |
| Builder.NthFrom | scripts/Builder.py:20-25 | -1, or a match at or after the start |
| Builder.FindNth | scripts/Builder.py:20-25 | the script's loop returns the reference n-th match, the first `find` for n ≤ 1 |
| Builder.NthFromFoundIff | scripts/Builder.py:22-25 | the n-th match is found exactly when there are at least n non-overlapping matches |
| Builder.NthFromAdvances | scripts/Builder.py:22-24 | the (n+1)-th match lies at least one needle's length past the n-th |
| Builder.SharedLibraryIsLibrary | scripts/Builder.py:73-74 | every shared library is a library, and the static ones are .lib and .a |
| Builder.NormaliseSeparators | scripts/Builder.py:72 | every `\` becomes `/` and nothing else changes |
| Builder.NormaliseSeparatorsIdempotent | scripts/Builder.py:72 | normalising twice is normalising once |
| Builder.StripVersion | scripts/Builder.py:87-90 | `build/` dropped; a name with `_` loses every copy of the text from its last `_` to its third `.` |
| Builder.VersionSliceWithoutThirdDot | scripts/Builder.py:89 | with fewer than three dots the removed text runs to just before the final character |
| Builder.StripVersionExample | scripts/Builder.py:87-90 | `build/libNimble_1.0.0.so` becomes `libNimble.so` |
| Builder.StripVersionRemovesVersion | scripts/Builder.py:87-90 | for every name `build/base_a.b.c.ext` with no `_` or `.` in `base`, no `.` in `a`, `b`, `c` and no `_` after the version, exactly `_a.b.c` is removed, leaving `base.ext` |
| Builder.StrippedShape | scripts/Builder.py:88-90 | when the last `_` and the third `.` bracket one occurrence of the version, the strip leaves the text on either side of it |
| Builder.VersionDotPositions | scripts/Builder.py:89 | in `base_a.b.c.ext` the first three dots are the ones after `a`, `b` and `c` |
| Builder.DotsByIndex | scripts/Builder.py:20-25 | three dots with no dot before or between them make `find_nth(f, ".", 3)` the third |
| Builder.FindDot | scripts/Builder.py:21 | `find(".", start)` is the first dot at or after the start |
| Builder.NthFromThree | scripts/Builder.py:20-25 | three successive finds, each resuming past the last dot, give the third dot |
| Builder.VersionUnderscorePosition | scripts/Builder.py:89 | the `_` opening the version is the name's last `_`, so `rindex("_")` finds it |
| Builder.IncludeDirectory | scripts/Builder.py:114-115 | the part between `include/` and the last `/`, present exactly when that part holds a `/` |
| LicenseGenerator.EscapeChar | LicenseGenerator.py:34 | `"` always, and `\` only in the corrected form, get a backslash; every other character is kept |
| LicenseGenerator.Escape | LicenseGenerator.py:34 | escaping keeps the last character and adds no newline |
| LicenseGenerator.EscapeAgrees | LicenseGenerator.py:34 | on text without a backslash the script's escaping is the full one |
| LicenseGenerator.Lines | LicenseGenerator.py:34-37 | the `readline` results join back to the file, each a line with at most a final newline |
| LicenseGenerator.LinesTerminated | LicenseGenerator.py:34-37 | every line but the last ends in a newline, and so does the last when the file does |
| LicenseGenerator.LineLiteralReadsBack | LicenseGenerator.py:36 | a fully escaped line with its suffix reads back, as C, as the line |
| LicenseGenerator.LiteralLinesReadBack | LicenseGenerator.py:34-37 | the literal text of all the lines reads back as the lines joined |
| LicenseGenerator.LiteralLinesNewlines | LicenseGenerator.py:36 | each license line becomes exactly one source line |
| LicenseGenerator.LicenseLiteralLineCount | LicenseGenerator.py:29-39 | the literal spans one more source line than the license has |
| LicenseGenerator.Framed | LicenseGenerator.py:21-39 | the file is header, literal and trailer, each recoverable by position |
| LicenseGenerator.SuffixIsGood | LicenseGenerator.py:29-36 | the opening denotes a newline and each line's suffix denotes one newline |
| LicenseGenerator.LicenseLiteralRoundTrip | LicenseGenerator.py:29-39 | corrected: the literal denotes a newline followed by the license text, for every license ending in a newline |
| LicenseGenerator.NoBackslashAgrees | LicenseGenerator.py:34 | without backslashes the script's output is the corrected output |
| LicenseGenerator.LicenseLiteralAsWrittenRoundTrip | LicenseGenerator.py:29-39 | as written, a backslash-free license survives the round trip |
| LicenseGenerator.BackslashCounterexample | LicenseGenerator.py:34 | the license line `\n` comes back as a newline: three newlines instead of the text |
| LicenseGenerator.OneLineLiteral | LicenseGenerator.py:33-36 | a license of one line free of quotes becomes that line without its last character, followed by the continuation suffix |
| LicenseGenerator.UnterminatedLastLineLiterals | LicenseGenerator.py:33-36 | a one-line license without a final newline (and without quotes or backslashes) gives the same literal, in both generators, as the license whose last character is a newline instead |
| LicenseGenerator.UnterminatedLastLineCounterexample | LicenseGenerator.py:36 | `line[:-1]` on such a last line drops a real character: the literal reads back as the line less its last character plus a newline, never as the license |
| LicenseGenerator.ScriptsDirectory | scripts/LicenseGenerator.py:22-26 | a trailing `scripts` removed, then a `/` always appended |
| LicenseGenerator.SeparatorTestHolds | scripts/LicenseGenerator.py:25 | the separator test holds for every text |
| LicenseGenerator.ScriptsDirectoryDoublesSlash | scripts/LicenseGenerator.py:25-26 | a directory already ending in `/` gets a second one |
| LicenseGenerator.FromScriptsDoublesSlash | scripts/LicenseGenerator.py:23-26 | run from `…/scripts`, the directory ends in `//`; the corrected test gives the trimmed path |
| LicenseGenerator.ScriptsDirectoryGrows | scripts/LicenseGenerator.py:25-26 | as written, applying the normalisation again adds another `/` |
| LicenseGenerator.ScriptsDirectoryIntended | scripts/LicenseGenerator.py:22-26 | corrected: ends in a separator, extends the trimmed path by at most one character |
| LicenseGenerator.ScriptsDirectoryIntendedIdempotent | scripts/LicenseGenerator.py:22-26 | corrected, normalising a normalised directory changes nothing |
| LicenseGenerator.ScriptsSuffixIsGood | scripts/LicenseGenerator.py:76 | the adjacent-literal suffix denotes a single newline |
| LicenseGenerator.ScriptsOpenReadsTitle | scripts/LicenseGenerator.py:69 | the opening literals denote the title line |
| LicenseGenerator.ScriptsLicenseLiteralRoundTrip | scripts/LicenseGenerator.py:69-79 | the literals denote the title line followed by the license, as written whenever the license has no backslash |
| BigNumber.IntOperationStatus | src/NimbleBigNumber.c:179-330 | NULL status exactly for a null operand; divide-by-zero exactly for division by the single word 0; success otherwise |
| BigNumber.FirstDifference | src/NimbleBigNumber.c:384-392 | none exactly for equal arrays, otherwise the first index where they differ |
| BigNumber.FirstDifferenceSymmetric | src/NimbleBigNumber.c:384-392 | the scan does not depend on the order of its arguments |
| BigNumber.TetAsWritten | src/NimbleBigNumber.c:333-357 | the `uint8_t` loop: NULL status for a null operand |
| BigNumber.TetAsWrittenShort | src/NimbleBigNumber.c:346 | below 256 words the as-written test answers like the full one |
| BigNumber.TetAsWrittenLong | src/NimbleBigNumber.c:346-354 | from 256 words on, equal leading words make the test loop for ever |
| BigNumber.TetCounterexample | src/NimbleBigNumber.c:346 | 256 zero words compared with themselves: equal, but the test never returns |
| BigNumber.Tet | src/NimbleBigNumber.c:333-357 | corrected: NULL status for a null operand, otherwise 1 exactly for equal word arrays and 0 otherwise |
| BigNumber.TetAgreesWithValue | src/NimbleBigNumber.c:333-357 | on canonical operands, 1 exactly when the integers are equal |
| BigNumber.Bit | src/NimbleBigNumber.c:389 | a C truth value: 1 exactly when true |
| BigNumber.IntTest | src/NimbleBigNumber.c:359-521 | NULL status exactly for a null operand, otherwise 0 or 1 |
| BigNumber.IntTestConverse | src/NimbleBigNumber.c:360-521 | TGT(x,y) is TLT(y,x) and TGE(x,y) is TLE(y,x) |
| BigNumber.IntTestEqualInputs | src/NimbleBigNumber.c:381-521 | on equal arrays the strict tests give 0 and the others 1 |
| BigNumber.IntTestDifferentInputs | src/NimbleBigNumber.c:442-521 | on differing arrays TGE answers like TGT and TLE like TLT |
| BigNumber.IntTestComplement | src/NimbleBigNumber.c:401-521 | TGE is the negation of TLT and TLE of TGT |
| BigNumber.IntTestTrichotomy | src/NimbleBigNumber.c:333-439 | exactly one of TET, TGT and TLT gives 1 |
| BigNumber.IntTestAgreesWithValue | src/NimbleBigNumber.c:359-521 | on canonical operands each test answers the comparison of the integers the arrays stand for |
| BigNumber.CanonicalSign | src/NimbleBigNumber.c:368-369 | a canonical array is below zero exactly when its top bit is set |
| BigNumber.LongerIsLarger | src/NimbleBigNumber.c:397 | of two canonical arrays with the same sign, the longer has the larger magnitude |
| BigNumber.MagnitudeLex | src/NimbleBigNumber.c:387-390 | with equal signs the first differing word orders the magnitudes |
| BigNumberBits.WordsPlacement | src/NimbleBigNumber.c:81-87 | bit j lands at position j % 32 of the word j / 32 places from the end |
| BigNumberBits.WordsValue | src/NimbleBigNumber.c:52-87 | the words spell the number the bits do |
| BigNumberBits.TopWordBelowHalf | src/NimbleBigNumber.c:143 | when the last bit written is 0, word 0 leaves its top bit free |
| BigNumberBits.WithSign | src/NimbleBigNumber.c:144 | the sign goes into the top bit of word 0 and nothing else changes |
| BigNumberBits.SignedWordsValue | src/NimbleBigNumber.c:136-151 | for n > 0 the signed words are canonical and stand for n or -n |
| BigNumberParse.ConvertDigits | src/NimbleBigNumber.c:41-44 | each character becomes its digit value |
| BigNumberParse.ConvertDigitsValue | src/NimbleBigNumber.c:41-44 | the digit values spell the number the text does |
| BigNumberParse.HalvePass | src/NimbleBigNumber.c:74-79 | one pass leaves digits whose number, doubled, plus the parity, gives back the input |
| BigNumberParse.HalvePassHalves | src/NimbleBigNumber.c:74-79 | the pass computes floor(n/2), and its remainder is 5 exactly for odd n |
| BigNumberParse.SkipZeros | src/NimbleBigNumber.c:56-64 | the skip stops at the first non-zero digit, or at the end |
| BigNumberParse.ConvertFromBits | src/NimbleBigNumber.c:53-89 | from any state, the loop appends the binary digits of the number and then a 0 |
| BigNumberParse.BinaryConversionBits | src/NimbleBigNumber.c:53-89 | the loop writes the binary digits of the number least significant first, then a 0, and so spells the number |
| BigNumberParse.LeadingZerosRecordedOnce | src/NimbleBigNumber.c:69-94 | corrected: the leading-zero count is the number of zeros the digits start with, 0 when all are zero |
| BigNumberParse.LeadingZerosCounterexample | src/NimbleBigNumber.c:69-72 | for the digits 1 and 5, the count is 1 as written and 0 when recorded once |
| BigNumberParse.LongDigitsCounterexample | src/NimbleBigNumber.c:46-51 | from 256 digits on, a number whose first digit is not 0 never comes back, while the loop with wide counters writes its binary digits |
| BigNumberParse.UintStringToBinary | src/NimbleBigNumber.c:37-99 | the 8-bit counters: undefined for no digits, loops for ever from 256 digits except in the listed cases, otherwise writes the binary digits |
| BigNumberText.Signless | src/NimbleBigNumber.c:115-116 | the text is an optional `-` followed by the signless text |
| BigNumberText.IntegerWords | src/NimbleBigNumber.c:133-151 | for 1..255 digits, words whose magnitude is the number and whose sign is the text's; canonical when the number is non-zero |
| BigNumberText.IntFromString | src/NimbleBigNumber.c:104-154 | NULL and too many digits store their error codes with an empty number; zero text gives the word 0; any success is canonical |
| BigNumberText.ZeroWordValue | src/NimbleBigNumber.c:129 | the word 0 stands for 0; the word with only its sign bit is a negative zero |
| BigNumberText.IntFromStringValue | src/NimbleBigNumber.c:104-154 | corrected zero test: short text reads as the number it spells, under its sign |
| BigNumberText.IntFromStringAsWritten | src/NimbleBigNumber.c:125-131 | as written the value is right exactly when no `0` precedes a non-zero digit |
| BigNumberText.LeadingZeroCounterexample | src/NimbleBigNumber.c:125 | "01" spells 1 but reads as 0 |
| BigNumberText.TrailingZeros | src/NimbleBigNumber.c:569-571 | the number of `0`s that end the text |
| BigNumberText.DecimalPosition | src/NimbleBigNumber.c:565-568 | the position of a `.`, -1 when there is none |
| BigNumberText.DecimalPositionLast | src/NimbleBigNumber.c:561-577 | no `.` follows the position found |
| BigNumberText.ScanDecimal | src/NimbleBigNumber.c:555-577 | the right-to-left loop computes the reference scan (last point, trailing zeros); empty unsigned text reads before the string |
| BigNumberText.ScanFraction | src/NimbleBigNumber.c:560-597 | `decimalLength` is the number of fraction digits up to the trailing zeros |
| BigNumberText.FractionText | src/NimbleBigNumber.c:597 | the fraction digits followed by the trailing zeros make up the text after the point |
| BigNumberText.IntegerPathText | src/NimbleBigNumber.c:582-590 | as written, a signed text loses its NUL or its last digit; corrected, the sign and the digits before the point |
| BigNumberText.IntegerPart | src/NimbleBigNumber.c:605-631 | the magnitude is the digits' value; the sign is kept except, as written, with no digits |
| BigNumberText.DecimalPart | src/NimbleBigNumber.c:633-642 | the words hold the fraction digits' value; as written no digits is undefined |
| BigNumberText.DecimalPartDigits | src/NimbleBigNumber.c:633-642 | corrected: the leading zeros and the digits of the value add up to the fraction's length |
| BigNumberText.IntegerPath | src/NimbleBigNumber.c:580-595 | the decimal has fraction 0 and no leading zeros, and an error exactly when the integer is NULL |
| BigNumberText.TakesDecimalPath | src/NimbleBigNumber.c:580 | text with digits after its point takes the decimal path |
| BigNumberText.DecimalPath | src/NimbleBigNumber.c:597-644 | the only error is overflow, with an empty result; short text succeeds when corrected |
| BigNumberText.DecimalPathValue | src/NimbleBigNumber.c:597-642 | corrected: integer part, sign, fraction value and fraction-digit count match the text |
| BigNumberText.DecFromString | src/NimbleBigNumber.c:541-645 | errors are NULL or overflow and come with an empty result; short text succeeds when corrected |
| BigNumberText.DecFromStringValue | src/NimbleBigNumber.c:541-645 | corrected: short decimal text reads as the number it spells, trailing zeros included |
| BigNumberText.IntegerPathDenotes | src/NimbleBigNumber.c:580-595 | text without fraction digits reads as its integer |
| BigNumberText.DecimalPathDenotes | src/NimbleBigNumber.c:597-644 | the digits around the point over 10 to the number of digits after it |
| BigNumberText.ReadsAsComparesValues | src/NimbleBigNumber.c:835-1097 | two decimals read from text as v1/10^k1 and v2/10^k2 compare, by the corrected tests, as v1·10^k2 against v2·10^k1: as their values do |
| BigNumberText.SignedPointCounterexample | src/NimbleBigNumber.c:583-587 | "-12." reads as -1 as written and as -12 when corrected |
| BigNumberText.EmptyIntegerCounterexample | src/NimbleBigNumber.c:626-631 | "-.5" loses its sign as written and reads as -0.5 when corrected |
| BigNumberText.ZeroFractionCounterexample | src/NimbleBigNumber.c:633-635 | "1.0" is undefined as written and reads as 1.0 when corrected |
| BigNumberText.ZeroFractionUndefined | src/NimbleBigNumber.c:633-635 | as written, every fraction of only `0`s is undefined |
| BigNumberText.EmptyTextCounterexample | src/NimbleBigNumber.c:557-565 | "" reads before the string as written and reads as 0 when corrected |
| BigDecimal.ToBigDec | src/NimbleBigNumber.c:524-535 | the integer is copied, the decimal part is the word 0 with no leading zeros, and NULL is kept exactly for a NULL integer |
| BigDecimal.DecOperationStatus | src/NimbleBigNumber.c:686-754 | Mul always succeeds; the others give NULL status exactly for a NULL operand |
| BigDecimal.RoundingStatus | src/NimbleBigNumber.c:756-832 | NULL status exactly for a NULL operand, success otherwise |
| BigDecimal.DecTetAsWritten | src/NimbleBigNumber.c:835-869 | the `uint8_t` loops: NULL status for a NULL operand |
| BigDecimal.DecTetAsWrittenShort | src/NimbleBigNumber.c:848-866 | below 256 words per part the as-written test is the full one |
| BigDecimal.DecTet | src/NimbleBigNumber.c:835-869 | corrected: 1 exactly when both parts and the leading zeros agree |
| BigDecimal.DecTest | src/NimbleBigNumber.c:871-1097 | NULL status exactly for a NULL operand, otherwise 0 or 1 |
| BigDecimal.DecTestConverse | src/NimbleBigNumber.c:871-1097 | TGT(x,y) is TLT(y,x) and TGE(x,y) is TLE(y,x) |
| BigDecimal.DecTestEqualParts | src/NimbleBigNumber.c:893-1097 | with equal parts the strict tests give 0 and the others 1 |
| BigDecimal.DecTestComplement | src/NimbleBigNumber.c:928-1097 | TGE is the negation of TLT and TLE of TGT |
| BigDecimal.DecTestOfIntegers | src/NimbleBigNumber.c:524-535 | converted integers compare as the integers did |
| BigDecimal.DecTestByIntegerPart | src/NimbleBigNumber.c:871-925 | when the integer parts differ, every ordering test is the integer test on the integer parts |
| BigDecimal.DecTestByValue | src/NimbleBigNumber.c:871-1097 | corrected ordering tests: NULL status exactly for a NULL operand, otherwise 0 or 1 |
| BigDecimal.DecTetByValue | src/NimbleBigNumber.c:835-869 | corrected equality: NULL status exactly for a NULL operand, otherwise 0 or 1 |
| BigDecimal.DecTestByValueTrichotomy | src/NimbleBigNumber.c:835-1097 | by value, exactly one of equal, greater and less holds, and the tests are converses and complements |
| BigDecimal.ScaledOfInteger | src/NimbleBigNumber.c:524-535 | a converted canonical integer is its own value with the single fraction digit 0 |
| BigDecimal.DecTestByValueOfIntegers | src/NimbleBigNumber.c:871-1097 | on converted canonical integers the by-value tests are the integer tests |
| BigDecimal.LeadingZerosCounterexample | src/NimbleBigNumber.c:843-925 | 0.5 and 0.05 are neither equal, greater nor less as written; by value 0.5 is greater |
| BigDecimal.DecimalWordsCounterexample | src/NimbleBigNumber.c:906-919 | as written 0.5 tests less than 0.25, its decimal word 5 being below 25; by value 0.5 is greater |

## Left out

- Floating point. `nimbleMathFloorF/CeilF/FloorD/CeilD`, `nimbleMathDigitsF/D`, quaternion normalisation and the physics header compute on floats. Floats that are only copied are kept as 32-bit patterns.
- `DIGITS_PER_BYTE` buffer sizing in `NimbleBigNumber.c`. The sizes come from a float computation. The model assumes the buffers are large enough and gives the words the loop writes.
- The `#if 0` bodies of `nimbleBigIntAdd` and `nimbleBigIntSub`, and the unfinished bodies of Mul, Div, Mod, Pow and the decimal arithmetic and rounding. Only their argument checks are modelled, since they write no result.
- `nimbleBigIntToString` and `nimbleBigDecToString`. The first has an empty loop and always returns NULL; the second depends on it.
- OpenGL, stb_image, the CPUID brand string, `gettimeofday`, `localtime`, `fwrite`, `readlink`, `sysctl` and `uname`. Their results become parameters: clock readings, image sizes, GL names, query answers and the file error flag.
- The byte contents of `malloc`, `realloc` and `memcpy` buffers. Only the logical contents are modelled, and the allocation counter only where a member returns it (the memory wrappers, the file manager and the world tables).
- WorldObjects.ObjectCreate: the `realloc` of the object table (NimbleWorldObjects.c:40) is taken to succeed; the source writes the new record through its result unchecked.
- WorldObjects.TextureLoad: the same for the texture table's `realloc` (NimbleWorldObjects.c:95).
- BigNumberText.IntFromString: the allocations at NimbleBigNumber.c:39, 128 and 134 are taken to succeed, and the changes they and the frees make to `nimbleMemoryUsed` are not modelled.
- BigNumberText.DecFromString: the same for the allocations at NimbleBigNumber.c:39, 582, 608 and 634 and for those of the integer path it shares with IntFromString.
- BigDecimal.ToBigDec: the `memcpy` from a NULL integer's array, undefined in ISO C even for no bytes, is taken to copy nothing; the allocations are taken to succeed and their counter changes are not modelled.
- `nimbleThread*`, and `nimbleTimeSleepMillis`: concurrency and sleeping.
- The build scripts' `os.system`, `shutil` and `glob` orchestration, and the license generators' file reading, date stamp and file writing. The date is a parameter, and the license text is the file's contents. The copyright line and the MIT notice the generators write into their comment blocks are parameters too, not spelled out.
- FileManager.Truncate: `readlink` does not NUL-terminate the path. The model takes the path to be the string the OS reports.
- Logger.FormatLine: `malloc` is taken to succeed, even for the sizes near 2^64 that a real allocator refuses; the source does not check for NULL. `ptrSize` (`sizeof(NULL)`) is taken as 8.
- Logger.FormatLineOverruns: an entry of fewer than `ptrSize` characters with a wrapped length is described only by FormatLine's own contract (defined lines fit the buffer and end in a newline), not character by character.
- WorldObjects.ObjectDestroy: the `memcpy`, undefined as written for every index but the last (and the first of two records, see WorldObjects.ShiftDownAsWrittenDefinedIff), is modelled as the intended move. The same holds for WorldObjects.TextureUnload, whose `memcpy` has the same double scaling.
- NimbleTime.TimeSub: takes `time_t`, `suseconds_t` and `clock_t` to be signed 64-bit integers (glibc on 64-bit Linux) and leaves out their overflow, undefined behaviour, which the seconds of a real clock reading do not reach. Darwin's unsigned `clock_t` is modelled separately by NimbleTime.TimeSubUnsigned; a 32-bit `clock_t` is not modelled.
- NimbleTime.TimeAdd: the same signed 64-bit platform, and the overflow of the sum is not modelled.
- NimbleTime.SetTimerMillis: the same platform; the overflow of `tv_sec` and `tv_usec` after the addition is not modelled, here and in NimbleTime.SetTimerMillisAsWritten.
- BigNumberBits.WithSign: `sign << 31` shifts a 1 into the sign bit of a promoted `int`, which ISO C leaves undefined; the model takes GCC's documented two's-complement result, the top bit of the word set.
- LicenseGenerator.LicenseLiteralRoundTrip: requires the license to end in a newline. On a last line without one, `line[:-1]` drops that line's last character instead (see LicenseGenerator.UnterminatedLastLineCounterexample); no corrected generator for that case is modelled.
- SystemInfo.LinuxOsString: requires each `uname` field to fit its 65-byte `struct utsname` array, as the kernel guarantees; the `uint8_t` length is taken modulo 256 all the same.
- BigNumberParse.UintStringToBinary: `nimbleMathFloorF(d / 2)` on a digit is taken as integer halving. Setting bit 31 with `1 << (bit % 32)` on an `int` (NimbleBigNumber.c:87) is undefined in ISO C; every value of 2^30 or more reaches it, and the model takes GCC's result, the top bit of the word. The allocation at line 39 is taken to succeed.
- BigNumberParse.ConvertDigits: requires every character to be a decimal digit. The source subtracts `'0'` from any character without a check, so in "12a" the last "digit" is 49. What the halving loop makes of such values is not modelled.
- BigNumberText.IntFromString: requires the text after an optional `-` to be all digits. The source accepts any text, such as "12a" or "1-2", and feeds the unchecked differences from `'0'` to the conversion; that result is not modelled.
- BigNumberText.DecFromString: requires digits on both sides of the last `.`. The source accepts any text, such as "1.2.3" or "1e5", and converts the parts its right-to-left scan finds without checking them; that result is not modelled.
- SystemInfo.GetOSString: this is the Apple branch with the space counted; the source's own behaviour is SystemInfo.GetOSStringAsWritten. The GL renderer string and the CPU brand string are not modelled.

## Findings

| source | as written | input that shows it | evidently intended | confidence | as-written member | corrected member |
|---|---|---|---|---|---|---|
| src/NimbleMath.c:19 | the 10^15 threshold appears twice, so 15 is never returned | 100000000000000 gives 14 | 10^14 in the second test, giving 15 digits | high, not executed | NimbleMath.Digits64uAsWrittenCounterexample | NimbleMath.Digits64uCorrect |
| src/NimbleMath.c:33 | the same duplicated threshold in the signed count | -100000000000000 gives 14 | 10^14 in the second test | high, not executed | NimbleMath.Digits64AsWrittenCounterexample | NimbleMath.Digits64Correct |
| src/NimbleMath.h:97 | `destination[1] = from[2]`, repeated at src/GameMath.h line 53 | `from = [a, b, c, d]` with b != c gives `[a, c, c, d]` | `destination[1] = from[1]`, a copy of the four components | high, not executed | NimbleMath.Vec4InitFromDropsIndexOne | NimbleMath.Vec4InitFromIntended |
| src/NimbleMath.c:30 | `((x >> 63) \| 1) * x` overflows `int64_t` before `x` is compared with INT64_MIN | INT64_MIN is undefined behaviour | test for INT64_MIN before computing \|x\|, giving 19 | high, not executed | NimbleMath.SignedDigitsMinimum | NimbleMath.Digits64Correct |
| src/NimbleMath.c:51 | `((x >> 31) \| 1) * x` overflows `int32_t` before `x` is compared with INT32_MIN | INT32_MIN is undefined behaviour | test for INT32_MIN before computing \|x\|, giving 10 | high, not executed | NimbleMath.SignedDigitsMinimum | NimbleMath.Digits32Correct |
| src/NimbleTime.c:39 | `ms % 1000` is added to the microseconds unscaled | a 1500 ms timer expires after 1.0005 s | `(ms % 1000) * 1000` microseconds | high, not executed | NimbleTime.SetTimerMillisAsWrittenCounterexample | NimbleTime.TimerExpiresAfterDelay |
| src/NimbleSystemInfo.c:188 | the reported length leaves out the separating space | "Darwin" and "19.6.0" report 12 for 13 characters | the full length of the name | high, not executed | SystemInfo.AppleLengthCounterexample | SystemInfo.GetOSString |
| src/NimbleWorldObjects.c:181 | the `memcpy` offsets multiply by the record size twice | destroying object 1 of 3 reads past the table; destroying object 0 of 3 copies between overlapping ranges | move the later records down one slot | high, not executed | WorldObjects.ShiftDownAsWrittenCounterexample | WorldObjects.ObjectDestroy |
| LicenseGenerator.py:34 | backslashes in the license are not escaped | the license line `\n` comes back as a newline | escape `\` as well as `"` | high, not executed | LicenseGenerator.BackslashCounterexample | LicenseGenerator.LicenseLiteralRoundTrip |
| scripts/LicenseGenerator.py:25 | `or` makes the separator test always true | run from `/home/u/engine/scripts` the directory is `/home/u/engine//` | `and`: append `/` only when neither separator ends the path | high, not executed | LicenseGenerator.FromScriptsDoublesSlash | LicenseGenerator.ScriptsDirectoryIntendedIdempotent |
| src/NimbleBigNumber.c:346 | the word index of `nimbleBigIntTET` is a `uint8_t` | two equal arrays of 256 zero words loop for ever | an index as wide as the size | high, not executed | BigNumber.TetCounterexample | BigNumber.Tet |
| src/NimbleBigNumber.c:46-51 | `remainingDigits` and the halving index `i` of `uintStringToBinary` are `uint8_t` | a 1 followed by 255 zeros: `i` wraps before it reaches 256 and the loop never ends | counters as wide as the 64-bit digit count | high, not executed | BigNumberParse.LongDigitsCounterexample | BigNumberParse.BinaryConversionBits |
| src/NimbleBigNumber.c:69 | `*leadingZeros` is recorded again while it is still 0 | the fraction `.15` records 1 leading zero | record the count on the first pass only | medium, not executed | BigNumberParse.LeadingZerosCounterexample | BigNumberParse.LeadingZerosRecordedOnce |
| src/NimbleBigNumber.c:125 | only the first digit is tested for zero | "01" reads as 0 | test for text that is all `0`s | medium, not executed | BigNumberText.LeadingZeroCounterexample | BigNumberText.IntFromStringValue |
| src/NimbleBigNumber.c:583 | `strncpy` of the signed text and the NUL at the signless index | "-12." reads as -1 | copy the sign and the digits before the point | high, not executed | BigNumberText.SignedPointCounterexample | BigNumberText.DecFromStringValue |
| src/NimbleBigNumber.c:628 | no digits before the point gives the unsigned word 0 | "-.5" reads as 0.5 | put the sign into that word as well | medium, not executed | BigNumberText.EmptyIntegerCounterexample | BigNumberText.DecFromStringValue |
| src/NimbleBigNumber.c:633 | a fraction of only `0`s leaves no digits to convert | "1.0" reads a buffer of no digits | the fraction 0 with no leading zeros | medium, not executed | BigNumberText.ZeroFractionCounterexample | BigNumberText.DecFromStringValue |
| src/NimbleBigNumber.c:561 | the do-while scan runs once before testing the index | "" reads the byte before the string | stop before reading when the text is empty | medium, not executed | BigNumberText.EmptyTextCounterexample | BigNumberText.DecFromStringValue |
| src/NimbleBigNumber.c:893 | the ordering tests never look at `leadingZeros` | 0.5 and 0.05 are neither equal, greater nor less | compare the values | medium, not executed | BigDecimal.LeadingZerosCounterexample | BigDecimal.DecTestByValueTrichotomy |
| src/NimbleBigNumber.c:906-919 | the decimal words are compared as integers, and a longer one counts as greater | 0.5 tests less than 0.25 | compare the fractions at a common number of digits | medium, not executed | BigDecimal.DecimalWordsCounterexample | BigDecimal.DecTestByValueTrichotomy |

=== FILE: big_decimal.dfy ===
/**
 * The big decimals of NimbleBigNumber.c. A `BigDec_t` is a signed big
 * integer for the part before the point, an unsigned big integer for the
 * digits after the point once their leading zeros are dropped, and the count
 * of those leading zeros. The arithmetic and rounding entry points only
 * check their arguments; the comparisons are complete.
 */
module BigDecimal {
  import opened CTypes
  import opened BigNumber
  import NimbleMath

  /** `BigDec_t`. */
  datatype BigDec = BigDec(integer: BigInt, decimal: BigInt, leadingZeros: uint32)

  /** `BIG_DEC_NULL`: either part NULL or of size 0. */
  predicate DecIsNull(x: BigDec) {
    IsNull(x.integer) || IsNull(x.decimal)
  }

  /**
   * `nimbleBigIntToBigDec`: the integer copied into a fresh array, the
   * decimal part the single word 0 with no leading zeros. A NULL array
   * becomes an empty one, as `malloc(0 + sizeof(void *))` is not NULL; the
   * `memcpy` of no bytes from the NULL array, undefined in ISO C, is taken
   * to copy nothing, as the GNU C library does.
   */
  function ToBigDec(x: BigInt): (d: BigDec)
    ensures d.decimal == BigInt(Some([0])) && d.leadingZeros == 0
    ensures d.integer.number.Some?
    ensures x.number.Some? ==> d.integer == x
    ensures DecIsNull(d) <==> IsNull(x)
  {
    BigDec(BigInt(Some(if x.number.None? then [] else x.number.value)), BigInt(Some([0])), 0)
  }

  /**
   * The status of `nimbleBigDecAdd` to `nimbleBigDecPow`. Multiplication has
   * no argument check at all; division, unlike the integer one, does not
   * look at the divisor.
   */
  function DecOperationStatus(op: Operation, x: BigDec, y: BigDec): (status: int32)
    ensures op == Mul ==> status == 0
    ensures op != Mul ==> (status == NULL_STATUS <==> DecIsNull(x) || DecIsNull(y))
    ensures status == 0 || status == NULL_STATUS
  {
    if op != Mul && (DecIsNull(x) || DecIsNull(y)) then NULL_STATUS else 0
  }

  /** `nimbleBigDecFloor`, `Ceil`, their `ToPrecision` and `ToBigInt` forms: a NULL check and nothing else. */
  function RoundingStatus(x: BigDec): (status: int32)
    ensures status == NULL_STATUS <==> DecIsNull(x)
    ensures status != NULL_STATUS ==> status == 0
  {
    StatusesDistinct();
    if DecIsNull(x) then NULL_STATUS else 0
  }

  /* ---------------------------------------------------------------------- */
  /* Equality test                                                           */
  /* ---------------------------------------------------------------------- */

  /**
   * `nimbleBigDecTET` as written: sizes and leading zeros first, then the
   * integer words and the decimal words, each with the wrapping `uint8_t`
   * loop of the integer test.
   */
  function DecTetAsWritten(x: BigDec, y: BigDec): (r: Outcome<int32>)
    ensures DecIsNull(x) || DecIsNull(y) ==> r == Returns(NULL_STATUS)
  {
    if DecIsNull(x) || DecIsNull(y) then Returns(NULL_STATUS)
    else
      var xi, yi, xd, yd := x.integer.number.value, y.integer.number.value, x.decimal.number.value, y.decimal.number.value;
      if |xi| != |yi| || |xd| != |yd| || x.leadingZeros != y.leadingZeros then Returns(0)
      else
        match TetLoop(xi, yi, 0)
        case Returns(1) => TetLoop(xd, yd, 0)
        case other => other
  }

  /** `nimbleBigDecTET` with wide counters: 1 exactly when both parts and the leading zeros agree. */
  function DecTet(x: BigDec, y: BigDec): (r: int32)
    ensures r == NULL_STATUS <==> DecIsNull(x) || DecIsNull(y)
    ensures !DecIsNull(x) && !DecIsNull(y) ==> (r == 1 <==> x == y) && (r == 0 <==> x != y)
  {
    StatusesDistinct();
    if DecIsNull(x) || DecIsNull(y) then NULL_STATUS
    else if x.leadingZeros != y.leadingZeros then 0
    else if Tet(x.integer, y.integer) == 1 && Tet(x.decimal, y.decimal) == 1 then 1
    else 0
  }

  /** Below 256 words per part the as-written test is the full one. */
  lemma DecTetAsWrittenShort(x: BigDec, y: BigDec)
    requires !DecIsNull(x) && !DecIsNull(y)
    requires |x.integer.number.value| < UINT8_LIMIT && |x.decimal.number.value| < UINT8_LIMIT
    ensures DecTetAsWritten(x, y) == Returns(DecTet(x, y))
  {
    var xi, yi, xd, yd := x.integer.number.value, y.integer.number.value, x.decimal.number.value, y.decimal.number.value;
    if |xi| == |yi| && |xd| == |yd| && x.leadingZeros == y.leadingZeros {
      TetLoopShort(xi, yi, 0);
      TetLoopShort(xd, yd, 0);
      assert xi[0..] == xi && yi[0..] == yi && xd[0..] == xd && yd[0..] == yd;
    }
  }

  /* ---------------------------------------------------------------------- */
  /* Ordering tests                                                          */
  /* ---------------------------------------------------------------------- */

  /**
   * `nimbleBigDecTGT`, `TLT`, `TGE`, `TLE`. The integer parts are compared
   * as in the integer tests; only when their words are identical are the
   * decimal parts compared, word by word when equally long and by size
   * otherwise, with the sign of the integer part flipping the answer.
   * `leadingZeros` is never consulted.
   */
  function DecTest(t: Test, x: BigDec, y: BigDec): (r: int32)
    ensures r == NULL_STATUS <==> DecIsNull(x) || DecIsNull(y)
    ensures r != NULL_STATUS ==> r == 0 || r == 1
  {
    StatusesDistinct();
    if DecIsNull(x) || DecIsNull(y) then NULL_STATUS
    else
      var xi, yi, xd, yd := x.integer.number.value, y.integer.number.value, x.decimal.number.value, y.decimal.number.value;
      var xNeg, yNeg := SignBit(xi[0]), SignBit(yi[0]);
      if xNeg && !yNeg then Bit(t == TLT || t == TLE)
      else if !xNeg && yNeg then Bit(t == TGT || t == TGE)
      else if |xi| == |yi| then
        match FirstDifference(xi, yi)
        case Some(i) => Bit(Strictly(t, xi[i] as int, yi[i] as int) != xNeg)
        case None =>
          if |xd| == |yd| then
            match FirstDifference(xd, yd)
            case Some(i) => Bit(Strictly(t, xd[i] as int, yd[i] as int) != xNeg)
            case None => Bit(t == TGE || t == TLE)
          else Bit(Strictly(t, |xd|, |yd|) != xNeg)
      else Bit(Strictly(t, |xi|, |yi|) != xNeg)
  }

  /** The greater-than tests are the less-than tests with the operands swapped. */
  lemma DecTestConverse(x: BigDec, y: BigDec)
    ensures DecTest(TGT, x, y) == DecTest(TLT, y, x)
    ensures DecTest(TGE, x, y) == DecTest(TLE, y, x)
  {
    if !DecIsNull(x) && !DecIsNull(y) {
      var xi, yi, xd, yd := x.integer.number.value, y.integer.number.value, x.decimal.number.value, y.decimal.number.value;
      if |xi| == |yi| {
        FirstDifferenceSymmetric(xi, yi);
      }
      if |xd| == |yd| {
        FirstDifferenceSymmetric(xd, yd);
      }
    }
  }

  /** On operands with the same words in both parts the strict tests say 0 and the others 1. */
  lemma DecTestEqualParts(x: BigDec, y: BigDec)
    requires !DecIsNull(x) && x.integer == y.integer && x.decimal == y.decimal
    ensures DecTest(TGT, x, y) == 0 && DecTest(TLT, x, y) == 0
    ensures DecTest(TGE, x, y) == 1 && DecTest(TLE, x, y) == 1
  {
  }

  /** `x >= y` is the negation of `x < y`, and `x <= y` of `x > y`. */
  lemma DecTestComplement(x: BigDec, y: BigDec)
    requires !DecIsNull(x) && !DecIsNull(y)
    ensures DecTest(TGE, x, y) == 1 - DecTest(TLT, x, y)
    ensures DecTest(TLE, x, y) == 1 - DecTest(TGT, x, y)
  {
  }

  /** A converted integer compares as the integer did: the decimal parts are both the word 0. */
  lemma DecTestOfIntegers(t: Test, x: BigInt, y: BigInt)
    ensures DecTest(t, ToBigDec(x), ToBigDec(y)) == IntTest(t, x, y)
    ensures DecTet(ToBigDec(x), ToBigDec(y)) == Tet(x, y)
  {
  }

  /** When the integer parts differ the decimal parts are never looked at: the test is the integer test. */
  lemma DecTestByIntegerPart(t: Test, x: BigDec, y: BigDec)
    requires !DecIsNull(x) && !DecIsNull(y) && x.integer.number.value != y.integer.number.value
    ensures DecTest(t, x, y) == IntTest(t, x.integer, y.integer)
  {
  }

  /* ---------------------------------------------------------------------- */
  /* The numbers decimals stand for                                          */
  /* ---------------------------------------------------------------------- */

  /** How many digits follow the point: the leading zeros, then the digits of the decimal part. */
  function FractionDigits(x: BigDec): nat
    requires !DecIsNull(x)
  {
    x.leadingZeros + NimbleMath.NumDigits(Unsigned(x.decimal.number.value))
  }

  /** The decimal times 10^FractionDigits: integer magnitude and fraction digits, under the integer part's sign. */
  function Scaled(x: BigDec): int
    requires !DecIsNull(x)
  {
    var xi := x.integer.number.value;
    var m := Magnitude(xi) * NimbleMath.Pow10(FractionDigits(x)) + Unsigned(x.decimal.number.value);
    if Negative(xi) then -m else m
  }

  /**
   * The comparisons as the decimals' values call for: both sides brought to
   * a common number of fraction digits before comparing.
   */
  function DecTestByValue(t: Test, x: BigDec, y: BigDec): (r: int32)
    ensures r == NULL_STATUS <==> DecIsNull(x) || DecIsNull(y)
    ensures r != NULL_STATUS ==> r == 0 || r == 1
  {
    StatusesDistinct();
    if DecIsNull(x) || DecIsNull(y) then NULL_STATUS
    else Bit(Holds(t, Scaled(x) * NimbleMath.Pow10(FractionDigits(y)), Scaled(y) * NimbleMath.Pow10(FractionDigits(x))))
  }

  /** Equality by value, the partner of `DecTestByValue`. */
  function DecTetByValue(x: BigDec, y: BigDec): (r: int32)
    ensures r == NULL_STATUS <==> DecIsNull(x) || DecIsNull(y)
    ensures r != NULL_STATUS ==> r == 0 || r == 1
  {
    StatusesDistinct();
    if DecIsNull(x) || DecIsNull(y) then NULL_STATUS
    else Bit(Scaled(x) * NimbleMath.Pow10(FractionDigits(y)) == Scaled(y) * NimbleMath.Pow10(FractionDigits(x)))
  }

  /** Compared by value, exactly one of equal, greater and less holds, and the tests are each other's converse. */
  lemma DecTestByValueTrichotomy(x: BigDec, y: BigDec)
    requires !DecIsNull(x) && !DecIsNull(y)
    ensures DecTetByValue(x, y) + DecTestByValue(TGT, x, y) + DecTestByValue(TLT, x, y) == 1
    ensures DecTestByValue(TGT, x, y) == DecTestByValue(TLT, y, x)
    ensures DecTestByValue(TGE, x, y) == 1 - DecTestByValue(TLT, x, y)
  {
  }

  /** A converted canonical integer stands for its own value, with one fraction digit 0. */
  lemma ScaledOfInteger(x: BigInt)
    requires !IsNull(x) && Canonical(x.number.value)
    ensures FractionDigits(ToBigDec(x)) == 1
    ensures Scaled(ToBigDec(x)) == Value(x.number.value) * 10
  {
    assert Unsigned([0]) == 0 * Radix(0) + Unsigned([]);
  }

  /** On converted canonical integers the by-value tests agree with the integer tests. */
  lemma DecTestByValueOfIntegers(t: Test, x: BigInt, y: BigInt)
    requires !IsNull(x) && !IsNull(y)
    requires Canonical(x.number.value) && Canonical(y.number.value)
    ensures DecTestByValue(t, ToBigDec(x), ToBigDec(y)) == IntTest(t, x, y)
  {
    ScaledOfInteger(x);
    ScaledOfInteger(y);
    IntTestAgreesWithValue(t, x, y);
    var a, b := Value(x.number.value), Value(y.number.value);
    assert Scaled(ToBigDec(x)) * NimbleMath.Pow10(1) == a * 100;
    assert Scaled(ToBigDec(y)) * NimbleMath.Pow10(1) == b * 100;
  }

  /**
   * 0.5 and 0.05: the same integer part [0] and decimal part [5], one with a
   * leading zero after the point. The as-written tests report neither equal,
   * nor greater, nor less; by value 0.5 is the greater.
   */
  lemma LeadingZerosCounterexample(x: BigDec, y: BigDec)
    requires x == BigDec(BigInt(Some([0])), BigInt(Some([5])), 0)
    requires y == BigDec(BigInt(Some([0])), BigInt(Some([5])), 1)
    ensures DecTet(x, y) == 0 && DecTest(TGT, x, y) == 0 && DecTest(TLT, x, y) == 0
    ensures DecTestByValue(TGT, x, y) == 1
  {
    assert Unsigned([5]) == 5 * Radix(0) + Unsigned([]);
    assert Unsigned([0]) == 0 * Radix(0) + Unsigned([]);
    assert FractionDigits(x) == 1 && FractionDigits(y) == 2;
    assert Scaled(x) == 5 && Scaled(y) == 5;
    assert NimbleMath.Pow10(2) == 100;
  }

  /**
   * 0.5 and 0.25: the same integer part [0], decimal parts [5] and [25] and no
   * leading zeros. As written the decimal words are compared as integers, so
   * 0.5 tests less than 0.25; by value it is the greater.
   */
  lemma DecimalWordsCounterexample(x: BigDec, y: BigDec)
    requires x == BigDec(BigInt(Some([0])), BigInt(Some([5])), 0)
    requires y == BigDec(BigInt(Some([0])), BigInt(Some([25])), 0)
    ensures DecTest(TLT, x, y) == 1 && DecTest(TGT, x, y) == 0
    ensures DecTestByValue(TLT, x, y) == 0 && DecTestByValue(TGT, x, y) == 1
  {
    assert DecTest(TLT, x, y) == 1 && DecTest(TGT, x, y) == 0 by {
      assert FirstDifference([5], [25]) == Some(0);
    }
    NimbleMath.Pow10Values();
    assert Scaled(x) == 5 by {
      assert Unsigned([5]) == 5 * Radix(0) + Unsigned([]);
      assert Unsigned([0]) == 0 * Radix(0) + Unsigned([]);
      assert FractionDigits(x) == 1;
    }
    assert Scaled(y) == 25 by {
      assert Unsigned([25]) == 25 * Radix(0) + Unsigned([]);
      assert Unsigned([0]) == 0 * Radix(0) + Unsigned([]);
      assert FractionDigits(y) == 2 by {
        NimbleMath.NumDigitsIs(25, 2);
      }
    }
    assert FractionDigits(x) == 1 && FractionDigits(y) == 2 by {
      assert Unsigned([5]) == 5 * Radix(0) + Unsigned([]);
      assert Unsigned([25]) == 25 * Radix(0) + Unsigned([]);
      NimbleMath.NumDigitsIs(25, 2);
    }
  }
}

=== FILE: big_number.dfy ===
/**
 * The big integers of NimbleBigNumber.c. A `BigInt_t` is an array of `size`
 * 32-bit words, word 0 the most significant, holding a sign-magnitude
 * number: the top bit of word 0 is the sign and every other bit belongs to
 * the magnitude. The arithmetic entry points are unfinished and only check
 * their arguments; the five comparisons are complete and are modelled here
 * together with the integer each word array stands for.
 */
module BigNumber {
  import opened CTypes
  import NimbleError

  /**
   * `BigInt_t`. `number` is None for a NULL array; otherwise it holds the
   * `size` words. A NULL array always comes with size 0 in the source (the
   * `{}` initialiser), so the size is not stored separately.
   */
  datatype BigInt = BigInt(number: Option<seq<uint32>>)

  /** `BIG_INT_NULL`: a NULL array or a size of 0. */
  predicate IsNull(x: BigInt) {
    x.number.None? || |x.number.value| == 0
  }

  /** `NIMBLE_ERROR_GENERAL_NULL` and `NIMBLE_ERROR_MATH_DIVIDE_BY_ZERO` as the `int32_t` a caller sees. */
  const NULL_STATUS: int32 := NimbleError.AsInt32(NimbleError.GENERAL_NULL)
  const DIVIDE_BY_ZERO_STATUS: int32 := NimbleError.AsInt32(NimbleError.MATH_DIVIDE_BY_ZERO)

  lemma StatusesDistinct()
    ensures NULL_STATUS < 0 && DIVIDE_BY_ZERO_STATUS < 0 && NULL_STATUS != DIVIDE_BY_ZERO_STATUS
  {
    assert NimbleError.HasErrorBit(NimbleError.GENERAL_NULL);
    assert NimbleError.HasErrorBit(NimbleError.MATH_DIVIDE_BY_ZERO);
  }

  /** The arithmetic operations, for integers and decimals alike; their bodies are unfinished. */
  datatype Operation = Add | Sub | Mul | Div | Mod | Pow

  /** `(y.size == 1) && !y.number[0]`: the single word 0 (a negative zero does not match). */
  predicate IsZeroWord(y: BigInt) {
    y.number == Some([0])
  }

  /**
   * The status `nimbleBigIntAdd` to `nimbleBigIntPow` return. A NULL operand
   * is reported first; division alone also rejects the zero divisor; every
   * other call reports success without writing `result`.
   */
  function IntOperationStatus(op: Operation, x: BigInt, y: BigInt): (status: int32)
    ensures status == NULL_STATUS <==> IsNull(x) || IsNull(y)
    ensures status == DIVIDE_BY_ZERO_STATUS <==> op == Div && !IsNull(x) && IsZeroWord(y)
    ensures status == 0 <==> !IsNull(x) && !IsNull(y) && !(op == Div && IsZeroWord(y))
  {
    StatusesDistinct();
    if IsNull(x) || IsNull(y) then NULL_STATUS
    else if op == Div && IsZeroWord(y) then DIVIDE_BY_ZERO_STATUS
    else 0
  }

  /* ---------------------------------------------------------------------- */
  /* The word scan the comparisons share                                     */
  /* ---------------------------------------------------------------------- */

  /** The first index at which two equally long word arrays differ, if any. */
  function FirstDifference(xs: seq<uint32>, ys: seq<uint32>): (r: Option<nat>)
    requires |xs| == |ys|
    ensures r.None? <==> xs == ys
    ensures r.Some? ==> r.value < |xs| && xs[..r.value] == ys[..r.value] && xs[r.value] != ys[r.value]
  {
    if |xs| == 0 then None
    else if xs[0] != ys[0] then Some(0)
    else
      assert xs == [xs[0]] + xs[1..] && ys == [ys[0]] + ys[1..];
      match FirstDifference(xs[1..], ys[1..])
      case None => None
      case Some(i) =>
        assert xs[..i + 1] == [xs[0]] + xs[1..][..i];
        assert ys[..i + 1] == [ys[0]] + ys[1..][..i];
        Some(i + 1)
  }

  /** A common prefix followed by a differing word pins down the first difference. */
  lemma FirstDifferenceIs(xs: seq<uint32>, ys: seq<uint32>, i: nat)
    requires |xs| == |ys| && i < |xs| && xs[..i] == ys[..i] && xs[i] != ys[i]
    ensures FirstDifference(xs, ys) == Some(i)
  {
    var r := FirstDifference(xs, ys);
    assert r.Some?;
    var j := r.value;
    PrefixAgrees(xs, ys, i);
    PrefixAgrees(xs, ys, j);
  }

  lemma PrefixAgrees(xs: seq<uint32>, ys: seq<uint32>, n: nat)
    requires n <= |xs| && n <= |ys| && xs[..n] == ys[..n]
    ensures forall k | 0 <= k < n :: xs[k] == ys[k]
  {
    forall k | 0 <= k < n
      ensures xs[k] == ys[k]
    {
      assert xs[..n][k] == ys[..n][k];
    }
  }

  /** The scan does not depend on the order of its arguments. */
  lemma FirstDifferenceSymmetric(xs: seq<uint32>, ys: seq<uint32>)
    requires |xs| == |ys|
    ensures FirstDifference(ys, xs) == FirstDifference(xs, ys)
  {
    match FirstDifference(xs, ys)
    case None =>
    case Some(i) => FirstDifferenceIs(ys, xs, i);
  }

  /* ---------------------------------------------------------------------- */
  /* Equality test                                                           */
  /* ---------------------------------------------------------------------- */

  /**
   * `nimbleBigIntTET` as written. The word loop counts with a `uint8_t`: once
   * it passes word 255 the counter wraps to 0 and the same words are compared
   * again, so equal arrays of 256 words or more are never answered.
   */
  function TetAsWritten(x: BigInt, y: BigInt): (r: Outcome<int32>)
    ensures IsNull(x) || IsNull(y) ==> r == Returns(NULL_STATUS)
  {
    if IsNull(x) || IsNull(y) then Returns(NULL_STATUS)
    else if |x.number.value| != |y.number.value| then Returns(0)
    else TetLoop(x.number.value, y.number.value, 0)
  }

  /** The word loop of `nimbleBigIntTET` from counter value `i` on. */
  function TetLoop(xs: seq<uint32>, ys: seq<uint32>, i: nat): Outcome<int32>
    requires |xs| == |ys| && i <= UINT8_LIMIT
    decreases UINT8_LIMIT - i
  {
    if i == UINT8_LIMIT then Diverges
    else if i >= |xs| then Returns(1)
    else if xs[i] != ys[i] then Returns(0)
    else TetLoop(xs, ys, i + 1)
  }

  /** `nimbleBigIntTET` with a counter wide enough for every size: 1 exactly for equal word arrays. */
  function Tet(x: BigInt, y: BigInt): (r: int32)
    ensures r == NULL_STATUS <==> IsNull(x) || IsNull(y)
    ensures !IsNull(x) && !IsNull(y) ==> (r == 1 <==> x.number == y.number) && (r == 0 <==> x.number != y.number)
  {
    StatusesDistinct();
    if IsNull(x) || IsNull(y) then NULL_STATUS
    else if |x.number.value| != |y.number.value| then 0
    else if FirstDifference(x.number.value, y.number.value).None? then 1
    else 0
  }

  /** Below 256 words the wrapping loop answers like the full comparison. */
  lemma {:induction false} TetLoopShort(xs: seq<uint32>, ys: seq<uint32>, i: nat)
    requires |xs| == |ys| < UINT8_LIMIT && i <= |xs|
    ensures TetLoop(xs, ys, i) == Returns(if xs[i..] == ys[i..] then 1 else 0)
    decreases |xs| - i
  {
    if i < |xs| {
      assert xs[i..] == [xs[i]] + xs[i + 1..] && ys[i..] == [ys[i]] + ys[i + 1..];
      if xs[i] == ys[i] {
        TetLoopShort(xs, ys, i + 1);
      }
    }
  }

  /** With 256 equal leading words the loop never ends, whatever follows them. */
  lemma {:induction false} TetLoopWraps(xs: seq<uint32>, ys: seq<uint32>, i: nat)
    requires |xs| == |ys| >= UINT8_LIMIT && i <= UINT8_LIMIT
    requires forall k | i <= k < UINT8_LIMIT :: xs[k] == ys[k]
    ensures TetLoop(xs, ys, i) == Diverges
    decreases UINT8_LIMIT - i
  {
    if i < UINT8_LIMIT {
      TetLoopWraps(xs, ys, i + 1);
    }
  }

  /** Up to 255 words the as-written test is the full one. */
  lemma TetAsWrittenShort(x: BigInt, y: BigInt)
    requires !IsNull(x) && !IsNull(y) && |x.number.value| < UINT8_LIMIT
    ensures TetAsWritten(x, y) == Returns(Tet(x, y))
  {
    if |x.number.value| == |y.number.value| {
      TetLoopShort(x.number.value, y.number.value, 0);
      assert x.number.value[0..] == x.number.value && y.number.value[0..] == y.number.value;
    }
  }

  /** From 256 words on, equal leading words make the as-written test hang. */
  lemma TetAsWrittenLong(x: BigInt, y: BigInt)
    requires !IsNull(x) && !IsNull(y) && |x.number.value| == |y.number.value| >= UINT8_LIMIT
    requires x.number.value[..UINT8_LIMIT] == y.number.value[..UINT8_LIMIT]
    ensures TetAsWritten(x, y) == Diverges
  {
    var xs, ys := x.number.value, y.number.value;
    assert forall k | 0 <= k < UINT8_LIMIT :: xs[k] == xs[..UINT8_LIMIT][k] == ys[..UINT8_LIMIT][k] == ys[k];
    TetLoopWraps(xs, ys, 0);
  }

  /** 256 zero words compared with themselves: the full test says 1, the as-written one never returns. */
  lemma TetCounterexample(x: BigInt)
    requires x.number == Some(seq(UINT8_LIMIT, _ => 0))
    ensures TetAsWritten(x, x) == Diverges
    ensures Tet(x, x) == 1
  {
    TetAsWrittenLong(x, x);
  }

  /* ---------------------------------------------------------------------- */
  /* Ordering tests                                                          */
  /* ---------------------------------------------------------------------- */

  /** `nimbleBigIntTGT`, `nimbleBigIntTLT`, `nimbleBigIntTGE`, `nimbleBigIntTLE`. */
  datatype Test = TGT | TLT | TGE | TLE

  const HALF: nat := 0x8000_0000
  const WORD: nat := 0x1_0000_0000

  /** `(w >> 31) & 1`: the top bit of a word. */
  predicate SignBit(w: uint32) {
    w / HALF == 1
  }

  /** The relation a test names, on two numbers. */
  predicate Holds(t: Test, a: int, b: int) {
    match t
    case TGT => a > b
    case TLT => a < b
    case TGE => a >= b
    case TLE => a <= b
  }

  /** The strict part of a test, which is what the word and size comparisons use. */
  predicate Strictly(t: Test, a: int, b: int) {
    if t == TGT || t == TGE then a > b else a < b
  }

  /** A C truth value, 0 or 1. */
  function Bit(b: bool): (r: int32)
    ensures r == 1 <==> b
    ensures r == 0 <==> !b
  {
    if b then 1 else 0
  }

  /**
   * The four ordering tests. Differing signs decide at once; equal signs
   * compare equally long arrays at their first differing word and otherwise
   * by size, the answer flipped for negative operands (`^ xNeg`); equal
   * arrays give 0 for the strict tests and 1 for the others.
   */
  function IntTest(t: Test, x: BigInt, y: BigInt): (r: int32)
    ensures r == NULL_STATUS <==> IsNull(x) || IsNull(y)
    ensures r != NULL_STATUS ==> r == 0 || r == 1
  {
    StatusesDistinct();
    if IsNull(x) || IsNull(y) then NULL_STATUS
    else
      var xs, ys := x.number.value, y.number.value;
      var xNeg, yNeg := SignBit(xs[0]), SignBit(ys[0]);
      if xNeg && !yNeg then Bit(t == TLT || t == TLE)
      else if !xNeg && yNeg then Bit(t == TGT || t == TGE)
      else if |xs| == |ys| then
        match FirstDifference(xs, ys)
        case Some(i) => Bit(Strictly(t, xs[i] as int, ys[i] as int) != xNeg)
        case None => Bit(t == TGE || t == TLE)
      else Bit(Strictly(t, |xs|, |ys|) != xNeg)
  }

  /** The greater-than tests are the less-than tests with the operands swapped. */
  lemma IntTestConverse(x: BigInt, y: BigInt)
    ensures IntTest(TGT, x, y) == IntTest(TLT, y, x)
    ensures IntTest(TGE, x, y) == IntTest(TLE, y, x)
  {
    if !IsNull(x) && !IsNull(y) && |x.number.value| == |y.number.value| {
      FirstDifferenceSymmetric(x.number.value, y.number.value);
    }
  }

  /** On equal word arrays the strict tests say 0 and the others 1. */
  lemma IntTestEqualInputs(x: BigInt, y: BigInt)
    requires !IsNull(x) && x.number == y.number
    ensures IntTest(TGT, x, y) == 0 && IntTest(TLT, x, y) == 0
    ensures IntTest(TGE, x, y) == 1 && IntTest(TLE, x, y) == 1
  {
  }

  /** On differing arrays each non-strict test answers like its strict one. */
  lemma IntTestDifferentInputs(x: BigInt, y: BigInt)
    requires !IsNull(x) && !IsNull(y) && x.number != y.number
    ensures IntTest(TGE, x, y) == IntTest(TGT, x, y)
    ensures IntTest(TLE, x, y) == IntTest(TLT, x, y)
  {
  }

  /** `x >= y` is the negation of `x < y`, and `x <= y` of `x > y`. */
  lemma IntTestComplement(x: BigInt, y: BigInt)
    requires !IsNull(x) && !IsNull(y)
    ensures IntTest(TGE, x, y) == 1 - IntTest(TLT, x, y)
    ensures IntTest(TLE, x, y) == 1 - IntTest(TGT, x, y)
  {
  }

  /** Exactly one of equal, greater and less holds. */
  lemma IntTestTrichotomy(x: BigInt, y: BigInt)
    requires !IsNull(x) && !IsNull(y)
    ensures Tet(x, y) + IntTest(TGT, x, y) + IntTest(TLT, x, y) == 1
  {
  }

  /* ---------------------------------------------------------------------- */
  /* The numbers the words stand for                                         */
  /* ---------------------------------------------------------------------- */

  lemma MulLe(a: int, b: int, c: nat)
    requires a <= b
    ensures a * c <= b * c
  {
  }

  /** A digit d below `bound` followed by less than one unit p stays below `bound * p`. */
  lemma BelowNextMultiple(d: nat, p: nat, rest: nat, bound: nat)
    requires rest < p && d < bound
    ensures d * p + rest < bound * p
  {
    MulLe(d + 1, bound, p);
    assert (d + 1) * p == d * p + p;
  }

  /** 2^(32k), the weight of the word k places from the end. */
  function Radix(k: nat): (p: nat)
    ensures p >= 1
  {
    if k == 0 then 1 else WORD * Radix(k - 1)
  }

  lemma {:induction false} RadixMonotone(a: nat, b: nat)
    requires a <= b
    ensures Radix(a) <= Radix(b)
    decreases b
  {
    if a < b {
      RadixMonotone(a, b - 1);
    }
  }

  /** The words read as one unsigned number, most significant first; it fits in their bits. */
  function Unsigned(ws: seq<uint32>): (v: nat)
    ensures v < Radix(|ws|)
  {
    if |ws| == 0 then 0
    else
      var p := Radix(|ws| - 1);
      BelowNextMultiple(ws[0], p, Unsigned(ws[1..]), WORD);
      ws[0] * p + Unsigned(ws[1..])
  }

  /** The sign of a word array: the top bit of word 0. */
  predicate Negative(ws: seq<uint32>)
    requires |ws| > 0
  {
    SignBit(ws[0])
  }

  /** Word 0 without its sign bit, followed by the other words. */
  function MagnitudeWords(ws: seq<uint32>): (m: seq<uint32>)
    requires |ws| > 0
    ensures |m| == |ws| && m[0] < HALF && m[1..] == ws[1..]
    ensures SignBit(ws[0]) ==> m[0] == ws[0] - HALF
    ensures !SignBit(ws[0]) ==> m[0] == ws[0]
  {
    var top: uint32 := ws[0] % HALF;
    [top] + ws[1..]
  }

  function Magnitude(ws: seq<uint32>): nat
    requires |ws| > 0
  {
    Unsigned(MagnitudeWords(ws))
  }

  /** The integer a word array stands for. */
  function Value(ws: seq<uint32>): int
    requires |ws| > 0
  {
    if Negative(ws) then -(Magnitude(ws) as int) else Magnitude(ws)
  }

  /**
   * The shape `nimbleBigIntFromString` gives its results: at least one word,
   * no negative zero, and no leading word beyond what the magnitude and its
   * sign bit need (word 0 holds magnitude bits, or word 1's top bit is set).
   */
  predicate Canonical(ws: seq<uint32>) {
    && |ws| > 0
    && !(Negative(ws) && Magnitude(ws) == 0)
    && (|ws| == 1 || ws[0] % HALF != 0 || SignBit(ws[1]))
  }

  /** The magnitude fits in the bits below the sign. */
  lemma MagnitudeBound(ws: seq<uint32>)
    requires |ws| > 0
    ensures Magnitude(ws) < HALF * Radix(|ws| - 1)
  {
    var m := MagnitudeWords(ws);
    var p := Radix(|ws| - 1);
    UnsignedHead(m);
    BelowNextMultiple(m[0], p, Unsigned(ws[1..]), HALF);
  }

  /** One step of `Unsigned`: the head word times its weight, plus the rest. */
  lemma UnsignedHead(ws: seq<uint32>)
    requires |ws| > 0
    ensures Unsigned(ws) == ws[0] * Radix(|ws| - 1) + Unsigned(ws[1..])
    ensures Unsigned(ws[1..]) < Radix(|ws| - 1)
  {
  }

  /** A canonical array of two or more words needs all of them. */
  lemma CanonicalLowerBound(ws: seq<uint32>)
    requires Canonical(ws) && |ws| >= 2
    ensures Magnitude(ws) >= HALF * Radix(|ws| - 2)
  {
    var m := MagnitudeWords(ws);
    var p, q := Radix(|ws| - 1), Radix(|ws| - 2);
    assert p == WORD * q;
    UnsignedHead(m);
    if m[0] != 0 {
      MulLe(1, m[0], p);
      MulLe(HALF, WORD, q);
    } else {
      assert m[1..] == ws[1..];
      UnsignedHead(ws[1..]);
      assert ws[1..][1..] == ws[2..];
      MulLe(HALF, ws[1], q);
    }
  }

  /** Of two canonical arrays, the longer has the larger magnitude. */
  lemma LongerIsLarger(xs: seq<uint32>, ys: seq<uint32>)
    requires Canonical(xs) && Canonical(ys) && |xs| > |ys|
    ensures Magnitude(xs) > Magnitude(ys)
  {
    MagnitudeBound(ys);
    CanonicalLowerBound(xs);
    RadixMonotone(|ys| - 1, |xs| - 2);
    MulLe(Radix(|ys| - 1), Radix(|xs| - 2), HALF);
  }

  /** Comparing equally long unsigned numbers at their first differing word orders them. */
  lemma {:induction false} UnsignedLex(xs: seq<uint32>, ys: seq<uint32>, i: nat)
    requires |xs| == |ys| && i < |xs| && xs[..i] == ys[..i] && xs[i] < ys[i]
    ensures Unsigned(xs) < Unsigned(ys)
    decreases i
  {
    var p := Radix(|xs| - 1);
    UnsignedHead(xs);
    UnsignedHead(ys);
    if i == 0 {
      BelowNextMultiple(xs[0], p, Unsigned(xs[1..]), ys[0]);
      MulLe(ys[0], ys[0], p);
    } else {
      assert xs[0] == xs[..i][0] == ys[..i][0] == ys[0];
      assert xs[1..][..i - 1] == xs[..i][1..] == ys[..i][1..] == ys[1..][..i - 1];
      UnsignedLex(xs[1..], ys[1..], i - 1);
    }
  }

  /** With equal signs, the first differing word orders the magnitudes the same way. */
  lemma MagnitudeLex(xs: seq<uint32>, ys: seq<uint32>, i: nat)
    requires |xs| == |ys| && i < |xs| && xs[..i] == ys[..i] && xs[i] > ys[i]
    requires SignBit(xs[0]) == SignBit(ys[0])
    ensures Magnitude(xs) > Magnitude(ys)
  {
    var mx, my := MagnitudeWords(xs), MagnitudeWords(ys);
    if i > 0 {
      assert xs[0] == xs[..i][0] == ys[..i][0] == ys[0];
      assert mx[..i] == [mx[0]] + xs[1..i] && my[..i] == [my[0]] + ys[1..i];
      assert xs[1..i] == xs[..i][1..] == ys[..i][1..] == ys[1..i];
      assert mx[i] == xs[i] && my[i] == ys[i];
    }
    UnsignedLex(my, mx, i);
  }

  /** Canonical negative numbers are below zero, and every other canonical number is not. */
  lemma CanonicalSign(ws: seq<uint32>)
    requires Canonical(ws)
    ensures Negative(ws) <==> Value(ws) < 0
  {
  }

  /**
   * On canonical operands the four tests answer exactly the comparison of
   * the integers the arrays stand for.
   */
  lemma IntTestAgreesWithValue(t: Test, x: BigInt, y: BigInt)
    requires !IsNull(x) && !IsNull(y)
    requires Canonical(x.number.value) && Canonical(y.number.value)
    ensures IntTest(t, x, y) == Bit(Holds(t, Value(x.number.value), Value(y.number.value)))
  {
    var xs, ys := x.number.value, y.number.value;
    CanonicalSign(xs);
    CanonicalSign(ys);
    if SignBit(xs[0]) == SignBit(ys[0]) {
      if |xs| == |ys| {
        match FirstDifference(xs, ys)
        case None =>
        case Some(i) =>
          if xs[i] > ys[i] {
            MagnitudeLex(xs, ys, i);
          } else {
            MagnitudeLex(ys, xs, i);
          }
      } else if |xs| > |ys| {
        LongerIsLarger(xs, ys);
      } else {
        LongerIsLarger(ys, xs);
      }
    }
  }

  /** On canonical operands the equality test answers equality of the integers. */
  lemma TetAgreesWithValue(x: BigInt, y: BigInt)
    requires !IsNull(x) && !IsNull(y)
    requires Canonical(x.number.value) && Canonical(y.number.value)
    ensures Tet(x, y) == Bit(Value(x.number.value) == Value(y.number.value))
  {
    IntTestAgreesWithValue(TGT, x, y);
    IntTestAgreesWithValue(TLT, x, y);
    IntTestTrichotomy(x, y);
  }
}

=== FILE: big_number_bits.dfy ===
/**
 * Bits and words of a big integer. `uintStringToBinary` writes the bits of
 * a number least significant first, bit `b` at position `b % 32` of a word
 * that moves one index lower every 32 bits, so the least significant word
 * ends up at the highest index; `nimbleBigIntFromString` then ORs the sign
 * into the top bit of word 0.
 */
module BigNumberBits {
  import opened CTypes
  import opened BigNumber

  /* ---------------------------------------------------------------------- */
  /* Bit sequences                                                           */
  /* ---------------------------------------------------------------------- */

  /** 2^k. */
  function Pow2(k: nat): (p: nat)
    ensures p >= 1
  {
    if k == 0 then 1 else 2 * Pow2(k - 1)
  }

  lemma {:induction false} Pow2Add(a: nat, b: nat)
    ensures Pow2(a + b) == Pow2(a) * Pow2(b)
    decreases a
  {
    if a > 0 {
      Pow2Add(a - 1, b);
      assert Pow2(a + b) == 2 * (Pow2(a - 1) * Pow2(b));
    }
  }

  lemma {:induction false} Pow2Monotone(a: nat, b: nat)
    requires a <= b
    ensures Pow2(a) <= Pow2(b)
    decreases b
  {
    if a < b {
      Pow2Monotone(a, b - 1);
    }
  }

  /** The weights of the sign bit and of a whole word. */
  lemma Pow2Word()
    ensures Pow2(31) == HALF && Pow2(32) == WORD
  {
    assert Pow2(4) == 16;
    Pow2Add(4, 4);
    Pow2Add(8, 8);
    Pow2Add(16, 16);
  }

  /** The number a bit sequence spells, least significant bit first. */
  function BitsValue(bs: seq<bool>): nat {
    if |bs| == 0 then 0 else (if bs[0] then 1 else 0) + 2 * BitsValue(bs[1..])
  }

  /** n bits spell less than 2^n, and at least 2^(n-1) when the highest is set. */
  lemma {:induction false} BitsValueBound(bs: seq<bool>)
    ensures BitsValue(bs) < Pow2(|bs|)
    ensures |bs| > 0 && bs[|bs| - 1] ==> BitsValue(bs) >= Pow2(|bs| - 1)
    decreases |bs|
  {
    if |bs| > 0 {
      BitsValueBound(bs[1..]);
      if |bs| > 1 {
        assert bs[1..][|bs| - 2] == bs[|bs| - 1];
      }
    }
  }

  /** A high 0 bit adds nothing. */
  lemma {:induction false} BitsValueHighZero(bs: seq<bool>)
    ensures BitsValue(bs + [false]) == BitsValue(bs)
    decreases |bs|
  {
    if |bs| > 0 {
      BitsValueHighZero(bs[1..]);
      assert (bs + [false])[1..] == bs[1..] + [false];
    } else {
      assert [false][1..] == [];
    }
  }

  lemma DoubleProduct(p: nat, h: nat)
    ensures 2 * (p * h) == (2 * p) * h
  {
  }

  /** The bits of a concatenation: the high part is weighted by 2^|low|. */
  lemma {:induction false} BitsValueAppend(low: seq<bool>, high: seq<bool>)
    ensures BitsValue(low + high) == BitsValue(low) + Pow2(|low|) * BitsValue(high)
    decreases |low|
  {
    if |low| > 0 {
      assert (low + high)[1..] == low[1..] + high;
      BitsValueAppend(low[1..], high);
      var b := if low[0] then 1 else 0;
      var p := Pow2(|low| - 1);
      var h := BitsValue(high);
      var rest := BitsValue(low[1..]);
      assert BitsValue(low + high) == b + 2 * (rest + p * h);
      DoubleProduct(p, h);
      assert BitsValue(low) == b + 2 * rest;
    } else {
      assert low + high == high;
    }
  }

  /** Bit k of v: v halved k times, then its parity. */
  predicate BitAt(v: nat, k: nat) {
    if k == 0 then v % 2 == 1 else BitAt(v / 2, k - 1)
  }

  /** Bit k of the number a bit sequence spells is the k-th bit of the sequence. */
  lemma {:induction false} BitAtBitsValue(bs: seq<bool>, k: nat)
    requires k < |bs|
    ensures BitAt(BitsValue(bs), k) == bs[k]
    decreases k
  {
    if k > 0 {
      BitAtBitsValue(bs[1..], k - 1);
    }
  }

  /** The binary digits of n, least significant first, with no high zeros. */
  function Binary(n: nat): (bs: seq<bool>)
    decreases n
  {
    if n == 0 then [] else [n % 2 == 1] + Binary(n / 2)
  }

  /** `Binary` spells n, its highest bit is set, and it is empty only for 0. */
  lemma {:induction false} BinaryValue(n: nat)
    ensures BitsValue(Binary(n)) == n
    ensures |Binary(n)| > 0 ==> Binary(n)[|Binary(n)| - 1]
    ensures |Binary(n)| == 0 <==> n == 0
    decreases n
  {
    if n > 0 {
      BinaryValue(n / 2);
      assert Binary(n)[1..] == Binary(n / 2);
    }
  }

  /* ---------------------------------------------------------------------- */
  /* Words                                                                   */
  /* ---------------------------------------------------------------------- */

  /** Up to 32 bits as one word, bit k at position k. */
  function Word(bs: seq<bool>): (w: uint32)
    requires |bs| <= 32
    ensures w as nat == BitsValue(bs)
  {
    BitsValueBound(bs);
    Pow2Monotone(|bs|, 32);
    Pow2Word();
    BitsValue(bs) as uint32
  }

  /**
   * The words the bit-writing loop fills, most significant first: bits
   * 0..31 go to the last word, the next 32 to the word before it, and the
   * last, possibly partial, group to word 0.
   */
  function Words(bits: seq<bool>): (ws: seq<uint32>)
    ensures |ws| == if |bits| == 0 then 1 else (|bits| + 31) / 32
    decreases |bits|
  {
    if |bits| <= 32 then [Word(bits)]
    else Words(bits[32..]) + [Word(bits[..32])]
  }

  /** The group of bits the word k places from the end holds. */
  function Group(bits: seq<bool>, k: nat): seq<bool>
    requires 32 * k < |bits|
  {
    if |bits| <= 32 * k + 32 then bits[32 * k..] else bits[32 * k..32 * k + 32]
  }

  /** The word k places from the end holds group k. */
  lemma {:induction false} WordsGroup(bits: seq<bool>, k: nat)
    requires 32 * k < |bits|
    ensures k < |Words(bits)|
    ensures Words(bits)[|Words(bits)| - 1 - k] as nat == BitsValue(Group(bits, k))
    decreases |bits|
  {
    if |bits| > 32 && k > 0 {
      WordsGroup(bits[32..], k - 1);
      assert bits[32..][32 * (k - 1)..] == bits[32 * k..];
      if |bits| > 32 * k + 32 {
        assert bits[32..][32 * (k - 1)..32 * (k - 1) + 32] == bits[32 * k..32 * k + 32];
      }
    }
  }

  /** Bit j sits at position j % 32 of the word j / 32 places from the end. */
  lemma WordsPlacement(bits: seq<bool>, j: nat)
    requires j < |bits|
    ensures j / 32 < |Words(bits)|
    ensures BitAt(Words(bits)[|Words(bits)| - 1 - j / 32] as nat, j % 32) == bits[j]
  {
    var k := j / 32;
    WordsGroup(bits, k);
    var g := Group(bits, k);
    assert g[j % 32] == bits[j];
    BitAtBitsValue(g, j % 32);
  }

  /** Appending a low word shifts the others up by one word. */
  lemma {:induction false} UnsignedAppend(ws: seq<uint32>, w: uint32)
    ensures Unsigned(ws + [w]) == Unsigned(ws) * WORD + w
    decreases |ws|
  {
    if |ws| > 0 {
      var rest := ws[1..];
      assert (ws + [w])[1..] == rest + [w];
      UnsignedAppend(rest, w);
      var p := Radix(|ws| - 1);
      assert Radix(|ws|) == WORD * p;
      assert ws[0] * (WORD * p) == (ws[0] * p) * WORD;
      assert (ws[0] * p + Unsigned(rest)) * WORD == (ws[0] * p) * WORD + Unsigned(rest) * WORD;
    } else {
      assert [] + [w] == [w];
    }
  }

  /** The words spell the number the bits do. */
  lemma {:induction false} WordsValue(bits: seq<bool>)
    ensures Unsigned(Words(bits)) == BitsValue(bits)
    decreases |bits|
  {
    if |bits| > 32 {
      WordsValue(bits[32..]);
      UnsignedAppend(Words(bits[32..]), Word(bits[..32]));
      assert bits == bits[..32] + bits[32..];
      BitsValueAppend(bits[..32], bits[32..]);
      Pow2Word();
    }
  }

  /** When the last bit written is a 0, word 0 leaves its top bit free for the sign. */
  lemma {:induction false} TopWordBelowHalf(bits: seq<bool>)
    requires |bits| > 0 && !bits[|bits| - 1]
    ensures Words(bits)[0] < HALF
    decreases |bits|
  {
    if |bits| <= 32 {
      var low := bits[..|bits| - 1];
      assert bits == low + [false];
      BitsValueHighZero(low);
      BitsValueBound(low);
      Pow2Monotone(|low|, 31);
      Pow2Word();
    } else {
      TopWordBelowHalf(bits[32..]);
    }
  }

  /**
   * When the bits end in a set bit followed by one 0, word 0 holds a set
   * bit below the sign, or is all zeros and word 1's top bit is set.
   */
  lemma {:induction false} TopWordsSignificant(bits: seq<bool>)
    requires |bits| >= 2 && !bits[|bits| - 1] && bits[|bits| - 2]
    ensures Words(bits)[0] % HALF != 0 || (|Words(bits)| > 1 && SignBit(Words(bits)[1]))
    decreases |bits|
  {
    TopWordBelowHalf(bits);
    Pow2Word();
    if |bits| <= 32 {
      var low := bits[..|bits| - 1];
      assert bits == low + [false];
      BitsValueHighZero(low);
      BitsValueBound(low);
    } else if |bits| == 33 {
      var g := bits[..32];
      BitsValueBound(g);
      assert Words(bits) == [Word([false])] + [Word(g)] by {
        assert bits[32..] == [false];
      }
    } else {
      TopWordsSignificant(bits[32..]);
    }
  }

  /** `result.number[byte] |= sign << 31` on the compacted words. */
  function WithSign(ws: seq<uint32>, negative: bool): (r: seq<uint32>)
    requires |ws| > 0 && ws[0] < HALF
    ensures |r| == |ws| && r[1..] == ws[1..]
    ensures SignBit(r[0]) == negative && r[0] % HALF == ws[0]
  {
    if negative then [(ws[0] + HALF) as uint32] + ws[1..] else ws
  }

  /**
   * The words `nimbleBigIntFromString` builds for a magnitude n: the loop's
   * bits (the binary digits of n and one 0) with the sign ORed in. The top
   * bit of word 0 is free before the sign goes in, and the words spell n
   * under the given sign.
   */
  lemma SignedWordsMagnitude(n: nat, negative: bool)
    ensures var bits := Binary(n) + [false];
            Words(bits)[0] < HALF
            && var ws := WithSign(Words(bits), negative);
            Magnitude(ws) == n && Negative(ws) == negative
  {
    var bits := Binary(n) + [false];
    BinaryValue(n);
    TopWordBelowHalf(bits);
    var ws := Words(bits);
    var r := WithSign(ws, negative);
    WordsValue(bits);
    BitsValueHighZero(Binary(n));
    assert MagnitudeWords(r) == ws;
  }

  /** Without a sign, the loop's words spell n as an unsigned number. */
  lemma UnsignedWords(n: nat)
    ensures Unsigned(Words(Binary(n) + [false])) == n
  {
    BinaryValue(n);
    WordsValue(Binary(n) + [false]);
    BitsValueHighZero(Binary(n));
  }

  /** Putting the sign into significant words with a non-zero magnitude keeps the canonical shape. */
  lemma WithSignCanonical(ws: seq<uint32>, negative: bool)
    requires |ws| > 0 && ws[0] < HALF
    requires ws[0] % HALF != 0 || (|ws| > 1 && SignBit(ws[1]))
    requires Magnitude(WithSign(ws, negative)) > 0
    ensures Canonical(WithSign(ws, negative))
  {
    var r := WithSign(ws, negative);
    assert |r| > 1 ==> r[1] == ws[1];
  }

  /** For n > 0 those words have the canonical shape and stand for n or -n. */
  lemma SignedWordsValue(n: nat, negative: bool)
    requires n > 0
    ensures var bits := Binary(n) + [false];
            Words(bits)[0] < HALF
            && var ws := WithSign(Words(bits), negative);
            Canonical(ws) && Value(ws) == if negative then -(n as int) else n
  {
    var bits := Binary(n) + [false];
    SignedWordsMagnitude(n, negative);
    BinaryValue(n);
    assert bits[|bits| - 2] == Binary(n)[|Binary(n)| - 1];
    TopWordsSignificant(bits);
    WithSignCanonical(Words(bits), negative);
  }
}

=== FILE: big_number_parse.dfy ===
/**
 * Reading big numbers from text: the front end of `nimbleBigIntFromString`,
 * the decimal-to-binary loop of `uintStringToBinary`, which halves a decimal
 * digit string in place and emits one bit per pass, and the scan that
 * `nimbleBigDecFromString` makes for the point and the trailing zeros.
 */
module BigNumberParse {
  import opened CTypes
  import opened BigNumber
  import NimbleError
  import Decimal
  import opened BigNumberBits

  /* ---------------------------------------------------------------------- */
  /* Decimal digits                                                          */
  /* ---------------------------------------------------------------------- */

  /** Digit values after `string[i] - '0'`. */
  predicate IsDigitSeq(ds: seq<int>) {
    forall i | 0 <= i < |ds| :: 0 <= ds[i] <= 9
  }

  /** The number a digit sequence spells, most significant digit first. */
  function Number(ds: seq<int>): nat
    requires IsDigitSeq(ds)
  {
    if |ds| == 0 then 0 else 10 * Number(ds[..|ds| - 1]) + ds[|ds| - 1]
  }

  /** `convertedString[i] = string[i] - '0'` for every position. */
  function ConvertDigits(s: string): (ds: seq<int>)
    requires Decimal.AllDigits(s)
    ensures |ds| == |s| && IsDigitSeq(ds)
    ensures forall i | 0 <= i < |s| :: ds[i] == Decimal.DigitValue(s[i])
  {
    seq(|s|, i requires 0 <= i < |s| => s[i] as int - '0' as int)
  }

  /** The converted digits spell the number the text does. */
  lemma {:induction false} ConvertDigitsValue(s: string)
    requires Decimal.AllDigits(s)
    ensures Number(ConvertDigits(s)) == Decimal.ValueOf(s)
    decreases |s|
  {
    if |s| > 0 {
      var t := s[..|s| - 1];
      assert Decimal.AllDigits(t);
      ConvertDigitsValue(t);
      assert ConvertDigits(s)[..|s| - 1] == ConvertDigits(t);
    }
  }

  predicate AllZero(ds: seq<int>) {
    forall i | 0 <= i < |ds| :: ds[i] == 0
  }

  /** Leading zeros add nothing. */
  lemma {:induction false} NumberLeadingZeros(z: seq<int>, s: seq<int>)
    requires AllZero(z) && IsDigitSeq(s)
    ensures IsDigitSeq(z + s) && Number(z + s) == Number(s)
    decreases |s|
  {
    if |s| == 0 {
      assert z + s == z;
      NumberOfZeros(z);
    } else {
      assert (z + s)[..|z + s| - 1] == z + s[..|s| - 1];
      NumberLeadingZeros(z, s[..|s| - 1]);
    }
  }

  lemma {:induction false} NumberOfZeros(z: seq<int>)
    requires AllZero(z)
    ensures Number(z) == 0
    decreases |z|
  {
    if |z| > 0 {
      NumberOfZeros(z[..|z| - 1]);
    }
  }

  /** Exactly the all-zero digit strings spell 0. */
  lemma {:induction false} NumberZero(ds: seq<int>)
    requires IsDigitSeq(ds)
    ensures Number(ds) == 0 <==> AllZero(ds)
    decreases |ds|
  {
    if |ds| > 0 {
      var prefix := ds[..|ds| - 1];
      NumberZero(prefix);
      assert forall i | 0 <= i < |ds| - 1 :: ds[i] == prefix[i];
    }
  }

  /* ---------------------------------------------------------------------- */
  /* The halving pass                                                        */
  /* ---------------------------------------------------------------------- */

  /**
   * One pass of the inner loop of `uintStringToBinary` over `ds`, most
   * significant digit first: each digit becomes its half plus the 5 an odd
   * predecessor hands down (`nextRemainder`). Returns the new digits and the
   * final remainder, 5 exactly when the number was odd.
   */
  function HalvePass(ds: seq<int>): (r: (seq<int>, int))
    requires IsDigitSeq(ds)
    ensures |r.0| == |ds| && IsDigitSeq(r.0) && (r.1 == 0 || r.1 == 5)
    ensures Number(ds) == 2 * Number(r.0) + (if r.1 == 5 then 1 else 0)
  {
    if |ds| == 0 then ([], 0)
    else
      var prefix := ds[..|ds| - 1];
      var (h, remainder) := HalvePass(prefix);
      var d := ds[|ds| - 1];
      var out := h + [d / 2 + remainder];
      assert out[..|out| - 1] == h;
      (out, if d % 2 == 1 then 5 else 0)
  }

  /** The pass halves the number and its remainder is the number's parity. */
  lemma HalvePassHalves(ds: seq<int>)
    requires IsDigitSeq(ds)
    ensures Number(HalvePass(ds).0) == Number(ds) / 2
    ensures HalvePass(ds).1 == (if Number(ds) % 2 == 1 then 5 else 0)
  {
  }

  /** The first index at or after i holding a non-zero digit, or |ds| if there is none. */
  function SkipZeros(ds: seq<int>, i: nat): (j: nat)
    requires i <= |ds|
    ensures i <= j <= |ds|
    ensures forall k | i <= k < j :: ds[k] == 0
    ensures j < |ds| ==> ds[j] != 0
    decreases |ds| - i
  {
    if i == |ds| || ds[i] != 0 then i else SkipZeros(ds, i + 1)
  }

  /* ---------------------------------------------------------------------- */
  /* The conversion loop                                                     */
  /* ---------------------------------------------------------------------- */

  /**
   * The state `uintStringToBinary` ends in: the digits (all zero by then),
   * `firstNonZero`, the bits in the order they were written (least
   * significant first) and `*leadingZeros`.
   */
  datatype Conversion = Conversion(digits: seq<int>, first: nat, bits: seq<bool>, leadingZeros: nat)

  /** The loop's invariant: the digits before `firstNonZero` are zeros. */
  predicate LoopState(ds: seq<int>, first: nat) {
    IsDigitSeq(ds) && first <= |ds| && AllZero(ds[..first])
  }

  /** The state one iteration of the outer loop leaves: the digits, `firstNonZero` and the bit it writes. */
  datatype Pass = Pass(next: seq<int>, first: nat, bit: bool)

  /**
   * One iteration of the outer loop: skip the zeros, halve the rest in place
   * and write the remainder as the next bit. The number is halved, the bit
   * is its parity, and the zeros in front stay zeros.
   */
  function Iterate(ds: seq<int>, first: nat): (p: Pass)
    requires LoopState(ds, first)
    ensures p.first == SkipZeros(ds, first)
    ensures LoopState(p.next, p.first) && |p.next| == |ds|
    ensures Number(p.next) == Number(ds) / 2
    ensures p.bit <==> Number(ds) % 2 == 1
    ensures p.first < |ds| <==> Number(ds) != 0
  {
    var f := SkipZeros(ds, first);
    var z := ds[..f];
    assert AllZero(z) by {
      forall k | 0 <= k < f ensures z[k] == 0 {
        if k < first {
          assert z[k] == ds[..first][k];
        }
      }
    }
    assert ds == z + ds[f..];
    NumberLeadingZeros(z, ds[f..]);
    var halved := HalvePass(ds[f..]);
    NumberLeadingZeros(z, halved.0);
    HalvePassHalves(ds[f..]);
    var next := z + halved.0;
    assert next[..f] == z;
    NumberZero(ds);
    Pass(next, f, halved.1 != 0)
  }

  /**
   * The outer loop of `uintStringToBinary` from one iteration on. It runs
   * while the digits held a non-zero number when the last pass began, so it
   * makes one pass more than there are significant bits. `recordOnce`
   * chooses how `*leadingZeros` is kept: false as written, where it is
   * re-recorded as long as it is still 0; true recorded on the first pass
   * only.
   */
  function ConvertFrom(ds: seq<int>, first: nat, bits: seq<bool>, lz: nat, recordOnce: bool): (c: Conversion)
    requires LoopState(ds, first)
    ensures |c.digits| == |ds| && c.first == |ds| && |c.bits| > |bits| - (if first == |ds| then 1 else 0)
    ensures lz <= |ds| ==> c.leadingZeros <= |ds|
    decreases Number(ds), |ds| - first
  {
    if first == |ds| then Conversion(ds, first, bits, if lz == first then 0 else lz)
    else
      var p := Iterate(ds, first);
      var lz' := if (if recordOnce then |bits| == 0 else lz == 0) then p.first else lz;
      ConvertFrom(p.next, p.first, bits + [p.bit], lz', recordOnce)
  }

  /** `uintStringToBinary`'s loop on the converted digits. */
  function BinaryConversion(ds: seq<int>, recordOnce: bool): (c: Conversion)
    requires IsDigitSeq(ds) && |ds| > 0
  {
    ConvertFrom(ds, 0, [], 0, recordOnce)
  }

  lemma AppendAssociative(a: seq<bool>, b: seq<bool>, c: seq<bool>)
    ensures a + b + c == a + (b + c)
  {
  }

  /** From any state with a pass to come, the loop appends the binary digits of the number and then one 0. */
  lemma {:induction false} ConvertFromBits(ds: seq<int>, first: nat, bits: seq<bool>, lz: nat, recordOnce: bool)
    requires LoopState(ds, first) && first < |ds|
    ensures ConvertFrom(ds, first, bits, lz, recordOnce).bits == bits + Binary(Number(ds)) + [false]
    decreases Number(ds), |ds| - first
  {
    var p := Iterate(ds, first);
    var lz' := if (if recordOnce then |bits| == 0 else lz == 0) then p.first else lz;
    if Number(ds) != 0 {
      ConvertFromBits(p.next, p.first, bits + [p.bit], lz', recordOnce);
      var rest := Binary(Number(p.next));
      assert Binary(Number(ds)) == [p.bit] + rest;
      AppendAssociative(bits, [p.bit], rest);
    }
  }

  /**
   * The loop writes the binary digits of the number, least significant
   * first, and then one 0 bit: the pass that finds the digits all zero
   * still runs once.
   */
  lemma BinaryConversionBits(ds: seq<int>, recordOnce: bool)
    requires IsDigitSeq(ds) && |ds| > 0
    ensures BinaryConversion(ds, recordOnce).bits == Binary(Number(ds)) + [false]
    ensures BitsValue(BinaryConversion(ds, recordOnce).bits) == Number(ds)
  {
    assert AllZero(ds[..0]);
    ConvertFromBits(ds, 0, [], 0, recordOnce);
    var b := Binary(Number(ds));
    assert [] + b == b;
    assert BinaryConversion(ds, recordOnce).bits == b + [false];
    BinaryValue(Number(ds));
    BitsValueHighZero(Binary(Number(ds)));
  }

  /* ---------------------------------------------------------------------- */
  /* Leading zeros of the decimal part                                       */
  /* ---------------------------------------------------------------------- */

  /** Once recorded, the count survives the remaining passes unless it equals the end. */
  lemma {:induction false} ConvertFromKeeps(ds: seq<int>, first: nat, bits: seq<bool>, lz: nat, recordOnce: bool)
    requires LoopState(ds, first)
    requires if recordOnce then |bits| > 0 else lz != 0
    ensures ConvertFrom(ds, first, bits, lz, recordOnce).leadingZeros == if lz == |ds| then 0 else lz
    decreases Number(ds), |ds| - first
  {
    if first < |ds| {
      var p := Iterate(ds, first);
      ConvertFromKeeps(p.next, p.first, bits + [p.bit], lz, recordOnce);
    }
  }

  /**
   * Recorded on the first pass only, `*leadingZeros` is the number of zeros
   * the digits start with, and 0 when they are all zeros.
   */
  lemma LeadingZerosRecordedOnce(ds: seq<int>)
    requires IsDigitSeq(ds) && |ds| > 0
    ensures BinaryConversion(ds, true).leadingZeros == if AllZero(ds) then 0 else SkipZeros(ds, 0)
  {
    assert AllZero(ds[..0]);
    var p := Iterate(ds, 0);
    var c := ConvertFrom(p.next, p.first, [p.bit], p.first, true);
    assert BinaryConversion(ds, true) == c by {
      assert [] + [p.bit] == [p.bit];
    }
    ConvertFromKeeps(p.next, p.first, [p.bit], p.first, true);
    if AllZero(ds) {
      assert p.first == |ds|;
    } else {
      var k :| 0 <= k < |ds| && ds[k] != 0;
      assert p.first <= k;
    }
  }

  lemma HalvePassOne()
    ensures HalvePass([1]) == ([0], 5)
  {
    assert [1][..0] == [];
  }

  lemma HalvePassOneFive()
    ensures HalvePass([1, 5]) == ([0, 7], 5)
  {
    var ds := [1, 5];
    assert ds[..|ds| - 1] == [1];
    HalvePassOne();
    assert [0] + [5 / 2 + 5] == [0, 7];
  }

  lemma HalveSeven(ds: seq<int>)
    requires |ds| == 1 && ds[0] == 7
    ensures HalvePass(ds) == ([3], 5)
  {
    assert ds[..0] == [];
  }

  /**
   * The digits 1, 5 (a decimal part `.15`): as written the second pass finds
   * the first digit halved to 0, skips it and records 1 leading zero, which
   * reads the part back as `.015`; recorded once the count is 0.
   */
  lemma LeadingZerosCounterexample(ds: seq<int>)
    requires ds == [1, 5]
    ensures BinaryConversion(ds, false).leadingZeros == 1
    ensures BinaryConversion(ds, true).leadingZeros == 0
    ensures SkipZeros(ds, 0) == 0
  {
    assert IsDigitSeq(ds);
    LeadingZerosRecordedOnce(ds);
    FirstPassOneFive();
    SecondPassOneFive();
    AsWrittenTwoPasses(ds, [0, 7], [0, 3]);
  }

  /**
   * Two digits whose first pass writes a 1 and skips nothing, and whose
   * second pass skips one zero: as written the second pass records 1.
   */
  lemma AsWrittenTwoPasses(ds: seq<int>, mid: seq<int>, last: seq<int>)
    requires LoopState(ds, 0) && |ds| == 2
    requires Iterate(ds, 0) == Pass(mid, 0, true)
    requires Iterate(mid, 0) == Pass(last, 1, true)
    ensures ConvertFrom(ds, 0, [], 0, false).leadingZeros == 1
  {
    assert ConvertFrom(ds, 0, [], 0, false) == ConvertFrom(mid, 0, [] + [true], 0, false);
    assert ConvertFrom(mid, 0, [] + [true], 0, false) == ConvertFrom(last, 1, [] + [true] + [true], 1, false);
    ConvertFromKeeps(last, 1, [] + [true] + [true], 1, false);
  }

  /** One pass, given where it stops skipping zeros and what halving the rest gives. */
  lemma IterateFrom(ds: seq<int>, first: nat, f: nat, halved: seq<int>, r: int)
    requires LoopState(ds, first) && SkipZeros(ds, first) == f && f <= |ds|
    requires HalvePass(ds[f..]) == (halved, r)
    ensures Iterate(ds, first) == Pass(ds[..f] + halved, f, r != 0)
  {
  }

  /** `.15` halves to `.07` with remainder 5: an odd number, nothing skipped. */
  lemma FirstPassOneFive()
    ensures LoopState([1, 5], 0)
    ensures Iterate([1, 5], 0) == Pass([0, 7], 0, true)
  {
    var ds := [1, 5];
    assert AllZero(ds[..0]);
    HalvePassOneFive();
    assert ds[0..] == ds && ds[..0] == [];
    IterateFrom(ds, 0, 0, [0, 7], 5);
    assert [] + [0, 7] == [0, 7];
  }

  /** A pass over the digits 0, 7: the zero is skipped and 7 halves to 3 with remainder 5. */
  lemma SkipZeroHalveSeven(ds: seq<int>)
    requires LoopState(ds, 0) && |ds| == 2 && ds[0] == 0 && ds[1] == 7
    ensures Iterate(ds, 0) == Pass([0, 3], 1, true)
  {
    assert SkipZeros(ds, 1) == 1;
    assert ds[..1] == [0];
    HalveSeven(ds[1..]);
    IterateFrom(ds, 0, 1, [3], 5);
    assert [0] + [3] == [0, 3];
  }

  /** `.07` skips its zero and halves to `.03`, again with remainder 5. */
  lemma SecondPassOneFive()
    ensures LoopState([0, 7], 0)
    ensures Iterate([0, 7], 0) == Pass([0, 3], 1, true)
  {
    assert AllZero([0, 7][..0]);
    SkipZeroHalveSeven([0, 7]);
  }

  /* ---------------------------------------------------------------------- */
  /* The whole routine                                                       */
  /* ---------------------------------------------------------------------- */

  /**
   * `uintStringToBinary` on the converted digits, its 8-bit counters
   * included. The loop is entered while `remainingDigits`, the digit count
   * cut to 8 bits, or the first digit is non-zero. From 256 digits on the
   * halving index `i` wraps before it reaches `digits`, so the loop never
   * ends, except in two cases: the count is a multiple of 256 and the first
   * digit is 0, where the loop is not entered at all and no bit is written;
   * or every digit is 0, where the skip runs past the digits. With no digits
   * the first test reads a byte that was never written.
   */
  function UintStringToBinary(ds: seq<int>, recordOnce: bool): (r: Outcome<Conversion>)
    requires IsDigitSeq(ds)
    ensures r.Undefined? <==> |ds| == 0 || (|ds| >= 256 && |ds| % 256 != 0 && AllZero(ds))
    ensures r.Diverges? <==> |ds| >= 256 && !AllZero(ds) && !(|ds| % 256 == 0 && ds[0] == 0)
    ensures r.Returns? && |ds| < 256 ==>
              && r.value.bits == Binary(Number(ds)) + [false]
              && r.value.leadingZeros <= |ds|
              && (recordOnce ==> r.value.leadingZeros == if AllZero(ds) then 0 else SkipZeros(ds, 0))
    ensures r.Returns? && |ds| >= 256 ==> r.value.bits == [] && r.value.leadingZeros == 0
  {
    if |ds| == 0 then Undefined
    else if |ds| % 256 == 0 && ds[0] == 0 then Returns(Conversion(ds, 0, [], 0))
    else if |ds| >= 256 then
      if AllZero(ds) then Undefined else Diverges
    else
      BinaryConversionBits(ds, recordOnce);
      LeadingZerosRecordedOnce(ds);
      assert AllZero(ds[..0]);
      Returns(BinaryConversion(ds, recordOnce))
  }

  /**
   * From 256 digits on, a number whose first digit is not 0, such as a 1
   * followed by 255 zeros, never comes back from `uintStringToBinary`,
   * while the same loop with counters as wide as the digit count writes its
   * binary digits.
   */
  lemma LongDigitsCounterexample(ds: seq<int>, recordOnce: bool)
    requires IsDigitSeq(ds) && |ds| >= 256 && ds[0] != 0
    ensures UintStringToBinary(ds, recordOnce).Diverges?
    ensures BinaryConversion(ds, recordOnce).bits == Binary(Number(ds)) + [false]
  {
    assert !AllZero(ds);
    BinaryConversionBits(ds, recordOnce);
  }
}

=== FILE: big_number_text.dfy ===
/**
 * Big numbers from text: `nimbleBigIntFromString` with its early exits and
 * the sign and compaction steps after the conversion loop, and
 * `nimbleBigDecFromString` with its right-to-left scan for the point and the
 * trailing zeros, its integer path and its two conversions.
 *
 * The conversion loop is followed on decimal digits only: the source turns
 * every character into `c - '0'` without checking it, so text with other
 * characters where digits are read is outside the model.
 */
module BigNumberText {
  import opened CTypes
  import opened BigNumber
  import opened BigNumberBits
  import opened BigNumberParse
  import opened BigDecimal
  import NimbleError
  import NimbleMath
  import Decimal

  const UINT32_MAX: int := UINT32_LIMIT - 1

  /* ---------------------------------------------------------------------- */
  /* Sign                                                                    */
  /* ---------------------------------------------------------------------- */

  /** `string[0] == '-'`; the empty string's first byte is its NUL. */
  predicate HasSign(s: CString) {
    |s| > 0 && s[0] == '-'
  }

  /** `string + sign`: the text after an optional leading minus. */
  function Signless(s: CString): (d: CString)
    ensures s == (if HasSign(s) then "-" else "") + d
  {
    if HasSign(s) then s[1..] else s
  }

  /* ---------------------------------------------------------------------- */
  /* Digit strings                                                           */
  /* ---------------------------------------------------------------------- */

  /** A digit other than '0' somewhere makes the number positive. */
  lemma NonZeroDigit(d: CString, k: nat)
    requires Decimal.AllDigits(d) && k < |d| && d[k] != '0'
    ensures Number(ConvertDigits(d)) > 0
  {
    var ds := ConvertDigits(d);
    assert ds[k] != 0;
    NumberZero(ds);
  }

  /** A string of '0's spells 0. */
  lemma ZeroDigits(d: CString)
    requires forall i | 0 <= i < |d| :: d[i] == '0'
    ensures Decimal.AllDigits(d) && Number(ConvertDigits(d)) == 0 && Decimal.ValueOf(d) == 0
  {
    NumberOfZeros(ConvertDigits(d));
    ConvertDigitsValue(d);
  }

  lemma TenTimes(x: nat, p: nat)
    ensures 10 * (x * p) == x * (10 * p)
  {
  }

  /** Digits followed by more digits: the first part shifted by the length of the second. */
  lemma {:induction false} NumberAppend(a: seq<int>, b: seq<int>)
    requires IsDigitSeq(a) && IsDigitSeq(b)
    ensures IsDigitSeq(a + b) && Number(a + b) == Number(a) * NimbleMath.Pow10(|b|) + Number(b)
    decreases |b|
  {
    if |b| == 0 {
      assert a + b == a;
    } else {
      var b' := b[..|b| - 1];
      assert (a + b)[..|a + b| - 1] == a + b';
      NumberAppend(a, b');
      var p := NimbleMath.Pow10(|b'|);
      var x := Number(a);
      assert Number(a + b) == 10 * (x * p + Number(b')) + b[|b| - 1];
      TenTimes(x, p);
      assert Number(b) == 10 * Number(b') + b[|b| - 1];
    }
  }

  /** A digit string spells less than 10^length, and at least 10^(length-1) when it starts with a non-zero digit. */
  lemma {:induction false} NumberBounds(ds: seq<int>)
    requires IsDigitSeq(ds)
    ensures Number(ds) < NimbleMath.Pow10(|ds|)
    ensures |ds| > 0 && ds[0] != 0 ==> Number(ds) >= NimbleMath.Pow10(|ds| - 1)
    decreases |ds|
  {
    if |ds| > 0 {
      var prefix := ds[..|ds| - 1];
      NumberBounds(prefix);
      if |ds| > 1 {
        assert prefix[0] == ds[0];
      }
    }
  }

  /* ---------------------------------------------------------------------- */
  /* nimbleBigIntFromString                                                  */
  /* ---------------------------------------------------------------------- */

  /** What `nimbleBigIntFromString` hands back: the number and the code it stores in `*error`, if any. */
  datatype IntResult = IntResult(result: BigInt, error: Option<NimbleError.ErrorCode>)

  /**
   * The words after the conversion loop: the sign ORed into the top bit of
   * the last word written, the words below it dropped. The top bit is
   * always free, because the loop's last bit is a 0, so the shift at line
   * 143 that would put the sign one word higher never happens. When the
   * loop wrote nothing, `byte` is the array's size and line 143 reads the
   * word just after the array: inside the block, which the allocator makes
   * `sizeof(void *)` bytes longer than asked, but never written.
   */
  function IntegerWords(ds: seq<int>, negative: bool): (r: Outcome<seq<uint32>>)
    requires IsDigitSeq(ds)
    ensures r.Returns? <==> 0 < |ds| < 256
    ensures r.Diverges? <==> |ds| >= 256 && !AllZero(ds) && !(|ds| % 256 == 0 && ds[0] == 0)
    ensures r.Returns? ==> |r.value| > 0 && Magnitude(r.value) == Number(ds) && Negative(r.value) == negative
    ensures r.Returns? && Number(ds) > 0 ==>
              Canonical(r.value) && Value(r.value) == if negative then -(Number(ds) as int) else Number(ds)
  {
    match UintStringToBinary(ds, false)
    case Returns(c) =>
      if |c.bits| == 0 then Undefined
      else
        var n := Number(ds);
        SignedWordsMagnitude(n, negative);
        if n > 0 then
          SignedWordsValue(n, negative);
          Returns(WithSign(Words(c.bits), negative))
        else
          Returns(WithSign(Words(c.bits), negative))
    case Diverges => Diverges
    case Undefined => Undefined
  }

  /**
   * The test at line 125 that gives the single word 0: as written, no
   * digits or a first digit '0'; as evidently intended, no digit other
   * than '0'.
   */
  predicate ZeroText(d: CString, asWritten: bool) {
    if asWritten then |d| == 0 || d[0] == '0' else forall i | 0 <= i < |d| :: d[i] == '0'
  }

  /**
   * `nimbleBigIntFromString`. NULL stores `GENERAL_NULL`, more than
   * `UINT32_MAX` digits store `BIGNUM_OVERFLOW`, both returning the empty
   * number; zero text gives the unsigned word 0, so "-0" has no sign;
   * otherwise the digits are converted and the sign put in. `asWritten`
   * chooses the zero test.
   */
  function IntFromString(text: Option<CString>, asWritten: bool): (r: Outcome<IntResult>)
    requires text.Some? ==> Decimal.AllDigits(Signless(text.value))
    ensures text.None? ==> r == Returns(IntResult(BigInt(None), Some(NimbleError.GENERAL_NULL)))
    ensures text.Some? && |Signless(text.value)| > UINT32_MAX ==>
              r == Returns(IntResult(BigInt(None), Some(NimbleError.BIGNUM_OVERFLOW)))
    ensures text.Some? && |Signless(text.value)| <= UINT32_MAX && ZeroText(Signless(text.value), asWritten) ==>
              r == Returns(IntResult(BigInt(Some([0])), None))
    ensures text.Some? && |Signless(text.value)| < 256 ==> r.Returns? && r.value.error.None?
    ensures r.Returns? ==> (r.value.error.None? <==> r.value.result.number.Some?)
    ensures r.Returns? && r.value.error.None? ==> Canonical(r.value.result.number.value)
  {
    match text
    case None => Returns(IntResult(BigInt(None), Some(NimbleError.GENERAL_NULL)))
    case Some(s) =>
      var d := Signless(s);
      if |d| > UINT32_MAX then Returns(IntResult(BigInt(None), Some(NimbleError.BIGNUM_OVERFLOW)))
      else if ZeroText(d, asWritten) then
        assert Value([0]) == 0 by {
          assert MagnitudeWords([0]) == [0];
          assert Unsigned([0]) == 0 * Radix(0) + Unsigned([]);
        }
        Returns(IntResult(BigInt(Some([0])), None))
      else
        var ds := ConvertDigits(d);
        var k :| 0 <= k < |d| && d[k] != '0';
        NonZeroDigit(d, k);
        match IntegerWords(ds, HasSign(s))
        case Returns(ws) => Returns(IntResult(BigInt(Some(ws)), None))
        case Diverges => Diverges
        case Undefined => Undefined
  }

  /** The single word 0 stands for 0. */
  lemma ZeroWordValue()
    ensures Canonical([0]) && Magnitude([0]) == 0 && Value([0]) == 0
    ensures Magnitude([HALF]) == 0 && Negative([HALF])
  {
    assert MagnitudeWords([0]) == [0];
    assert MagnitudeWords([HALF]) == [0];
    assert Unsigned([0]) == 0 * Radix(0) + Unsigned([]);
  }

  /**
   * With the zero test meant, text of fewer than 256 digits reads as the
   * number it spells, under its sign, in the canonical shape.
   */
  lemma IntFromStringValue(s: CString)
    requires Decimal.AllDigits(Signless(s)) && |Signless(s)| < 256
    ensures var r := IntFromString(Some(s), false);
            && r.Returns? && r.value.error.None? && r.value.result.number.Some?
            && Canonical(r.value.result.number.value)
            && Value(r.value.result.number.value)
               == if HasSign(s) then -(Decimal.ValueOf(Signless(s)) as int) else Decimal.ValueOf(Signless(s))
  {
    var d := Signless(s);
    ConvertDigitsValue(d);
    ZeroWordValue();
    if !ZeroText(d, false) {
      var k :| 0 <= k < |d| && d[k] != '0';
      NonZeroDigit(d, k);
    } else {
      ZeroDigits(d);
    }
  }

  /**
   * The test as written reads the text right exactly when it does not put a
   * '0' before a digit that is not '0': "01" becomes 0.
   */
  lemma IntFromStringAsWritten(s: CString)
    requires Decimal.AllDigits(Signless(s)) && |Signless(s)| < 256
    ensures var r := IntFromString(Some(s), true);
            var d := Signless(s);
            && r.Returns? && r.value.error.None? && r.value.result.number.Some?
            && (Value(r.value.result.number.value)
                == (if HasSign(s) then -(Decimal.ValueOf(d) as int) else Decimal.ValueOf(d))
                <==> |d| == 0 || d[0] != '0' || Decimal.ValueOf(d) == 0)
  {
    var d := Signless(s);
    ConvertDigitsValue(d);
    ZeroWordValue();
    IntFromStringValue(s);
    if |d| > 0 && d[0] == '0' {
      if Decimal.ValueOf(d) == 0 {
        NumberZero(ConvertDigits(d));
      }
    } else if !ZeroText(d, false) {
      var k :| 0 <= k < |d| && d[k] != '0';
      NonZeroDigit(d, k);
    }
  }

  /** "01": the text spells 1, the number read as written is 0. */
  lemma LeadingZeroCounterexample(s: CString)
    requires s == "01"
    ensures Decimal.ValueOf(s) == 1
    ensures IntFromString(Some(s), true) == Returns(IntResult(BigInt(Some([0])), None))
    ensures var r := IntFromString(Some(s), false);
            r.Returns? && r.value.result.number.Some? && Value(r.value.result.number.value) == 1
  {
    assert s[..1] == "0";
    assert Decimal.ValueOf("0") == 10 * Decimal.ValueOf("") + 0;
    IntFromStringValue(s);
  }

  /* ---------------------------------------------------------------------- */
  /* nimbleBigDecFromString: the scan                                        */
  /* ---------------------------------------------------------------------- */

  /** The number of '0's that end s. */
  function TrailingZeros(s: CString): (n: nat)
    ensures n <= |s|
    ensures forall k | |s| - n <= k < |s| :: s[k] == '0'
    ensures n < |s| ==> s[|s| - n - 1] != '0'
  {
    if |s| == 0 || s[|s| - 1] != '0' then 0 else 1 + TrailingZeros(s[..|s| - 1])
  }

  /** Those three facts pin the count down. */
  lemma TrailingZerosIs(s: CString, n: nat)
    requires n <= |s|
    requires forall k | |s| - n <= k < |s| :: s[k] == '0'
    requires n < |s| ==> s[|s| - n - 1] != '0'
    ensures TrailingZeros(s) == n
  {
  }

  /** The position of the last '.', or -1 when there is none. */
  function DecimalPosition(d: CString): (p: int)
    ensures -1 <= p < |d|
    ensures p >= 0 ==> d[p] == '.'
  {
    if |d| == 0 then -1
    else if d[|d| - 1] == '.' then |d| - 1
    else DecimalPosition(d[..|d| - 1])
  }

  /** No '.' from position i on. */
  predicate NoPointFrom(d: CString, i: int) {
    forall j | i <= j < |d| && 0 <= j :: d[j] != '.'
  }

  /** It is the last one: no '.' after it, and none at all when it is -1. */
  lemma {:induction false} DecimalPositionLast(d: CString)
    ensures NoPointFrom(d, DecimalPosition(d) + 1)
  {
    if |d| > 0 && d[|d| - 1] != '.' {
      var front := d[..|d| - 1];
      DecimalPositionLast(front);
      assert forall j | 0 <= j < |front| :: front[j] == d[j];
    }
  }

  lemma DecimalPositionIs(d: CString, i: nat)
    requires i < |d| && d[i] == '.' && NoPointFrom(d, i + 1)
    ensures DecimalPosition(d) == i
  {
    DecimalPositionLast(d);
  }

  /** What the scan finds: the point's position (-1 if none) and how many '0's end the text after it. */
  datatype Scan = Scan(decimalPosition: int, trailingZeros: nat)

  function ScanOf(d: CString): Scan {
    var p := DecimalPosition(d);
    Scan(p, TrailingZeros(d[p + 1..]))
  }

  /**
   * The do-while loop of `nimbleBigDecFromString`: from the right, stop at
   * the first '.', count '0's until anything else turns up. It reads one
   * character before the text: the sign, or the byte before the string
   * when there is no sign.
   */
  method ScanDecimal(d: CString, signed: bool) returns (r: Outcome<Scan>)
    ensures r.Undefined? <==> |d| == 0 && !signed
    ensures !r.Undefined? ==> r == Returns(ScanOf(d))
  {
    if |d| == 0 {
      if !signed {
        return Undefined;
      }
      return Returns(Scan(-1, 0));
    }
    var i := |d|;
    var tz := 0;
    var found := false;
    while i > 0
      invariant 0 <= i <= |d|
      invariant NoPointFrom(d, i)
      invariant tz <= |d| - i
      invariant forall k | |d| - tz <= k < |d| :: d[k] == '0'
      invariant found <==> tz < |d| - i
      invariant found ==> d[|d| - tz - 1] != '0'
    {
      i := i - 1;
      if d[i] == '.' {
        DecimalPositionIs(d, i);
        TrailingZerosIs(d[i + 1..], tz);
        return Returns(Scan(i, tz));
      } else if !found && d[i] == '0' {
        tz := tz + 1;
      } else {
        found := true;
      }
    }
    DecimalPositionLast(d);
    TrailingZerosIs(d, tz);
    return Returns(Scan(-1, tz));
  }

  /* ---------------------------------------------------------------------- */
  /* nimbleBigDecFromString: the parts                                       */
  /* ---------------------------------------------------------------------- */

  /** What `nimbleBigDecFromString` hands back: the decimal and the code it stores in `*error`, if any. */
  datatype DecResult = DecResult(result: BigDec, error: Option<NimbleError.ErrorCode>)

  /** `BigDec_t result = {}`. */
  const NULL_DEC := BigDec(BigInt(None), BigInt(None), 0)

  /** Where the integer digits end: at the point, or at the end of the text. */
  function IntegerEnd(d: CString): (e: nat)
    ensures e <= |d|
    ensures e < |d| ==> d[e] == '.' && e == DecimalPosition(d)
  {
    var p := DecimalPosition(d);
    if p >= 0 then p else |d|
  }

  /** The text read as a decimal: digits, then possibly a point and more digits. */
  predicate DecimalText(d: CString) {
    var e := IntegerEnd(d);
    Decimal.AllDigits(d[..e]) && (e < |d| ==> Decimal.AllDigits(d[e + 1..]))
  }

  /**
   * The string handed to `nimbleBigIntFromString` on the integer path, None
   * when it has no terminating NUL. As written, `strncpy` copies
   * `signlessStringLength + 1` characters of the signed text: with a sign
   * that leaves out the NUL, and the NUL put at `decimalPosition` of that
   * signed copy cuts off the last digit. As evidently intended, the sign
   * and the digits before the point.
   */
  function IntegerPathText(s: CString, asWritten: bool): (t: Option<CString>)
    requires DecimalText(Signless(s))
    ensures var d := Signless(s);
            t.None? <==> asWritten && HasSign(s) && IntegerEnd(d) == |d|
    ensures t.Some? ==> Decimal.AllDigits(Signless(t.value))
    ensures var d := Signless(s);
            !asWritten || !HasSign(s) ==>
              t.Some? && Signless(t.value) == d[..IntegerEnd(d)] && HasSign(t.value) == HasSign(s)
    ensures var d := Signless(s);
            asWritten && HasSign(s) && 0 < IntegerEnd(d) < |d| ==>
              t.Some? && Signless(t.value) == d[..IntegerEnd(d) - 1] && HasSign(t.value)
  {
    var d := Signless(s);
    var e := IntegerEnd(d);
    if !asWritten || !HasSign(s) then
      var t := (if HasSign(s) then "-" else "") + d[..e];
      assert !HasSign(s) && e > 0 ==> t[0] == d[0] && d[0] != '-';
      Some(t)
    else if e == |d| then None
    else
      var t := s[..e];
      assert e > 0 ==> t == "-" + d[..e - 1] && d[..e - 1] == d[..e][..e - 1];
      Some(t)
  }

  /**
   * The integer part on the decimal path, lines 605-631: the digits before
   * the point converted and the sign put in as `nimbleBigIntFromString`
   * does, without its zero test, so "-0.5" keeps its sign in the word
   * 0x80000000. With no digits before the point the part is the unsigned
   * word 0 as written, so "-.5" loses its sign; as evidently intended the
   * sign goes into that word too.
   */
  function IntegerPart(digits: CString, negative: bool, asWritten: bool): (r: Outcome<seq<uint32>>)
    requires Decimal.AllDigits(digits)
    ensures r.Returns? <==> |digits| < 256
    ensures r.Returns? ==> |r.value| > 0 && Magnitude(r.value) == Decimal.ValueOf(digits)
    ensures r.Returns? ==> (Negative(r.value) <==> negative && (|digits| > 0 || !asWritten))
  {
    ZeroWordValue();
    if |digits| > 0 then
      ConvertDigitsValue(digits);
      IntegerWords(ConvertDigits(digits), negative)
    else if asWritten || !negative then Returns([0])
    else Returns([HALF])
  }

  /**
   * The decimal part, lines 633-642: the fraction's digits without its
   * trailing zeros, converted with the leading-zero count, the words below
   * the last one written dropped. As written, no digits at all (a fraction
   * of '0's) reads the conversion's empty buffer; as evidently intended
   * that is the word 0 with no leading zeros. The count is recorded once
   * when corrected.
   */
  function DecimalPart(f: CString, asWritten: bool): (r: Outcome<(seq<uint32>, uint32)>)
    requires Decimal.AllDigits(f)
    ensures r.Undefined? ==> (|f| == 0 && asWritten) || |f| >= 256
    ensures |f| < 256 ==> (r.Returns? <==> |f| > 0 || !asWritten)
    ensures r.Returns? && |f| < 256 ==> |r.value.0| > 0 && Unsigned(r.value.0) == Decimal.ValueOf(f)
    ensures r.Returns? && |f| < 256 ==> r.value.1 as int <= |f|
    ensures r.Returns? && 0 < |f| < 256 && !asWritten ==>
              var ds := ConvertDigits(f);
              r.value.1 as int == if AllZero(ds) then 0 else SkipZeros(ds, 0)
  {
    if |f| == 0 && !asWritten then
      ZeroWordValue();
      Returns(([0], 0))
    else
      var ds := ConvertDigits(f);
      ConvertDigitsValue(f);
      match UintStringToBinary(ds, !asWritten)
      case Returns(c) =>
        if |c.bits| == 0 then Returns(([], 0))
        else
          UnsignedWords(Number(ds));
          Returns((Words(c.bits), c.leadingZeros as uint32))
      case Diverges => Diverges
      case Undefined => Undefined
  }

  /** How many '0's end the digits after the point. */
  function FractionZeros(d: CString): nat
    requires IntegerEnd(d) < |d|
  {
    TrailingZeros(d[IntegerEnd(d) + 1..])
  }

  /** The fraction's digits up to its trailing zeros: `decimalLength` characters after the point. */
  function FractionText(d: CString): (f: CString)
    requires IntegerEnd(d) < |d|
    ensures d[IntegerEnd(d) + 1..] == f + Decimal.Zeros(FractionZeros(d))
    ensures |f| > 0 ==> f[|f| - 1] != '0'
  {
    var e := IntegerEnd(d);
    var rest := d[e + 1..];
    var n := TrailingZeros(rest);
    var f := rest[..|rest| - n];
    assert |f| > 0 ==> f[|f| - 1] == rest[|rest| - n - 1];
    assert rest == f + Decimal.Zeros(n);
    f
  }

  /**
   * The scan finds the point where the integer digits end and the '0's
   * that end the fraction: `decimalLength`, the signless length less the
   * point's position, the point and those zeros, is the length of the
   * fraction's digits.
   */
  lemma ScanFraction(d: CString)
    requires IntegerEnd(d) < |d|
    ensures ScanOf(d) == Scan(IntegerEnd(d), FractionZeros(d))
    ensures |FractionText(d)| == |d| - ScanOf(d).decimalPosition - 1 - ScanOf(d).trailingZeros
  {
    var f := FractionText(d);
    assert |d[IntegerEnd(d) + 1..]| == |f| + FractionZeros(d);
  }

  /**
   * `nimbleBigDecFromString`. NULL stores `GENERAL_NULL`. Text without a
   * point, or ending in it, goes through `nimbleBigIntFromString` and
   * `nimbleBigIntToBigDec`, whose error it passes on. Otherwise a point
   * beyond `UINT32_MAX`, or as many fraction digits, stores
   * `BIGNUM_OVERFLOW` and returns the empty decimal; below that the
   * integer part and the decimal part are converted and no error is
   * stored. `asWritten` chooses between the code as written and as
   * evidently intended; as written, unsigned empty text makes the scan read
   * the byte before it.
   */
  function DecFromString(text: Option<CString>, asWritten: bool): (r: Outcome<DecResult>)
    requires text.Some? ==> DecimalText(Signless(text.value))
    ensures text.None? ==> r == Returns(DecResult(NULL_DEC, Some(NimbleError.GENERAL_NULL)))
    ensures r.Returns? && r.value.error.Some? ==> DecIsNull(r.value.result)
    ensures r.Returns? && r.value.error.Some? ==>
              r.value.error.value == NimbleError.GENERAL_NULL || r.value.error.value == NimbleError.BIGNUM_OVERFLOW
    ensures text.Some? && |Signless(text.value)| < 256 && !asWritten ==>
              r.Returns? && r.value.error.None? && !DecIsNull(r.value.result)
  {
    match text
    case None => Returns(DecResult(NULL_DEC, Some(NimbleError.GENERAL_NULL)))
    case Some(s) =>
      var d := Signless(s);
      if asWritten && |d| == 0 && !HasSign(s) then Undefined
      else
        var e := IntegerEnd(d);
        if e >= |d| - 1 then
          match IntegerPathText(s, asWritten)
          case None => Undefined
          case Some(t) => IntegerPath(t, asWritten)
        else DecimalPath(d, HasSign(s), asWritten)
  }

  /** Text with digits after its point takes the decimal path. */
  lemma TakesDecimalPath(s: CString, asWritten: bool)
    requires DecimalText(Signless(s)) && IntegerEnd(Signless(s)) < |Signless(s)| - 1
    ensures DecFromString(Some(s), asWritten) == DecimalPath(Signless(s), HasSign(s), asWritten)
  {
  }

  /**
   * Lines 597-642, text with digits after its point: the overflow test, the
   * integer part, then the decimal part.
   */
  function DecimalPath(d: CString, negative: bool, asWritten: bool): (r: Outcome<DecResult>)
    requires DecimalText(d) && IntegerEnd(d) < |d| - 1
    ensures r.Returns? && r.value.error.Some? ==>
              DecIsNull(r.value.result) && r.value.error.value == NimbleError.BIGNUM_OVERFLOW
    ensures |d| < 256 && !asWritten ==> r.Returns? && r.value.error.None? && !DecIsNull(r.value.result)
  {
    var e := IntegerEnd(d);
    var f := FractionText(d);
    if e > UINT32_MAX || |f| > UINT32_MAX then
      Returns(DecResult(NULL_DEC, Some(NimbleError.BIGNUM_OVERFLOW)))
    else
      match IntegerPart(d[..e], negative, asWritten)
      case Returns(iw) =>
        (match DecimalPart(f, asWritten)
         case Returns(part) =>
           Returns(DecResult(BigDec(BigInt(Some(iw)), BigInt(Some(part.0)), part.1), None))
         case Diverges => Diverges
         case Undefined => Undefined)
      case Diverges => Diverges
      case Undefined => Undefined
  }

  /** Lines 580-595: the text read as an integer and made a decimal with the fraction 0. */
  function IntegerPath(t: CString, asWritten: bool): (r: Outcome<DecResult>)
    requires Decimal.AllDigits(Signless(t))
    ensures |Signless(t)| < 256 ==> r.Returns? && r.value.error.None? && !DecIsNull(r.value.result)
    ensures r.Returns? ==> r.value.result.decimal == BigInt(Some([0])) && r.value.result.leadingZeros == 0
    ensures r.Returns? ==> (r.value.error.None? <==> !DecIsNull(r.value.result))
    ensures r.Returns? && r.value.error.Some? ==>
              r.value.error.value == NimbleError.GENERAL_NULL || r.value.error.value == NimbleError.BIGNUM_OVERFLOW
    ensures r.Returns? ==>
              var x := r.value.result.integer;
              x.number.Some? && (r.value.error.None? ==> Canonical(x.number.value))
  {
    match IntFromString(Some(t), asWritten)
    case Returns(ir) => Returns(DecResult(ToBigDec(ir.result), ir.error))
    case Diverges => Diverges
    case Undefined => Undefined
  }

  /* ---------------------------------------------------------------------- */
  /* What the decimal stands for                                             */
  /* ---------------------------------------------------------------------- */

  /** 10^total as 10^a times 10^(total - a). */
  lemma {:induction false} Pow10Split(total: nat, a: nat)
    requires a <= total
    ensures NimbleMath.Pow10(total) == NimbleMath.Pow10(a) * NimbleMath.Pow10(total - a)
    decreases a
  {
    if a > 0 {
      Pow10Split(total - 1, a - 1);
      assert NimbleMath.Pow10(total) == 10 * NimbleMath.Pow10(total - 1);
      assert NimbleMath.Pow10(a) == 10 * NimbleMath.Pow10(a - 1);
      assert total - a == (total - 1) - (a - 1);
      TenTimes(NimbleMath.Pow10(a - 1), NimbleMath.Pow10(total - a));
    }
  }

  /** The digits of a + b: those of a shifted past b. */
  lemma ValueOfAppend(a: CString, b: CString)
    requires Decimal.AllDigits(a) && Decimal.AllDigits(b)
    ensures Decimal.AllDigits(a + b)
    ensures Decimal.ValueOf(a + b) == Decimal.ValueOf(a) * NimbleMath.Pow10(|b|) + Decimal.ValueOf(b)
  {
    assert Decimal.AllDigits(a + b) by {
      forall i | 0 <= i < |a + b| ensures Decimal.IsDigit((a + b)[i]) {
        if i >= |a| {
          assert (a + b)[i] == b[i - |a|];
        }
      }
    }
    assert ConvertDigits(a + b) == ConvertDigits(a) + ConvertDigits(b);
    NumberAppend(ConvertDigits(a), ConvertDigits(b));
    ConvertDigitsValue(a);
    ConvertDigitsValue(b);
    ConvertDigitsValue(a + b);
  }

  /** Digits that are not all zeros: the leading zeros and the digits of their number add up to their length. */
  lemma LeadingZerosAndDigits(ds: seq<int>)
    requires IsDigitSeq(ds) && !AllZero(ds)
    ensures SkipZeros(ds, 0) + NimbleMath.NumDigits(Number(ds)) == |ds|
  {
    var lz := SkipZeros(ds, 0);
    var tail := ds[lz..];
    assert ds == ds[..lz] + tail;
    NumberLeadingZeros(ds[..lz], tail);
    assert lz < |ds| && tail[0] == ds[lz];
    NumberDigits(tail);
  }

  /** Digits with a nonzero first digit: as many as their number has. */
  lemma NumberDigits(ds: seq<int>)
    requires IsDigitSeq(ds) && |ds| > 0 && ds[0] != 0
    ensures NimbleMath.NumDigits(Number(ds)) == |ds|
  {
    NumberBounds(ds);
    NimbleMath.NumDigitsIs(Number(ds), |ds|);
  }

  /**
   * Fraction digits ending in a digit other than '0': their leading zeros
   * and the digits of their value add up to their length.
   */
  lemma FractionDigitCount(f: CString)
    requires Decimal.AllDigits(f) && |f| > 0 && f[|f| - 1] != '0'
    ensures !AllZero(ConvertDigits(f))
    ensures SkipZeros(ConvertDigits(f), 0) + NimbleMath.NumDigits(Decimal.ValueOf(f)) == |f|
  {
    var ds := ConvertDigits(f);
    assert ds[|ds| - 1] != 0;
    LeadingZerosAndDigits(ds);
    ConvertDigitsValue(f);
  }

  /** Digits followed by '0's: the digits shifted past the zeros. */
  lemma ShiftedFraction(integer: CString, f: CString, k: nat)
    requires Decimal.AllDigits(integer) && Decimal.AllDigits(f + Decimal.Zeros(k))
    ensures Decimal.AllDigits(f) && Decimal.AllDigits(integer + f)
    ensures Decimal.ValueOf(integer + (f + Decimal.Zeros(k)))
            == Decimal.ValueOf(integer + f) * NimbleMath.Pow10(k)
  {
    var z := Decimal.Zeros(k);
    assert forall i | 0 <= i < |f| :: f[i] == (f + z)[i];
    var a := integer + f;
    ValueOfAppend(integer, f);
    ValueOfAppend(a, z);
    Decimal.ValueOfZeros(k);
    assert integer + (f + z) == a + z;
  }

  /** A fraction is its digits up to the trailing zeros, shifted past them. */
  lemma FractionValue(d: CString)
    requires DecimalText(d) && IntegerEnd(d) < |d|
    ensures |d[IntegerEnd(d) + 1..]| == |FractionText(d)| + FractionZeros(d)
    ensures Decimal.AllDigits(FractionText(d))
    ensures Decimal.AllDigits(d[..IntegerEnd(d)] + d[IntegerEnd(d) + 1..])
    ensures Decimal.AllDigits(d[..IntegerEnd(d)] + FractionText(d))
    ensures Decimal.ValueOf(d[..IntegerEnd(d)] + d[IntegerEnd(d) + 1..])
            == Decimal.ValueOf(d[..IntegerEnd(d)] + FractionText(d)) * NimbleMath.Pow10(FractionZeros(d))
  {
    var e := IntegerEnd(d);
    ShiftedFraction(d[..e], FractionText(d), FractionZeros(d));
  }

  /**
   * The decimal path, as evidently intended, on fewer than 256 characters:
   * the integer part holds the digits before the point under the text's
   * sign, the decimal part the fraction's digits up to its trailing zeros,
   * and the fraction-digit count is their number.
   */
  lemma DecimalPathValue(d: CString, negative: bool)
    requires DecimalText(d) && IntegerEnd(d) < |d| - 1 && |d| < 256
    ensures var r := DecimalPath(d, negative, false);
            var f := FractionText(d);
            && r.Returns? && r.value.error.None? && !DecIsNull(r.value.result)
            && var x := r.value.result;
            && Decimal.AllDigits(d[..IntegerEnd(d)]) && Decimal.AllDigits(f)
            && Magnitude(x.integer.number.value) == Decimal.ValueOf(d[..IntegerEnd(d)])
            && (Negative(x.integer.number.value) <==> negative)
            && Unsigned(x.decimal.number.value) == Decimal.ValueOf(f)
            && FractionDigits(x) == if |f| > 0 then |f| else 1
  {
    var f := FractionText(d);
    DecimalPartDigits(f);
    var iw := IntegerPart(d[..IntegerEnd(d)], negative, false).value;
    var part := DecimalPart(f, false).value;
    assert DecimalPath(d, negative, false)
        == Returns(DecResult(BigDec(BigInt(Some(iw)), BigInt(Some(part.0)), part.1), None));
  }

  /**
   * The decimal part, as evidently intended, of a fraction without
   * trailing zeros: its words hold the fraction's value, and the
   * leading-zero count and the digits of that value add up to the
   * fraction's length (one digit for no fraction at all).
   */
  lemma DecimalPartDigits(f: CString)
    requires Decimal.AllDigits(f) && |f| < 256 && (|f| > 0 ==> f[|f| - 1] != '0')
    ensures var r := DecimalPart(f, false);
            && r.Returns? && Unsigned(r.value.0) == Decimal.ValueOf(f)
            && r.value.1 as int + NimbleMath.NumDigits(Unsigned(r.value.0)) == if |f| > 0 then |f| else 1
  {
    ZeroWordValue();
    if |f| > 0 {
      FractionDigitCount(f);
    }
  }

  /** The meaning of decimal text: sign, the digits around the point, and the number of digits after it. */
  function TextValue(s: CString): (v: (int, nat))
    requires DecimalText(Signless(s))
  {
    var d := Signless(s);
    var e := IntegerEnd(d);
    var rest := if e < |d| then d[e + 1..] else "";
    ValueOfAppend(d[..e], rest);
    (Signed(HasSign(s), Decimal.ValueOf(d[..e] + rest)), |rest|)
  }

  /**
   * A sign, an integer magnitude and a fraction worth `fraction` in
   * `digits` decimal places stand for v / 10^scale: brought to a common
   * number of places, the two agree.
   */
  predicate DenotesParts(negative: bool, magnitude: nat, fraction: nat, digits: nat, v: int, scale: nat) {
    var m := magnitude * NimbleMath.Pow10(digits) + fraction;
    (if negative then -m else m) * NimbleMath.Pow10(scale) == v * NimbleMath.Pow10(digits)
  }

  /** A magnitude with a sign. */
  function Signed(negative: bool, n: nat): int {
    if negative then -(n as int) else n
  }

  /** The decimal x stands for v / 10^scale. */
  predicate Denotes(x: BigDec, v: int, scale: nat)
    requires !DecIsNull(x)
  {
    var xi := x.integer.number.value;
    DenotesParts(Negative(xi), Magnitude(xi), Unsigned(x.decimal.number.value), FractionDigits(x), v, scale)
  }

  /** That is the cross-multiplication the by-value comparisons make. */
  lemma DenotesScaled(x: BigDec, v: int, scale: nat)
    requires !DecIsNull(x)
    ensures Denotes(x, v, scale) <==> Scaled(x) * NimbleMath.Pow10(scale) == v * NimbleMath.Pow10(FractionDigits(x))
  {
  }

  /** The conversion succeeded, with no error and nothing NULL, and its decimal stands for v / 10^scale. */
  predicate ReadsAs(r: Outcome<DecResult>, v: int, scale: nat) {
    r.Returns? && r.value.error.None? && !DecIsNull(r.value.result) && Denotes(r.value.result, v, scale)
  }

  /** A product of positive factors is positive. */
  lemma MulPositive(d: int, c: int)
    requires d > 0 && c > 0
    ensures d * c > 0
  {
  }

  /** Multiplying both sides by the same positive factor keeps the answer of every test, and equality. */
  lemma HoldsScaled(t: Test, a: int, b: int, c: int)
    requires c > 0
    ensures Holds(t, a * c, b * c) <==> Holds(t, a, b)
    ensures a * c == b * c <==> a == b
  {
    assert a * c - b * c == (a - b) * c;
    if a > b {
      MulPositive(a - b, c);
    } else if a < b {
      MulPositive(b - a, c);
      assert b * c - a * c == (b - a) * c;
    }
  }

  /**
   * Cross-multiplication: when sx / p stands for v1 / pk and sy / q for
   * v2 / qk, comparing sx * q with sy * p compares v1 * qk with v2 * pk.
   */
  lemma CrossCompare(t: Test, sx: int, sy: int, v1: int, v2: int, p: int, q: int, pk: int, qk: int)
    requires p > 0 && q > 0 && pk > 0 && qk > 0
    requires sx * pk == v1 * p && sy * qk == v2 * q
    ensures Holds(t, sx * q, sy * p) <==> Holds(t, v1 * qk, v2 * pk)
    ensures sx * q == sy * p <==> v1 * qk == v2 * pk
  {
    MulPositive(pk, qk);
    MulPositive(p, q);
    assert (sx * q) * (pk * qk) == (v1 * qk) * (p * q) by {
      assert (sx * q) * (pk * qk) == (sx * pk) * (q * qk);
      assert (v1 * p) * (q * qk) == (v1 * qk) * (p * q);
    }
    assert (sy * p) * (pk * qk) == (v2 * pk) * (p * q) by {
      assert (sy * p) * (pk * qk) == (sy * qk) * (p * pk);
      assert (v2 * q) * (p * pk) == (v2 * pk) * (p * q);
    }
    HoldsScaled(t, sx * q, sy * p, pk * qk);
    HoldsScaled(t, v1 * qk, v2 * pk, p * q);
  }

  /**
   * Two decimals read from text, v1 / 10^k1 and v2 / 10^k2, compare by
   * value exactly as their values do: the corrected tests answer the
   * comparison of v1 * 10^k2 with v2 * 10^k1.
   */
  lemma ReadsAsComparesValues(t: Test, r1: Outcome<DecResult>, v1: int, k1: nat, r2: Outcome<DecResult>, v2: int, k2: nat)
    requires ReadsAs(r1, v1, k1) && ReadsAs(r2, v2, k2)
    ensures DecTestByValue(t, r1.value.result, r2.value.result)
      == Bit(Holds(t, v1 * NimbleMath.Pow10(k2), v2 * NimbleMath.Pow10(k1)))
    ensures DecTetByValue(r1.value.result, r2.value.result)
      == Bit(v1 * NimbleMath.Pow10(k2) == v2 * NimbleMath.Pow10(k1))
  {
    var x, y := r1.value.result, r2.value.result;
    DenotesScaled(x, v1, k1);
    DenotesScaled(y, v2, k2);
    CrossCompare(t, Scaled(x), Scaled(y), v1, v2,
      NimbleMath.Pow10(FractionDigits(x)), NimbleMath.Pow10(FractionDigits(y)),
      NimbleMath.Pow10(k1), NimbleMath.Pow10(k2));
  }

  /**
   * As evidently intended, decimal text of fewer than 256 characters reads
   * as the number it spells: no error, nothing NULL, and the decimal
   * stands for the text's value, trailing zeros and all.
   */
  lemma DecFromStringValue(s: CString)
    requires DecimalText(Signless(s)) && |Signless(s)| < 256
    ensures ReadsAs(DecFromString(Some(s), false), TextValue(s).0, TextValue(s).1)
  {
    var d := Signless(s);
    var e := IntegerEnd(d);
    if e >= |d| - 1 {
      var t := IntegerPathText(s, false).value;
      assert DecFromString(Some(s), false) == IntegerPath(t, false);
      IntegerPathDenotes(t);
      assert d[..e] + (if e < |d| then d[e + 1..] else "") == d[..e];
    } else {
      TakesDecimalPath(s, false);
      DecimalPathDenotes(d, HasSign(s));
    }
  }

  /** Text without digits after a point: the integer it spells, with the fraction 0. */
  lemma IntegerPathDenotes(t: CString)
    requires Decimal.AllDigits(Signless(t)) && |Signless(t)| < 256
    ensures ReadsAs(IntegerPath(t, false), Signed(HasSign(t), Decimal.ValueOf(Signless(t))), 0)
  {
    IntFromStringValue(t);
    var ir := IntFromString(Some(t), false).value;
    ScaledOfInteger(ir.result);
    var x := IntegerPath(t, false).value.result;
    DenotesScaled(x, Signed(HasSign(t), Decimal.ValueOf(Signless(t))), 0);
  }

  /** Text with digits after its point: the digits around it over 10 to the number after it. */
  lemma DecimalPathDenotes(d: CString, negative: bool)
    requires DecimalText(d) && IntegerEnd(d) < |d| - 1 && |d| < 256
    ensures var r := DecimalPath(d, negative, false);
            var e := IntegerEnd(d);
            var rest := d[e + 1..];
            && Decimal.AllDigits(d[..e] + rest)
            && ReadsAs(r, Signed(negative, Decimal.ValueOf(d[..e] + rest)), |rest|)
  {
    var e := IntegerEnd(d);
    var rest := d[e + 1..];
    var f := FractionText(d);
    var x := DecimalPath(d, negative, false).value.result;
    DecimalPathValue(d, negative);
    FractionValue(d);
    DenotesText(x, negative, d[..e], FractionText(d), rest, FractionZeros(d));
  }

  /** A decimal holding the integer digits and the fraction's digits up to its trailing zeros stands for the text. */
  lemma DenotesText(x: BigDec, negative: bool, integer: CString, f: CString, rest: CString, k: nat)
    requires !DecIsNull(x) && |rest| == |f| + k
    requires Decimal.AllDigits(integer) && Decimal.AllDigits(f) && Decimal.AllDigits(integer + rest)
    requires Decimal.ValueOf(integer + rest) == Decimal.ValueOf(integer + f) * NimbleMath.Pow10(k)
    requires Magnitude(x.integer.number.value) == Decimal.ValueOf(integer)
    requires Negative(x.integer.number.value) <==> negative
    requires Unsigned(x.decimal.number.value) == Decimal.ValueOf(f)
    requires FractionDigits(x) == if |f| > 0 then |f| else 1
    ensures Denotes(x, Signed(negative, Decimal.ValueOf(integer + rest)), |rest|)
  {
    PartsOfText(negative, integer, f, rest, k);
    DenotesByParts(x, negative, Decimal.ValueOf(integer), Decimal.ValueOf(f), if |f| > 0 then |f| else 1,
                   Signed(negative, Decimal.ValueOf(integer + rest)), |rest|);
  }

  /** The digits around the point, read as numbers, stand for the text. */
  lemma PartsOfText(negative: bool, integer: CString, f: CString, rest: CString, k: nat)
    requires |rest| == |f| + k
    requires Decimal.AllDigits(integer) && Decimal.AllDigits(f) && Decimal.AllDigits(integer + rest)
    requires Decimal.ValueOf(integer + rest) == Decimal.ValueOf(integer + f) * NimbleMath.Pow10(k)
    ensures DenotesParts(negative, Decimal.ValueOf(integer), Decimal.ValueOf(f), if |f| > 0 then |f| else 1,
                         Signed(negative, Decimal.ValueOf(integer + rest)), |rest|)
  {
    ValueOfAppend(integer, f);
    PartsOfDecimal(negative, Decimal.ValueOf(integer), Decimal.ValueOf(f), |f|, k, |rest|,
                   Decimal.ValueOf(integer + f), Decimal.ValueOf(integer + rest));
  }

  /** A decimal stands for what its sign, magnitude, fraction and fraction width stand for. */
  lemma DenotesByParts(x: BigDec, negative: bool, m: nat, fv: nat, digits: nat, v: int, scale: nat)
    requires !DecIsNull(x)
    requires Magnitude(x.integer.number.value) == m
    requires Negative(x.integer.number.value) <==> negative
    requires Unsigned(x.decimal.number.value) == fv
    requires FractionDigits(x) == digits
    requires DenotesParts(negative, m, fv, digits, v, scale)
    ensures Denotes(x, v, scale)
  {
  }

  /**
   * The arithmetic behind the decimal path's case: integer magnitude m and
   * fraction digits worth fv in flen places, v what they are worth
   * together, n that shifted past the trailing zeros.
   */
  lemma PartsOfDecimal(negative: bool, m: nat, fv: nat, flen: nat, shift: nat, scale: nat, v: nat, n: nat)
    requires scale == flen + shift && (flen == 0 ==> fv == 0)
    requires v == m * NimbleMath.Pow10(flen) + fv
    requires n == v * NimbleMath.Pow10(shift)
    ensures DenotesParts(negative, m, fv, if flen > 0 then flen else 1, Signed(negative, n), scale)
  {
    var p := NimbleMath.Pow10(shift);
    var q := NimbleMath.Pow10(flen);
    Pow10Split(scale, flen);
    assert scale - flen == shift;
    var digits := if flen > 0 then flen else 1;
    var magnitude: int;
    if flen > 0 {
      magnitude := v;
    } else {
      magnitude := v * 10;
      assert NimbleMath.Pow10(digits) == 10 && q == 1;
    }
    assert m * NimbleMath.Pow10(digits) + fv == magnitude;
    CrossMultiplied(if negative then -magnitude else magnitude, magnitude, v, n, NimbleMath.Pow10(scale),
                    NimbleMath.Pow10(digits), p, q, negative);
  }

  /** The cross-multiplication, in the arithmetic alone. */
  lemma CrossMultiplied(scaled: int, magnitude: int, v: int, n: int, total: int, digits: int, p: int, q: int, negative: bool)
    requires scaled == if negative then -magnitude else magnitude
    requires total == q * p && n == v * p
    requires (magnitude == v && digits == q) || (magnitude == v * 10 && digits == 10 && q == 1)
    ensures scaled * total == (if negative then -n else n) * digits
  {
    if magnitude == v && digits == q {
      assert magnitude * total == n * digits by {
        assert v * (q * p) == (v * p) * q;
      }
    } else {
      assert magnitude * total == n * digits by {
        assert (v * 10) * p == (v * p) * 10;
      }
    }
  }

  /* ---------------------------------------------------------------------- */
  /* nimbleBigDecFromString: inputs on which the code as written goes wrong  */
  /* ---------------------------------------------------------------------- */

  /**
   * "-12.": as written the integer path hands "-1" to
   * `nimbleBigIntFromString`, the last digit cut off; as evidently
   * intended it reads -12.
   */
  lemma SignedPointCounterexample(s: CString)
    requires s == "-12."
    ensures DecimalText(Signless(s))
    ensures var w := DecFromString(Some(s), true);
            w.Returns? && w.value.result.integer.number.Some? && Value(w.value.result.integer.number.value) == -1
    ensures ReadsAs(DecFromString(Some(s), false), -12, 0)
  {
    SignedPointText(s);
    assert DecFromString(Some(s), true) == IntegerPath("-1", true);
    IntFromStringAsWritten("-1");
    DecFromStringValue(s);
  }

  /** Where "-12." puts its point, and what it spells. */
  lemma SignedPointText(s: CString)
    requires s == "-12."
    ensures Signless(s) == "12." && IntegerEnd(Signless(s)) == 2 && DecimalText(Signless(s))
    ensures IntegerPathText(s, true) == Some("-1")
    ensures Signless("-1") == "1" && HasSign("-1") && Decimal.ValueOf("1") == 1
    ensures TextValue(s) == (-12, 0)
  {
    var d := Signless(s);
    assert d == "12.";
    assert d[..2] == "12" && s[..2] == "-1";
    PointAt(d, 2);
    assert Signless("-1") == "1";
    assert Decimal.ValueOf("1") == 10 * Decimal.ValueOf("") + 1;
    assert Decimal.ValueOf("12") == 10 * Decimal.ValueOf("1") + 2;
    assert d[..2] + "" == "12";
  }

  /**
   * "-.5": as written nothing before the point makes the integer part the
   * unsigned word 0, and the sign is lost; as evidently intended the
   * integer part is negative and the decimal reads -0.5.
   */
  lemma EmptyIntegerCounterexample(s: CString)
    requires s == "-.5"
    ensures DecimalText(Signless(s))
    ensures var w := DecFromString(Some(s), true);
            w.Returns? && w.value.result.integer.number.Some? && !Negative(w.value.result.integer.number.value)
    ensures ReadsAs(DecFromString(Some(s), false), -5, 1)
  {
    EmptyIntegerText(s);
    TakesDecimalPath(s, true);
    DecFromStringValue(s);
  }

  /** Where "-.5" puts its point, and what it spells. */
  lemma EmptyIntegerText(s: CString)
    requires s == "-.5"
    ensures Signless(s) == ".5" && HasSign(s) && IntegerEnd(".5") == 0 && DecimalText(".5")
    ensures TextValue(s) == (-5, 1)
  {
    assert Signless(s) == ".5" && HasSign(s);
    PointFirst(".5");
    TextValueAt(s, ".5", 0, "5", "5");
  }

  /** ".5": the point comes first, and the digit after it spells 5. */
  lemma PointFirst(d: CString)
    requires d == ".5"
    ensures IntegerEnd(d) == 0 && DecimalText(d) && Decimal.ValueOf("5") == 5
    ensures d[1..] == "5" && d[..0] + "5" == "5"
  {
    PointAt(d, 0);
    assert Decimal.ValueOf("5") == 10 * Decimal.ValueOf("") + 5;
  }

  /** The value of decimal text, given where its point is and the digits around it. */
  lemma TextValueAt(s: CString, d: CString, e: nat, rest: CString, digits: CString)
    requires DecimalText(Signless(s)) && Signless(s) == d && IntegerEnd(d) == e && e < |d|
    requires d[e + 1..] == rest && d[..e] + rest == digits
    ensures TextValue(s) == (Signed(HasSign(s), Decimal.ValueOf(digits)), |rest|)
  {
  }

  /** Digits, one point, digits: the integer digits end at the point. */
  lemma PointAt(d: CString, i: nat)
    requires i < |d| && d[i] == '.' && Decimal.AllDigits(d[..i]) && Decimal.AllDigits(d[i + 1..])
    ensures IntegerEnd(d) == i && DecimalText(d)
  {
    assert forall j | i + 1 <= j < |d| :: d[i + 1..][j - i - 1] == d[j];
    DecimalPositionIs(d, i);
  }

  /**
   * "1.0": as written a fraction of nothing but '0's leaves no digits to
   * convert, and the conversion reads its empty buffer; as evidently
   * intended the decimal reads 1.0, that is 10 over 10^1.
   */
  lemma ZeroFractionCounterexample(s: CString)
    requires s == "1.0"
    ensures DecimalText(Signless(s))
    ensures DecFromString(Some(s), true).Undefined?
    ensures ReadsAs(DecFromString(Some(s), false), 10, 1)
  {
    ZeroFractionText(s);
    TakesDecimalPath(s, true);
    ZeroFractionUndefined("1.0", false);
    DecFromStringValue(s);
  }

  /** As written, any short text whose fraction is all '0's reads the empty buffer. */
  lemma ZeroFractionUndefined(d: CString, negative: bool)
    requires DecimalText(d) && IntegerEnd(d) < |d| - 1 && |d| < 256 && FractionText(d) == ""
    ensures DecimalPath(d, negative, true).Undefined?
  {
    assert DecimalPart("", true).Undefined?;
    assert IntegerPart(d[..IntegerEnd(d)], negative, true).Returns?;
  }

  /** Where "1.0" puts its point, and what it spells. */
  lemma ZeroFractionText(s: CString)
    requires s == "1.0"
    ensures Signless(s) == "1.0" && !HasSign(s) && IntegerEnd("1.0") == 1 && DecimalText("1.0")
    ensures FractionText("1.0") == ""
    ensures TextValue(s) == (10, 1)
  {
    var d := Signless(s);
    assert d == "1.0" && !HasSign(s);
    OnePointZero(d);
    assert TrailingZeros(d[2..]) == 1 by { TrailingZerosIs(d[2..], 1); }
    FractionOfZeros(d);
    assert Decimal.ValueOf("10") == 10 by {
      assert Decimal.ValueOf("1") == 10 * Decimal.ValueOf("") + 1;
      assert Decimal.ValueOf("10") == 10 * Decimal.ValueOf("1") + 0;
    }
    TextValueAt(s, d, 1, "0", "10");
  }

  /** "1.0" has its point after one digit. */
  lemma OnePointZero(d: CString)
    requires d == "1.0"
    ensures IntegerEnd(d) == 1 && DecimalText(d) && d[2..] == "0" && d[..1] + d[2..] == "10"
  {
    assert d[..1] == "1" && d[2..] == "0";
    PointAt(d, 1);
  }

  /** A fraction of nothing but '0's leaves no digits. */
  lemma FractionOfZeros(d: CString)
    requires IntegerEnd(d) < |d| && TrailingZeros(d[IntegerEnd(d) + 1..]) == |d| - IntegerEnd(d) - 1
    ensures FractionText(d) == ""
  {
  }

  /**
   * The empty text: as written the scan reads the byte before it; as
   * evidently intended it reads 0.
   */
  lemma EmptyTextCounterexample(s: CString)
    requires s == ""
    ensures DecimalText(Signless(s))
    ensures DecFromString(Some(s), true).Undefined?
    ensures ReadsAs(DecFromString(Some(s), false), 0, 0)
  {
    assert Signless(s) == "";
    DecFromStringValue(s);
  }
}

=== FILE: builder.dfy ===
/**
 * The string helpers of the build script: `find_nth`, the library-extension
 * tests, the version stripping of product names and the include-directory
 * slice. Python's `str.find`, slicing, `rindex` and `str.replace` are
 * modelled with Python's own rules for negative and out-of-range indices.
 */
module Builder {
  import opened CTypes
  import opened PyText


  /**
   * The n-th match counted from `start`, each search resuming just past the
   * previous match; n <= 1 asks for the first.
   */
  function NthFrom(haystack: string, needle: string, n: int, start: nat): (r: int)
    ensures r == -1 || (start <= r && MatchAt(haystack, needle, r))
    decreases if n > 1 then n else 0
  {
    var p := Find(haystack, needle, start);
    if p < 0 then -1
    else if n <= 1 then p
    else NthFrom(haystack, needle, n - 1, p + |needle|)
  }

  /** What is left to find once `start` holds a match and k matches remain to be counted. */
  function Remaining(haystack: string, needle: string, start: int, k: int): int {
    if start < 0 then -1 else if k <= 1 then start else NthFrom(haystack, needle, k - 1, start + |needle|)
  }

  /** One more `find` moves on to the next match with one fewer to go. */
  lemma RemainingStep(haystack: string, needle: string, start: nat, k: int)
    requires k > 1
    ensures Remaining(haystack, needle, start, k)
         == Remaining(haystack, needle, Find(haystack, needle, start + |needle|), k - 1)
  {
  }

  /** `find_nth` as the script runs it: a first `find`, then up to n-1 further ones. */
  method FindNth(haystack: string, needle: string, n: int) returns (start: int)
    ensures start == NthFrom(haystack, needle, n, 0)
    ensures n <= 1 ==> start == Find(haystack, needle, 0)
    ensures start == -1 || MatchAt(haystack, needle, start)
  {
    start := Find(haystack, needle, 0);
    var k := n;
    while start >= 0 && k > 1
      invariant start >= -1
      invariant NthFrom(haystack, needle, n, 0) == Remaining(haystack, needle, start, k)
      decreases if k > 1 then k else 0
    {
      RemainingStep(haystack, needle, start, k);
      start := Find(haystack, needle, start + |needle|);
      k := k - 1;
    }
  }

  /** The number of non-overlapping matches found scanning left to right from `start`. */
  function CountFrom(haystack: string, needle: string, start: nat): nat
    requires |needle| > 0
    decreases |haystack| + 1 - start
  {
    var p := Find(haystack, needle, start);
    if p < 0 then 0 else 1 + CountFrom(haystack, needle, p + |needle|)
  }

  /** `find_nth` succeeds exactly when there are at least n non-overlapping matches. */
  lemma {:induction false} NthFromFoundIff(haystack: string, needle: string, n: int, start: nat)
    requires |needle| > 0 && n >= 1
    ensures NthFrom(haystack, needle, n, start) >= 0 <==> n <= CountFrom(haystack, needle, start)
    decreases n
  {
    var p := Find(haystack, needle, start);
    if p >= 0 && n > 1 {
      NthFromFoundIff(haystack, needle, n - 1, p + |needle|);
    }
  }

  /** Later matches lie past earlier ones: the (n+1)-th starts at least one needle after the n-th. */
  lemma {:induction false} NthFromAdvances(haystack: string, needle: string, n: int, start: nat)
    requires n >= 1 && NthFrom(haystack, needle, n + 1, start) >= 0
    ensures NthFrom(haystack, needle, n, start) >= 0
    ensures NthFrom(haystack, needle, n + 1, start) >= NthFrom(haystack, needle, n, start) + |needle|
    decreases n
  {
    var p := Find(haystack, needle, start);
    if n > 1 {
      NthFromAdvances(haystack, needle, n - 1, p + |needle|);
    }
  }

  /** `fileIsLibrary`: .dll, .lib, .so, .a or .dylib. */
  predicate IsLibrary(file: string) {
    EndsWith(file, ".dll") || EndsWith(file, ".lib") || EndsWith(file, ".so") || EndsWith(file, ".a") || EndsWith(file, ".dylib")
  }

  /** `fileIsSharedLibrary`: .dll, .so or .dylib. */
  predicate IsSharedLibrary(file: string) {
    EndsWith(file, ".dll") || EndsWith(file, ".so") || EndsWith(file, ".dylib")
  }

  /** Every shared library is a library; the static ones are exactly .lib and .a. */
  lemma SharedLibraryIsLibrary(file: string)
    ensures IsSharedLibrary(file) ==> IsLibrary(file)
    ensures IsLibrary(file) && !IsSharedLibrary(file) <==> (EndsWith(file, ".lib") || EndsWith(file, ".a")) && !IsSharedLibrary(file)
  {
  }

  /** `file.replace("\\", "/")`: Windows separators turned into `/`, nothing else touched. */
  function NormaliseSeparators(file: string): (r: string)
    ensures |r| == |file| && '\\' !in r
    ensures forall i | 0 <= i < |file| :: r[i] == (if file[i] == '\\' then '/' else file[i])
  {
    seq(|file|, i requires 0 <= i < |file| => if file[i] == '\\' then '/' else file[i])
  }

  /** Normalising twice is normalising once. */
  lemma NormaliseSeparatorsIdempotent(file: string)
    ensures NormaliseSeparators(NormaliseSeparators(file)) == NormaliseSeparators(file)
  {
  }

  const BUILD_PREFIX: string := "build/"
  const INCLUDE_PREFIX: string := "include/"

  /**
   * The product name without its version: the `build/` prefix dropped, then,
   * when the name has an `_`, every occurrence of the text from its last `_`
   * up to its third `.` removed. With fewer than three dots `find_nth`
   * gives -1 and the slice ends one character before the end.
   */
  method StripVersion(file: string) returns (name: string)
    ensures '_' !in Slice(file, |BUILD_PREFIX|, |file|) ==> name == Slice(file, |BUILD_PREFIX|, |file|)
    ensures '_' in Slice(file, |BUILD_PREFIX|, |file|) ==>
      var f := Slice(file, |BUILD_PREFIX|, |file|);
      name == RemoveAll(f, Slice(f, RIndex(f, '_'), NthFrom(f, ".", 3, 0)))
    ensures |name| <= |Slice(file, |BUILD_PREFIX|, |file|)|
  {
    name := Slice(file, |BUILD_PREFIX|, |file|);
    if '_' in name {
      var third := FindNth(name, ".", 3);
      var version := Slice(name, RIndex(name, '_'), third);
      name := RemoveAll(name, version);
    }
  }

  /** The reference version strip, as a function of the name. */
  function VersionStripped(file: string): (name: string)
  {
    var f := Slice(file, |BUILD_PREFIX|, |file|);
    if '_' in f then RemoveAll(f, Slice(f, RIndex(f, '_'), NthFrom(f, ".", 3, 0))) else f
  }

  /**
   * When the name has fewer than three dots `find_nth` reports -1, which as a
   * slice end means "all but the last character": the removed text runs from
   * the last `_` to just before the final character.
   */
  lemma VersionSliceWithoutThirdDot(f: string)
    requires '_' in f && NthFrom(f, ".", 3, 0) == -1
    ensures Slice(f, RIndex(f, '_'), NthFrom(f, ".", 3, 0)) == f[RIndex(f, '_')..|f| - 1]
  {
  }

  const EXAMPLE_PRODUCT: string := "libNimble_1.0.0.so"

  lemma ExampleLastUnderscore()
    ensures RIndex(EXAMPLE_PRODUCT, '_') == 9
  {
    var f := EXAMPLE_PRODUCT;
    var i := RIndex(f, '_');
    assert f[9] == '_';
    assert forall k | 0 <= k < |f| && k != 9 :: f[k] != '_';
  }

  lemma ExampleThirdDot()
    ensures NthFrom(EXAMPLE_PRODUCT, ".", 3, 0) == 15
  {
    ExampleDots(EXAMPLE_PRODUCT);
  }

  /** The three dots of the example name, found one `find` after another. */
  lemma ExampleDots(f: string)
    requires f == EXAMPLE_PRODUCT
    ensures Find(f, ".", 0) == 11 && Find(f, ".", 12) == 13 && Find(f, ".", 14) == 15
  {
    FindChar(f, '.', 0, 11);
    FindChar(f, '.', 12, 13);
    FindChar(f, '.', 14, 15);
  }

  /** A one-character needle: `find` stops at the first position holding it. */
  lemma FindChar(f: string, c: char, start: nat, i: nat)
    requires start <= i < |f| && f[i] == c
    requires forall j | start <= j < i :: f[j] != c
    ensures Find(f, [c], start) == i
  {
    forall j | start <= j < i
      ensures !MatchAt(f, [c], j)
    {
      assert f[j..j + 1][0] == f[j];
    }
    assert f[i..i + 1] == [c];
    FindIsFirst(f, [c], start, i);
  }

  lemma ExampleParts(f: string)
    requires f == EXAMPLE_PRODUCT
    ensures Slice(f, 9, 15) == "_1.0.0"
    ensures f == "libNimble" + "_1.0.0" + ".so"
  {
    assert SliceBound(9, |f|) == 9 && SliceBound(15, |f|) == 15;
    assert f[..9] == "libNimble" && f[9..15] == "_1.0.0" && f[15..] == ".so";
    assert f == f[..9] + f[9..15] + f[15..];
  }

  lemma ExampleRemoved(f: string)
    requires f == EXAMPLE_PRODUCT
    ensures RemoveAll(f, Slice(f, 9, 15)) == "libNimble.so"
  {
    ExampleParts(f);
    RemoveAllOnce("libNimble", "_1.0.0", ".so");
    assert "libNimble" + ".so" == "libNimble.so";
  }

  /** `build/libNimble_1.0.0.so` becomes `libNimble.so`. */
  lemma StripVersionExample(file: string)
    requires file == "build/" + EXAMPLE_PRODUCT
    ensures VersionStripped(file) == "libNimble.so"
  {
    var f := Slice(file, 6, |file|);
    assert SliceBound(6, |file|) == 6 && SliceBound(|file|, |file|) == |file|;
    assert f == EXAMPLE_PRODUCT;
    assert f[9] == '_';
    ExampleLastUnderscore();
    ExampleThirdDot();
    ExampleRemoved(f);
  }

  /**
   * Every versioned product name of the form `base_a.b.c.ext`, with no `_` or
   * `.` in the base and no `_` after it, loses exactly its `_a.b.c`: the last
   * `_` starts the version and the third `.` ends it.
   */
  lemma StripVersionRemovesVersion(base: string, a: string, b: string, c: string, ext: string)
    requires '_' !in base && '.' !in base
    requires '_' !in a && '_' !in b && '_' !in c && '_' !in ext
    requires '.' !in a && '.' !in b && '.' !in c
    ensures VersionStripped(BUILD_PREFIX + base + "_" + a + "." + b + "." + c + "." + ext) == base + "." + ext
  {
    var version := "_" + a + "." + b + "." + c;
    var rest := "." + ext;
    var f := base + version + rest;
    var p1 := |base| + 1 + |a|;
    var p2 := p1 + 1 + |b|;
    var p3 := p2 + 1 + |c|;
    assert NthFrom(f, ".", 3, 0) == p3 by {
      VersionDotPositions(base, a, b, c, ext);
      DotsByIndex(f, p1, p2, p3);
    }
    assert '_' in f && RIndex(f, '_') == |base| by {
      VersionUnderscorePosition(base, a, b, c, ext);
    }
    assert VersionStripped(BUILD_PREFIX + f) == base + rest by {
      StrippedShape(BUILD_PREFIX + f, f, base, version, rest);
    }
    VersionedNameParts(BUILD_PREFIX, base, a, b, c, ext);
  }

  /** The versioned name regrouped as prefix, base, version and extension. */
  lemma VersionedNameParts(prefix: string, base: string, a: string, b: string, c: string, ext: string)
    ensures prefix + base + "_" + a + "." + b + "." + c + "." + ext
         == prefix + (base + ("_" + a + "." + b + "." + c) + ("." + ext))
  {
    var version := "_" + a + "." + b + "." + c;
    assert base + "_" + a + "." + b + "." + c == base + version;
  }

  /**
   * Once the last `_` and the third `.` of the name are known to bracket one
   * occurrence of the version, stripping leaves the text around it.
   */
  lemma StrippedShape(file: string, f: string, pre: string, version: string, post: string)
    requires file == BUILD_PREFIX + f && f == pre + version + post
    requires |version| > 0 && version[0] == '_' && '_' !in pre && '_' !in post
    requires '_' in f && RIndex(f, '_') == |pre| && NthFrom(f, ".", 3, 0) == |pre| + |version|
    ensures VersionStripped(file) == pre + post
  {
    SliceAfterPrefix(BUILD_PREFIX, f);
    assert Slice(f, |pre|, |pre| + |version|) == version by {
      assert f[|pre|..|pre| + |version|] == version;
    }
    assert RemoveAll(f, version) == pre + post by {
      RemoveAllOnce(pre, version, post);
    }
  }

  /** Slicing from the end of a prefix gives back what follows it. */
  lemma SliceAfterPrefix(prefix: string, rest: string)
    ensures Slice(prefix + rest, |prefix|, |prefix + rest|) == rest
  {
    assert (prefix + rest)[|prefix|..] == rest;
  }

  /** The dots of `base_a.b.c.ext` with dot-free parts sit right after `a`, `b` and `c`. */
  lemma VersionDotPositions(base: string, a: string, b: string, c: string, ext: string)
    requires '.' !in base && '.' !in a && '.' !in b && '.' !in c
    ensures var f := base + ("_" + a + "." + b + "." + c) + ("." + ext);
            var p1 := |base| + 1 + |a|;
            var p2 := p1 + 1 + |b|;
            var p3 := p2 + 1 + |c|;
            && p3 < |f| && f[p1] == '.' && f[p2] == '.' && f[p3] == '.'
            && '.' !in f[..p1] && '.' !in f[p1 + 1..p2] && '.' !in f[p2 + 1..p3]
  {
    var f := base + ("_" + a + "." + b + "." + c) + ("." + ext);
    var head := base + "_" + a;
    var p1 := |head|;
    var p2 := p1 + 1 + |b|;
    var p3 := p2 + 1 + |c|;
    assert f == head + "." + b + "." + c + "." + ext;
    assert '.' !in head by {
      assert head == base + ("_" + a);
    }
    assert f[..p1] == head;
    assert f[p1 + 1..p2] == b;
    assert f[p2 + 1..p3] == c;
  }

  /** Three dots with none between them: `find_nth(f, ".", 3)` is the third. */
  lemma DotsByIndex(f: string, p1: nat, p2: nat, p3: nat)
    requires p1 < p2 < p3 < |f| && f[p1] == '.' && f[p2] == '.' && f[p3] == '.'
    requires '.' !in f[..p1] && '.' !in f[p1 + 1..p2] && '.' !in f[p2 + 1..p3]
    ensures NthFrom(f, ".", 3, 0) == p3
  {
    FindDot(f, 0, p1);
    FindDot(f, p1 + 1, p2);
    FindDot(f, p2 + 1, p3);
    NthFromThree(f, p1, p2, p3);
  }

  /** `find(".", start)` is the first dot at or after start. */
  lemma FindDot(f: string, start: nat, i: nat)
    requires start <= i < |f| && f[i] == '.' && '.' !in f[start..i]
    ensures Find(f, ".", start) == i
  {
    forall j | start <= j < i
      ensures f[j] != '.'
    {
      assert f[j] == f[start..i][j - start];
    }
    FindChar(f, '.', start, i);
  }

  /** The `_` opening the version of `base_a.b.c.ext` is its only one, hence the last. */
  lemma VersionUnderscorePosition(base: string, a: string, b: string, c: string, ext: string)
    requires '_' !in base && '_' !in a && '_' !in b && '_' !in c && '_' !in ext
    ensures var f := base + ("_" + a + "." + b + "." + c) + ("." + ext);
            '_' in f && RIndex(f, '_') == |base|
  {
    var f := base + ("_" + a + "." + b + "." + c) + ("." + ext);
    var p1 := |base| + 1 + |a|;
    var p2 := p1 + 1 + |b|;
    var p3 := p2 + 1 + |c|;
    assert f == base + "_" + a + "." + b + "." + c + "." + ext;
    assert f[|base|] == '_';
    forall k | 0 <= k < |f| && k != |base|
      ensures f[k] != '_'
    {
      if k < |base| {
        assert f[k] == base[k];
      } else if k < p1 {
        assert f[k] == a[k - |base| - 1];
      } else if p1 < k < p2 {
        assert f[k] == b[k - p1 - 1];
      } else if p2 < k < p3 {
        assert f[k] == c[k - p2 - 1];
      } else if p3 < k {
        assert f[k] == ext[k - p3 - 1];
      }
    }
  }

  /** Three successive finds of a dot, each starting just past the last, give the third dot. */
  lemma NthFromThree(f: string, p1: nat, p2: nat, p3: nat)
    requires Find(f, ".", 0) == p1
    requires Find(f, ".", p1 + 1) == p2
    requires Find(f, ".", p2 + 1) == p3
    ensures NthFrom(f, ".", 3, 0) == p3
  {
    assert NthFrom(f, ".", 1, p2 + 1) == p3;
    assert NthFrom(f, ".", 2, p1 + 1) == p3;
  }

  /**
   * The directory a header is copied to, relative to the library's include
   * directory: `file[len("include/"):-(len(file) - file.rindex("/"))]`, taken
   * only when the part after `include/` holds a `/`.
   */
  function IncludeDirectory(file: string): (dir: Option<string>)
    ensures dir.Some? <==> '/' in Slice(file, |INCLUDE_PREFIX|, |file|)
    ensures dir.Some? ==>
      && |file| > |INCLUDE_PREFIX|
      && dir.value == file[|INCLUDE_PREFIX|..RIndex(file, '/')]
      && file[|INCLUDE_PREFIX|..] == dir.value + file[RIndex(file, '/')..]
      && '/' !in file[RIndex(file, '/') + 1..]
  {
    if '/' in Slice(file, |INCLUDE_PREFIX|, |file|) then
      assert '/' in file;
      var last := RIndex(file, '/');
      assert last >= |INCLUDE_PREFIX| by {
        var k :| 0 <= k < |file[|INCLUDE_PREFIX|..]| && file[|INCLUDE_PREFIX|..][k] == '/';
        assert file[|INCLUDE_PREFIX| + k] == '/';
      }
      Some(Slice(file, |INCLUDE_PREFIX|, -(|file| - last)))
    else None
  }

}

=== FILE: ctypes.dfy ===
/**
 * Fixed-width C integer types and the failure-carrying wrappers the rest of
 * the model shares. Unsigned C types are subsets of `int`; wrap-around is
 * always written out where the source relies on it.
 */
module CTypes {

  const UINT8_LIMIT: int := 0x100
  const UINT16_LIMIT: int := 0x1_0000
  const UINT32_LIMIT: int := 0x1_0000_0000
  const UINT64_LIMIT: int := 0x1_0000_0000_0000_0000

  const INT16_MIN: int := -0x8000
  const INT32_MIN: int := -0x8000_0000
  const INT64_MIN: int := -0x8000_0000_0000_0000
  const INT32_MAX: int := 0x7fff_ffff
  const INT64_MAX: int := 0x7fff_ffff_ffff_ffff

  type uint8 = x: int | 0 <= x < 0x100
  type uint16 = x: int | 0 <= x < 0x1_0000
  type uint32 = x: int | 0 <= x < 0x1_0000_0000
  type uint64 = x: int | 0 <= x < 0x1_0000_0000_0000_0000

  type int8 = x: int | -0x80 <= x < 0x80
  type int16 = x: int | -0x8000 <= x < 0x8000
  type int32 = x: int | -0x8000_0000 <= x < 0x8000_0000
  type int64 = x: int | -0x8000_0000_0000_0000 <= x < 0x8000_0000_0000_0000

  /** A value that may be missing: a C pointer that may be NULL. */
  datatype Option<+T> = None | Some(value: T)

  /**
   * What a C routine does when it is called: it returns a value, it never
   * returns (an endless loop), or it reaches undefined behaviour.
   */
  datatype Outcome<+T> = Returns(value: T) | Diverges | Undefined

  /**
   * A `float` the model only copies, never computes with: its 32-bit
   * IEEE-754 pattern.
   */
  type Float = bv32

  /** A C string is a sequence of characters without its terminating NUL. */
  type CString = seq<char>

  /** C's `/` on signed integers: the quotient truncated toward zero. */
  function CDiv(a: int, b: int): (q: int)
    requires b != 0
    ensures a >= 0 && b > 0 ==> q == a / b
    ensures (a >= 0) == (b > 0) ==> q >= 0
    ensures (a >= 0) != (b > 0) ==> q <= 0
  {
    if a >= 0 && b > 0 then a / b
    else if a < 0 && b < 0 then (-a) / (-b)
    else if a < 0 then -((-a) / b)
    else -(a / (-b))
  }

  /** C's `%` on signed integers: the remainder takes the sign of the dividend. */
  function CMod(a: int, b: int): (r: int)
    requires b != 0
    ensures a == b * CDiv(a, b) + r
    ensures a >= 0 ==> 0 <= r < (if b < 0 then -b else b)
    ensures a < 0 ==> -(if b < 0 then -b else b) < r <= 0
  {
    a - b * CDiv(a, b)
  }

  /** Reduction of a mathematical result to an unsigned 64-bit word. */
  function Wrap64(x: int): (w: uint64)
    ensures 0 <= x < UINT64_LIMIT ==> w == x
    ensures (x - w) % UINT64_LIMIT == 0
  {
    x % UINT64_LIMIT
  }

  /** A result at most one word away from the word range wraps by adding or removing one modulus. */
  lemma Wrap64Near(x: int)
    requires -UINT64_LIMIT <= x < 2 * UINT64_LIMIT
    ensures Wrap64(x) == if x < 0 then x + UINT64_LIMIT else if x < UINT64_LIMIT then x else x - UINT64_LIMIT
  {
  }

  /** Unsigned 64-bit `a + b`: the sum, less 2^64 when it carries out. */
  function Add64(a: uint64, b: uint64): uint64 {
    if a + b < UINT64_LIMIT then a + b else a + b - UINT64_LIMIT
  }

  /** Unsigned 64-bit `a - b`: the difference, plus 2^64 when it borrows. */
  function Sub64(a: uint64, b: uint64): uint64 {
    if b <= a then a - b else a - b + UINT64_LIMIT
  }

  /** Both agree with reduction modulo 2^64 of the mathematical result. */
  lemma Add64Sub64Wrap(a: uint64, b: uint64)
    ensures Add64(a, b) == Wrap64(a + b)
    ensures Sub64(a, b) == Wrap64(a - b)
  {
    Wrap64Near(a + b);
    Wrap64Near(a - b);
  }

  /** Reducing an addend first does not change the reduced sum. */
  lemma Wrap64Add(a: int, b: int)
    ensures Wrap64(a + Wrap64(b)) == Wrap64(a + b)
  {
    var k := b / UINT64_LIMIT;
    assert b == k * UINT64_LIMIT + Wrap64(b);
    var q := (a + Wrap64(b)) / UINT64_LIMIT;
    assert a + b == (q + k) * UINT64_LIMIT + Wrap64(a + Wrap64(b));
  }
}

=== FILE: decimal.dfy ===
/**
 * Decimal text: the digit characters, the `%d` rendering of a natural
 * number, `%0Nd` zero padding, and the value a digit string denotes.
 */
module Decimal {
  import NimbleMath

  predicate IsDigit(c: char) {
    '0' <= c <= '9'
  }

  predicate AllDigits(s: string) {
    forall i | 0 <= i < |s| :: IsDigit(s[i])
  }

  /** The character for a digit value. */
  function DigitChar(d: nat): (c: char)
    requires d < 10
    ensures IsDigit(c) && c as int - '0' as int == d
  {
    ('0' as int + d) as char
  }

  /** The value of a digit character. */
  function DigitValue(c: char): (d: nat)
    requires IsDigit(c)
    ensures d < 10 && DigitChar(d) == c
  {
    c as int - '0' as int
  }

  /** `%d` of a natural number: its digits, most significant first, no leading zeros. */
  function Render(n: nat): (s: string)
    ensures AllDigits(s) && |s| >= 1
    ensures |s| == NimbleMath.NumDigits(n)
    ensures |s| > 1 ==> s[0] != '0'
  {
    if n < 10 then [DigitChar(n)] else Render(n / 10) + [DigitChar(n % 10)]
  }

  /** The number a digit string denotes, most significant digit first. */
  function ValueOf(s: string): nat
    requires AllDigits(s)
  {
    if |s| == 0 then 0 else 10 * ValueOf(s[..|s| - 1]) + DigitValue(s[|s| - 1])
  }

  /** Reading back a rendered number gives the number. */
  lemma {:induction false} ValueOfRender(n: nat)
    ensures ValueOf(Render(n)) == n
    decreases n
  {
    if n >= 10 {
      ValueOfRender(n / 10);
      assert Render(n)[..|Render(n)| - 1] == Render(n / 10);
    }
  }

  /** w copies of '0'. */
  function Zeros(w: nat): (s: string)
    ensures |s| == w && AllDigits(s)
    ensures forall i | 0 <= i < w :: s[i] == '0'
  {
    if w == 0 then [] else Zeros(w - 1) + ['0']
  }

  /** `%0wd` of a natural number: rendered, then left-padded with zeros to at least w characters. */
  function ZeroPad(n: nat, w: nat): (s: string)
    ensures AllDigits(s)
    ensures |s| == if NimbleMath.NumDigits(n) < w then w else NimbleMath.NumDigits(n)
  {
    var digits := Render(n);
    if |digits| < w then Zeros(w - |digits|) + digits else digits
  }

  /** Leading zeros do not change the value. */
  lemma {:induction false} ValueOfLeadingZeros(k: nat, s: string)
    requires AllDigits(s)
    ensures ValueOf(Zeros(k) + s) == ValueOf(s)
    decreases |s|
  {
    if |s| == 0 {
      ValueOfZeros(k);
      assert Zeros(k) + s == Zeros(k);
    } else {
      var t := Zeros(k) + s;
      assert t[..|t| - 1] == Zeros(k) + s[..|s| - 1];
      ValueOfLeadingZeros(k, s[..|s| - 1]);
    }
  }

  lemma {:induction false} ValueOfZeros(k: nat)
    ensures ValueOf(Zeros(k)) == 0
  {
    if k > 0 {
      assert Zeros(k)[..k - 1] == Zeros(k - 1);
      ValueOfZeros(k - 1);
    }
  }

  /** A zero-padded field reads back as its value. */
  lemma ValueOfZeroPad(n: nat, w: nat)
    ensures ValueOf(ZeroPad(n, w)) == n
  {
    ValueOfRender(n);
    if |Render(n)| < w {
      ValueOfLeadingZeros(w - |Render(n)|, Render(n));
    }
  }

  /** A number below 10^w has at most w digits, so `%0wd` renders it in exactly w characters. */
  lemma {:induction false} ZeroPadWidth(n: nat, w: nat)
    requires w >= 1 && n < NimbleMath.Pow10(w)
    ensures |ZeroPad(n, w)| == w
  {
    NumDigitsAtMost(n, w);
  }

  lemma {:induction false} NumDigitsAtMost(n: nat, w: nat)
    requires w >= 1 && n < NimbleMath.Pow10(w)
    ensures NimbleMath.NumDigits(n) <= w
    decreases w
  {
    if n >= 10 && w > 1 {
      NumDigitsAtMost(n / 10, w - 1);
    }
  }
}

=== FILE: endianness.dfy ===
/**
 * `nimbleByteSwap`: reverses the byte order of every 64-bit word of an
 * array, in place, walking from the last word down to the first.
 *
 * The loop index is a signed 64-bit copy of `length - 1`, computed in
 * unsigned arithmetic. A length of 0 therefore yields index -1 and no work,
 * and so does any length above 2^63 (its `length - 1` turns negative in the
 * conversion). The swap is its own inverse, so the routine converts in both
 * directions; the word array itself is modelled as a sequence.
 */
module Endianness {
  import opened CTypes

  /** Byte k (0 = least significant) of a word. */
  function ByteOf(w: bv64, k: nat): (b: bv64)
    requires k < 8
    ensures b < 0x100
  {
    if k == 0 then w & 0xff
    else if k == 1 then (w >> 8) & 0xff
    else if k == 2 then (w >> 16) & 0xff
    else if k == 3 then (w >> 24) & 0xff
    else if k == 4 then (w >> 32) & 0xff
    else if k == 5 then (w >> 40) & 0xff
    else if k == 6 then (w >> 48) & 0xff
    else (w >> 56) & 0xff
  }

  /** The mask-and-shift expression the source applies to one word. */
  function SwapWord(w: bv64): (r: bv64)
  {
    ((w & 0xff00_0000_0000_0000) >> 56) |
    ((w & 0x00ff_0000_0000_0000) >> 40) |
    ((w & 0x0000_ff00_0000_0000) >> 24) |
    ((w & 0x0000_00ff_0000_0000) >> 8) |
    ((w & 0x0000_0000_ff00_0000) << 8) |
    ((w & 0x0000_0000_00ff_0000) << 24) |
    ((w & 0x0000_0000_0000_ff00) << 40) |
    ((w & 0x0000_0000_0000_00ff) << 56)
  }

  /** Byte k of the swapped word is byte 7-k of the original. */
  lemma SwapWordReversesBytes(w: bv64, k: nat)
    requires k < 8
    ensures ByteOf(SwapWord(w), k) == ByteOf(w, 7 - k)
  {
    if k < 4 {
      SwapWordLowBytes(w, SwapWord(w), k);
    } else {
      SwapWordHighBytes(w, SwapWord(w), k);
    }
  }

  lemma SwapWordLowBytes(w: bv64, r: bv64, k: nat)
    requires r == SwapWord(w) && k < 4
    ensures ByteOf(r, k) == ByteOf(w, 7 - k)
  {
  }

  lemma SwapWordHighBytes(w: bv64, r: bv64, k: nat)
    requires r == SwapWord(w) && 4 <= k < 8
    ensures ByteOf(r, k) == ByteOf(w, 7 - k)
  {
  }

  /** Two words with the same eight bytes are equal. */
  lemma BytesDetermineWord(a: bv64, b: bv64)
    requires forall k: nat | k < 8 :: ByteOf(a, k) == ByteOf(b, k)
    ensures a == b
  {
    assert ByteOf(a, 0) == ByteOf(b, 0) && ByteOf(a, 1) == ByteOf(b, 1);
    assert ByteOf(a, 2) == ByteOf(b, 2) && ByteOf(a, 3) == ByteOf(b, 3);
    assert ByteOf(a, 4) == ByteOf(b, 4) && ByteOf(a, 5) == ByteOf(b, 5);
    assert ByteOf(a, 6) == ByteOf(b, 6) && ByteOf(a, 7) == ByteOf(b, 7);
  }

  /** Swapping twice restores the word. */
  lemma SwapWordInvolution(w: bv64)
    ensures SwapWord(SwapWord(w)) == w
  {
    forall k: nat | k < 8
      ensures ByteOf(SwapWord(SwapWord(w)), k) == ByteOf(w, k)
    {
      SwapWordReversesBytes(SwapWord(w), k);
      SwapWordReversesBytes(w, 7 - k);
    }
    BytesDetermineWord(SwapWord(SwapWord(w)), w);
  }

  /**
   * How many words the loop visits for a given `length`: `(int64_t)(length - 1)`
   * is length-1 for 1 <= length <= 2^63 and negative otherwise.
   */
  function SwappedCount(length: uint64): (n: nat)
    ensures n <= length
    ensures n == (if 1 <= length <= 0x8000_0000_0000_0000 then length else 0)
  {
    var index := (length - 1) % UINT64_LIMIT;
    var signedIndex := if index >= 0x8000_0000_0000_0000 then index - UINT64_LIMIT else index;
    if signedIndex >= 0 then signedIndex + 1 else 0
  }

  /** The reference result: the first n words swapped, the rest untouched. */
  function SwapPrefix(s: seq<bv64>, n: nat): (r: seq<bv64>)
    requires n <= |s|
    ensures |r| == |s|
    ensures forall i | 0 <= i < n :: r[i] == SwapWord(s[i])
    ensures r[n..] == s[n..]
  {
    if n == 0 then s else SwapPrefix(s, n - 1)[n - 1 := SwapWord(s[n - 1])]
  }

  /** Swapping the same prefix twice restores the array. */
  lemma {:induction false} SwapPrefixInvolution(s: seq<bv64>, n: nat)
    requires n <= |s|
    ensures SwapPrefix(SwapPrefix(s, n), n) == s
  {
    var once := SwapPrefix(s, n);
    var twice := SwapPrefix(once, n);
    forall i | 0 <= i < |s|
      ensures twice[i] == s[i]
    {
      if i < n {
        SwapWordInvolution(s[i]);
      } else {
        assert twice[i] == twice[n..][i - n];
      }
    }
  }

  /**
   * `nimbleByteSwap` as the source runs it: a descending loop over the words
   * the index reaches. The source needs the array to hold that many words.
   */
  method ByteSwap(input: seq<bv64>, length: uint64) returns (output: seq<bv64>)
    requires SwappedCount(length) <= |input|
    ensures output == SwapPrefix(input, SwappedCount(length))
    ensures 1 <= length <= 0x8000_0000_0000_0000 ==> forall i | 0 <= i < length :: output[i] == SwapWord(input[i])
  {
    var n := SwappedCount(length);
    output := input;
    var i: int := n as int - 1;
    while i >= 0
      invariant -1 <= i < n
      invariant |output| == |input|
      invariant forall j | i < j < n :: output[j] == SwapWord(input[j])
      invariant forall j | 0 <= j <= i :: output[j] == input[j]
      invariant output[n..] == input[n..]
    {
      output := output[i := SwapWord(output[i])];
      i := i - 1;
    }
    assert forall j | 0 <= j < |input| :: output[j] == SwapPrefix(input, n)[j] by {
      forall j | 0 <= j < |input|
        ensures output[j] == SwapPrefix(input, n)[j]
      {
        if j >= n {
          assert output[j] == output[n..][j - n];
          assert SwapPrefix(input, n)[j] == SwapPrefix(input, n)[n..][j - n];
        }
      }
    }
  }

  /** Lengths 0 and above 2^63 leave the array as it was. */
  lemma ByteSwapNoOp(input: seq<bv64>, length: uint64)
    requires length == 0 || length > 0x8000_0000_0000_0000
    ensures SwapPrefix(input, SwappedCount(length)) == input
  {
  }
}

=== FILE: file_manager.dfy ===
/**
 * `nimbleFileGetExecutableDirectory`: takes the executable's path as the OS
 * reports it and cuts it just after its last `/`. The OS query is an input
 * (`buffer`, None when the allocation failed). The cut position is stored in
 * a `uint16_t`, and a path without any `/` makes `strrchr` return NULL, from
 * which the code subtracts the buffer's address: undefined behaviour.
 */
module FileManager {
  import opened CTypes
  import NimbleMemory

  /** `PATH_MAX` on Linux. */
  const PATH_MAX: nat := 4096

  /** `strrchr(s, c)`: the position of the last c in s, if any. */
  function LastIndexOf(s: string, c: char): (r: Option<nat>)
    ensures r.Some? ==> r.value < |s| && s[r.value] == c && c !in s[r.value + 1..]
    ensures r.None? <==> c !in s
  {
    if |s| == 0 then None
    else if s[|s| - 1] == c then Some(|s| - 1)
    else
      var r := LastIndexOf(s[..|s| - 1], c);
      assert s == s[..|s| - 1] + [s[|s| - 1]];
      r
  }

  /**
   * The truncation both versions share: a NUL written after position
   * `(uint16_t)(slash)`, the result being the string up to that NUL. For
   * paths up to 65536 characters the cast changes nothing.
   */
  function Truncate(path: string): (r: Outcome<string>)
    ensures r.Undefined? <==> '/' !in path
    ensures !r.Diverges?
    ensures r.Returns? ==> 1 <= |r.value| && r.value <= path
    ensures r.Returns? && |path| <= UINT16_LIMIT ==>
              && r.value == path[..LastIndexOf(path, '/').value + 1]
              && r.value[|r.value| - 1] == '/' && '/' !in path[|r.value|..]
  {
    match LastIndexOf(path, '/')
    case None => Undefined
    case Some(slash) => Returns(path[..slash % UINT16_LIMIT + 1])
  }

  /** `nimbleFileGetExecutableDirectory` of FileManager.h: NULL stays NULL, otherwise the truncated path. */
  function ExecutableDirectory(buffer: Option<string>): (r: Outcome<Option<string>>)
    requires buffer.Some? ==> |buffer.value| <= PATH_MAX
    ensures buffer.None? ==> r == Returns(None)
    ensures buffer.Some? && '/' !in buffer.value ==> r.Undefined?
    ensures buffer.Some? && '/' in buffer.value ==>
              && r.Returns? && r.value.Some?
              && r.value.value == buffer.value[..LastIndexOf(buffer.value, '/').value + 1]
  {
    match buffer
    case None => Returns(None)
    case Some(path) =>
      match Truncate(path)
      case Returns(dir) => Returns(Some(dir))
      case _ => Undefined
  }

  /** The directory is the path minus its final component: it ends in `/` and the rest has none. */
  lemma DirectoryThenName(path: string)
    requires |path| <= PATH_MAX && '/' in path
    ensures var dir := ExecutableDirectory(Some(path)).value.value;
            && path == dir + path[|dir|..]
            && dir[|dir| - 1] == '/'
            && '/' !in path[|dir|..]
  {
  }

  /** Cutting an already-cut directory changes nothing. */
  lemma TruncateIdempotent(path: string)
    requires |path| <= PATH_MAX && '/' in path
    ensures Truncate(path).Returns? && Truncate(Truncate(path).value) == Truncate(path)
  {
    var dir := Truncate(path).value;
    assert LastIndexOf(dir, '/') == Some(|dir| - 1);
    assert dir[..|dir|] == dir;
  }

  datatype Tracked = Tracked(directory: Outcome<Option<string>>, memoryUsed: uint64)

  /**
   * `nimbleFileGetExecutableDirectory` of NimbleFileManager.c: the same
   * truncation, with the buffer allocated through the counter as
   * `PATH_MAX + 1` bytes and then reallocated to `length + 1`. The allocation is
   * counted even when it fails.
   */
  function TrackedExecutableDirectory(used: uint64, buffer: Option<string>): (r: Tracked)
    requires buffer.Some? ==> |buffer.value| <= PATH_MAX
    ensures r.directory == ExecutableDirectory(buffer)
    ensures buffer.None? ==> r.memoryUsed == Wrap64(used + (PATH_MAX + 1))
    ensures r.directory.Returns? && r.directory.value.Some? ==>
              r.memoryUsed == Wrap64(used + (|r.directory.value.value| + 1))
  {
    var afterAllocate := NimbleMemory.Allocate(used, PATH_MAX + 1).used;
    match ExecutableDirectory(buffer)
    case Returns(Some(dir)) =>
      NimbleMemory.AllocateThenReallocate(used, PATH_MAX + 1, |dir| + 1);
      Tracked(Returns(Some(dir)), NimbleMemory.Reallocate(afterAllocate, false, PATH_MAX + 1, |dir| + 1).used)
    case other => Tracked(other, afterAllocate)
  }
}

=== FILE: license_generator.dfy ===
/**
 * The two license generators: each reads LICENSE.md line by line and emits a
 * C file whose `LICENSE_md` string literal is meant to hold the license text.
 * The partner of the generators is a decoder for the C source they produce:
 * line splicing (a backslash before a newline disappears), then string
 * literals with the `\n`, `\"` and `\\` escapes, adjacent literals joined.
 */
module LicenseGenerator {
  import opened CTypes
  import opened PyText

  // ---------------------------------------------------------------------
  // Reading C string literals back
  // ---------------------------------------------------------------------

  /** Translation phase 2 of C: every backslash immediately followed by a newline is deleted. */
  function Splice(s: string): (r: string)
    ensures |r| <= |s|
    decreases |s|
  {
    if |s| == 0 then ""
    else if |s| >= 2 && s[0] == '\\' && s[1] == '\n' then Splice(s[2..])
    else [s[0]] + Splice(s[1..])
  }

  /** Where the lexer is: between literals, inside one, or just after a backslash inside one. */
  datatype LexState = Outside | Inside | AfterBackslash

  /** One character of spliced source: the next state and the text it contributes. */
  function Step(st: LexState, c: char): Option<(LexState, string)>
  {
    match st
    case Outside =>
      if c == '"' then Some((Inside, ""))
      else if c == ' ' || c == '\n' then Some((Outside, ""))
      else None
    case Inside =>
      if c == '"' then Some((Outside, ""))
      else if c == '\\' then Some((AfterBackslash, ""))
      else if c == '\n' then None
      else Some((Inside, [c]))
    case AfterBackslash =>
      if c == 'n' then Some((Inside, "\n"))
      else if c == '"' || c == '\\' then Some((Inside, [c]))
      else None
  }

  /** The lexer run over a whole text: the final state and the characters the literals denote. */
  function Run(s: string, st: LexState): Option<(LexState, string)>
    decreases |s|
  {
    if |s| == 0 then Some((st, ""))
    else match Step(st, s[0])
      case None => None
      case Some((st1, e)) =>
        match Run(s[1..], st1)
        case None => None
        case Some((st2, o)) => Some((st2, e + o))
  }

  /** Continuing a run over more text. */
  function RunThen(first: Option<(LexState, string)>, rest: string): Option<(LexState, string)>
  {
    match first
    case None => None
    case Some((st, o)) =>
      match Run(rest, st)
      case None => None
      case Some((st2, o2)) => Some((st2, o + o2))
  }

  /** The string a sequence of adjacent literals denotes, None when it is not well formed. */
  function Decode(source: string): (text: Option<string>)
    ensures text.Some? <==> Run(Splice(source), Outside).Some? && Run(Splice(source), Outside).value.0 == Outside
  {
    match Run(Splice(source), Outside)
    case Some((Outside, text)) => Some(text)
    case _ => None
  }

  lemma {:induction false} RunAppend(a: string, b: string, st: LexState)
    ensures Run(a + b, st) == RunThen(Run(a, st), b)
    decreases |a|
  {
    if |a| == 0 {
      assert a + b == b;
      match Run(b, st)
      case None =>
      case Some((st2, o2)) => assert "" + o2 == o2;
    } else {
      assert (a + b)[0] == a[0];
      assert (a + b)[1..] == a[1..] + b;
      match Step(st, a[0])
      case None =>
      case Some((st1, e)) =>
        RunAppend(a[1..], b, st1);
        match Run(a[1..], st1)
        case None =>
        case Some((st2, o)) =>
          match Run(b, st2)
          case None =>
          case Some((st3, o3)) => assert e + (o + o3) == (e + o) + o3;
    }
  }

  /** Splicing distributes over a join that does not put a backslash right before a newline. */
  lemma {:induction false} SpliceAppend(a: string, b: string)
    requires !(|a| > 0 && a[|a| - 1] == '\\' && |b| > 0 && b[0] == '\n')
    ensures Splice(a + b) == Splice(a) + Splice(b)
    decreases |a|
  {
    if |a| == 0 {
      assert a + b == b;
    } else if |a| >= 2 && a[0] == '\\' && a[1] == '\n' {
      assert (a + b)[0] == '\\' && (a + b)[1] == '\n';
      assert (a + b)[2..] == a[2..] + b;
      SpliceAppend(a[2..], b);
    } else {
      assert (a + b)[0] == a[0];
      assert |a| == 1 ==> |b| == 0 || (a + b)[1] == b[0];
      assert |a| >= 2 ==> (a + b)[1] == a[1];
      assert (a + b)[1..] == a[1..] + b;
      SpliceAppend(a[1..], b);
    }
  }

  /** Text without newlines has nothing to splice. */
  lemma {:induction false} SpliceNoNewline(s: string)
    requires '\n' !in s
    ensures Splice(s) == s
    decreases |s|
  {
    if |s| > 0 {
      assert '\n' !in s[1..];
      SpliceNoNewline(s[1..]);
    }
  }

  // ---------------------------------------------------------------------
  // Escaping and lines
  // ---------------------------------------------------------------------

  /** One character escaped: `"` always, `\` only when `backslashes` is set. */
  function EscapeChar(c: char, backslashes: bool): (r: string)
    ensures 1 <= |r| <= 2 && r[|r| - 1] == c
    ensures |r| == 2 <==> c == '"' || (backslashes && c == '\\')
    ensures |r| == 2 ==> r[0] == '\\'
  {
    if c == '"' then ['\\', '"']
    else if backslashes && c == '\\' then ['\\', '\\']
    else [c]
  }

  /** `line.replace('"', '\\"')` when `backslashes` is false; the escaping C needs when it is true. */
  function Escape(s: string, backslashes: bool): (r: string)
    ensures |r| >= |s|
    ensures '\n' !in s ==> '\n' !in r
    ensures |s| > 0 ==> |r| > 0 && r[|r| - 1] == s[|s| - 1]
    decreases |s|
  {
    if |s| == 0 then "" else EscapeChar(s[0], backslashes) + Escape(s[1..], backslashes)
  }

  lemma {:induction false} EscapeAppend(a: string, b: string, backslashes: bool)
    ensures Escape(a + b, backslashes) == Escape(a, backslashes) + Escape(b, backslashes)
    decreases |a|
  {
    if |a| == 0 {
      assert a + b == b;
    } else {
      assert (a + b)[0] == a[0];
      assert (a + b)[1..] == a[1..] + b;
      EscapeAppend(a[1..], b, backslashes);
    }
  }

  /** Without backslashes in the text, escaping them as well changes nothing. */
  lemma {:induction false} EscapeAgrees(s: string)
    requires '\\' !in s
    ensures Escape(s, false) == Escape(s, true)
    decreases |s|
  {
    if |s| > 0 {
      assert '\\' !in s[1..];
      EscapeAgrees(s[1..]);
    }
  }

  lemma RunCons(c: char, rest: string, st: LexState)
    ensures Run([c] + rest, st) == RunThen(Step(st, c), rest)
  {
    assert ([c] + rest)[0] == c;
    assert ([c] + rest)[1..] == rest;
  }

  lemma SpliceCons(c: char, rest: string)
    requires !(c == '\\' && |rest| > 0 && rest[0] == '\n')
    ensures Splice([c] + rest) == [c] + Splice(rest)
  {
    assert ([c] + rest)[0] == c;
    assert ([c] + rest)[1..] == rest;
  }

  /** A continuation, backslash then newline, vanishes. */
  lemma SpliceContinuation(rest: string)
    ensures Splice("\\\n" + rest) == Splice(rest)
  {
    assert ("\\\n" + rest)[2..] == rest;
  }

  /** One escaped character, read inside a literal, gives the character back. */
  lemma RunEscapeChar(c: char)
    requires c != '\n'
    ensures Run(EscapeChar(c, true), Inside) == Some((Inside, [c]))
  {
    var head := EscapeChar(c, true);
    assert Run("", Inside) == Some((Inside, ""));
    assert [c] + "" == [c] && "" + [c] == [c];
    if |head| == 2 {
      assert head == ['\\'] + [c];
      RunCons('\\', [c], Inside);
      assert [c] == [c] + "";
      RunCons(c, "", AfterBackslash);
      assert Run([c], AfterBackslash) == Some((Inside, [c]));
    } else {
      assert head == [c] + "";
      RunCons(c, "", Inside);
    }
  }

  /** Text free of the characters being escaped is its own escaping. */
  lemma {:induction false} EscapePlain(s: string, backslashes: bool)
    requires '"' !in s && (backslashes ==> '\\' !in s)
    ensures Escape(s, backslashes) == s
    decreases |s|
  {
    if |s| > 0 {
      assert '"' !in s[1..] && (backslashes ==> '\\' !in s[1..]);
      EscapePlain(s[1..], backslashes);
      assert [s[0]] + s[1..] == s;
    }
  }

  /** Inside a literal, fully escaped text reads back as itself. */
  lemma {:induction false} RunEscaped(s: string)
    requires '\n' !in s
    ensures Run(Escape(s, true), Inside) == Some((Inside, s))
    decreases |s|
  {
    if |s| == 0 {
    } else {
      var head := EscapeChar(s[0], true);
      RunAppend(head, Escape(s[1..], true), Inside);
      RunEscapeChar(s[0]);
      assert '\n' !in s[1..];
      RunEscaped(s[1..]);
      assert [s[0]] + s[1..] == s;
    }
  }

  /** A line as `readline` returns it: non-empty, a newline at most at its end. */
  predicate IsLine(l: string) {
    |l| > 0 && '\n' !in l[..|l| - 1]
  }

  /** A line that ends in its newline. */
  predicate IsTerminated(l: string) {
    IsLine(l) && l[|l| - 1] == '\n'
  }

  function Concat(lines: seq<string>): string
  {
    if |lines| == 0 then "" else lines[0] + Concat(lines[1..])
  }

  /** The length of the first line of a non-empty text, its newline included. */
  function LineLength(s: string): (n: nat)
    requires |s| > 0
    ensures 1 <= n <= |s|
    ensures '\n' !in s[..n - 1]
    ensures n == |s| || s[n - 1] == '\n'
    decreases |s|
  {
    if s[0] == '\n' || |s| == 1 then 1
    else
      var n := 1 + LineLength(s[1..]);
      assert s[..n - 1] == [s[0]] + s[1..][..n - 2];
      n
  }

  /** The successive results of `readline` until it returns the empty string. */
  function Lines(text: string): (lines: seq<string>)
    ensures Concat(lines) == text
    ensures forall i | 0 <= i < |lines| :: IsLine(lines[i])
    decreases |text|
  {
    if |text| == 0 then []
    else
      var n := LineLength(text);
      assert text == text[..n] + text[n..];
      [text[..n]] + Lines(text[n..])
  }

  /** Every line but the last ends in its newline, and so does the last when the text does. */
  lemma {:induction false} LinesTerminated(text: string)
    ensures forall i | 0 <= i < |Lines(text)| - 1 :: IsTerminated(Lines(text)[i])
    ensures (|text| == 0 || text[|text| - 1] == '\n') ==> forall i | 0 <= i < |Lines(text)| :: IsTerminated(Lines(text)[i])
    decreases |text|
  {
    if |text| > 0 {
      var n := LineLength(text);
      var rest := Lines(text[n..]);
      var lines := Lines(text);
      LinesTerminated(text[n..]);
      assert lines == [text[..n]] + rest;
      assert n < |text| ==> IsTerminated(lines[0]);
      if n < |text| {
        assert text[n..][|text[n..]| - 1] == text[|text| - 1];
      }
      forall i | 1 <= i < |lines|
        ensures lines[i] == rest[i - 1]
      {
      }
    }
  }

  // ---------------------------------------------------------------------
  // The generated source
  // ---------------------------------------------------------------------

  /** Python's `line[:-1]` on the escaped line, then the per-line suffix. */
  function LineLiteral(line: string, suffix: string, backslashes: bool): string
  {
    Slice(Escape(line, backslashes), 0, -1) + suffix
  }

  /** The literal text produced for all lines, in order. */
  function LiteralLines(lines: seq<string>, suffix: string, backslashes: bool): string
  {
    if |lines| == 0 then "" else LineLiteral(lines[0], suffix, backslashes) + LiteralLines(lines[1..], suffix, backslashes)
  }

  /** A per-line suffix that starts a continuation and denotes a single newline inside a literal. */
  predicate GoodSuffix(suffix: string) {
    && |suffix| > 0 && suffix[0] != '\n' && suffix[|suffix| - 1] != '\\'
    && Run(Splice(suffix), Inside) == Some((Inside, "\n"))
  }

  /** A terminated line, escaped and given its suffix, reads back as the line. */
  lemma LineLiteralReadsBack(line: string, suffix: string)
    requires IsTerminated(line) && GoodSuffix(suffix)
    ensures Run(Splice(LineLiteral(line, suffix, true)), Inside) == Some((Inside, line))
  {
    var body := line[..|line| - 1];
    assert line == body + "\n";
    EscapeTerminated(line, true);
    var e := Escape(body, true);
    SpliceAppend(e, suffix);
    SpliceNoNewline(e);
    RunAppend(e, Splice(suffix), Inside);
    RunEscaped(body);
  }

  /** Dropping the last character of an escaped terminated line drops just its newline. */
  lemma EscapeTerminated(line: string, backslashes: bool)
    requires IsTerminated(line)
    ensures Slice(Escape(line, backslashes), 0, -1) == Escape(line[..|line| - 1], backslashes)
  {
    var body := line[..|line| - 1];
    assert line == body + "\n";
    EscapeAppend(body, "\n", backslashes);
    assert Escape("\n", backslashes) == "\n" by {
      assert Escape("\n", backslashes) == EscapeChar('\n', backslashes) + Escape("", backslashes);
    }
  }

  /** The lines' literal text reads back as the lines joined. */
  lemma {:induction false} LiteralLinesReadBack(lines: seq<string>, suffix: string)
    requires GoodSuffix(suffix)
    requires forall i | 0 <= i < |lines| :: IsTerminated(lines[i])
    ensures Run(Splice(LiteralLines(lines, suffix, true)), Inside) == Some((Inside, Concat(lines)))
    decreases |lines|
  {
    if |lines| > 0 {
      var head := LineLiteral(lines[0], suffix, true);
      var tail := LiteralLines(lines[1..], suffix, true);
      SpliceAppend(head, tail);
      LineLiteralReadsBack(lines[0], suffix);
      LiteralLinesReadBack(lines[1..], suffix);
      RunAppend(Splice(head), Splice(tail), Inside);
    }
  }

  /** With a one-newline suffix, each terminated line contributes exactly one newline to the literal text. */
  lemma {:induction false} LiteralLinesNewlines(lines: seq<string>, suffix: string, backslashes: bool)
    requires multiset(suffix)['\n'] == 1
    requires forall i | 0 <= i < |lines| :: IsTerminated(lines[i])
    ensures multiset(LiteralLines(lines, suffix, backslashes))['\n'] == |lines|
    decreases |lines|
  {
    if |lines| > 0 {
      var line := lines[0];
      var body := line[..|line| - 1];
      assert line == body + "\n";
      assert '\n' !in body;
      EscapeAppend(body, "\n", backslashes);
      var e := Escape(body, backslashes);
      assert Slice(Escape(line, backslashes), 0, -1) == e;
      assert multiset(e)['\n'] == 0;
      var rest := LiteralLines(lines[1..], suffix, backslashes);
      LiteralLinesNewlines(lines[1..], suffix, backslashes);
      assert LiteralLines(lines, suffix, backslashes) == e + suffix + rest;
      assert multiset(e + suffix + rest) == multiset(e) + multiset(suffix) + multiset(rest);
    }
  }

  /** A declaration's text: what precedes the literal, the literal, what follows it. */
  function Framed(before: string, literal: string, after: string): (source: string)
    ensures |source| == |before| + |literal| + |after|
    ensures source[..|before|] == before
    ensures source[|before|..|before| + |literal|] == literal
    ensures source[|before| + |literal|..] == after
  {
    before + literal + after
  }

  /** The literal the source closes with, then what follows it. */
  const CLOSE: string := "\""
  const TRAILER: string := ";\n\n\n// NimbleLicense.c\n"

  /**
   * The comment block of the generator at the repository's root, up to the
   * `=` of the declaration. `copyright` is the copyright line the script
   * writes under the date.
   */
  function Header(date: string, copyright: string): string
  {
    "/*\n*  NimbleLicense.c\n*  Nimble Game Engine\n*\n*  Created automatically by LicenseGenerator.py on "
    + date + ".\n*  " + copyright + "\n*\n*/\n\n"
    + "const char LICENSE_md[] = "
  }

  /** The literal opens with a newline escape and a continuation. */
  const OPEN: string := "\"\\n\\\n"
  /** Each line ends with a newline escape and a continuation. */
  const SUFFIX: string := "\\n\\\n"

  /** The `LICENSE_md` initializer, escaping backslashes or not. */
  function LicenseLiteral(text: string, backslashes: bool): string
  {
    OPEN + LiteralLines(Lines(text), SUFFIX, backslashes) + CLOSE
  }

  /** The file the generator at the repository's root writes. */
  function LicenseSource(date: string, copyright: string, text: string): string
  {
    Framed(Header(date, copyright), LicenseLiteral(text, false), TRAILER)
  }

  /** One source line per license line: the literal spans exactly one more line than the license has. */
  lemma LicenseLiteralLineCount(text: string, backslashes: bool)
    requires |text| == 0 || text[|text| - 1] == '\n'
    ensures multiset(LicenseLiteral(text, backslashes))['\n'] == 1 + |Lines(text)|
  {
    LinesTerminated(text);
    LiteralLinesNewlines(Lines(text), SUFFIX, backslashes);
    assert multiset(SUFFIX)['\n'] == 1;
    assert multiset(OPEN)['\n'] == 1;
    assert multiset(CLOSE)['\n'] == 0;
  }

  /** With backslashes escaped too, the literal denotes a newline followed by the license text. */
  function CorrectedLicenseSource(date: string, copyright: string, text: string): string
  {
    Framed(Header(date, copyright), LicenseLiteral(text, true), TRAILER)
  }

  /** A newline escape read inside a literal. */
  lemma RunNewlineEscape()
    ensures Run("\\n", Inside) == Some((Inside, "\n"))
  {
    assert "\\n" == ['\\'] + "n";
    assert "n" == ['n'] + "";
    RunCons('\\', "n", Inside);
    RunCons('n', "", AfterBackslash);
    assert Run("", Inside) == Some((Inside, ""));
    assert Step(AfterBackslash, 'n') == Some((Inside, "\n"));
    assert "\n" + "" == "\n";
    assert Run("n", AfterBackslash) == Some((Inside, "\n"));
    assert "" + "\n" == "\n";
  }

  /** A quote read inside a literal closes it. */
  lemma RunClose(rest: string)
    ensures Run("\"" + rest, Inside) == Run(rest, Outside)
  {
    RunCons('"', rest, Inside);
    match Run(rest, Outside)
    case None =>
    case Some((st, o)) => assert "" + o == o;
  }

  /** A quote read between literals opens one. */
  lemma RunOpen(rest: string)
    ensures Run("\"" + rest, Outside) == Run(rest, Inside)
  {
    RunCons('"', rest, Outside);
    match Run(rest, Inside)
    case None =>
    case Some((st, o)) => assert "" + o == o;
  }

  lemma SuffixIsGood()
    ensures Splice(SUFFIX) == "\\n"
    ensures GoodSuffix(SUFFIX)
    ensures Run(Splice(OPEN), Outside) == Some((Inside, "\n"))
  {
    assert SUFFIX == "\\n" + "\\\n";
    SpliceAppend("\\n", "\\\n");
    SpliceNoNewline("\\n");
    SpliceContinuation("");
    RunNewlineEscape();
    assert OPEN == ['"'] + SUFFIX;
    SpliceCons('"', SUFFIX);
    RunOpen("\\n");
  }

  /**
   * An opening piece, a body and the closing quote decode to what the opening
   * piece and the body denote.
   */
  lemma FramedDecode(open: string, body: string, title: string, text: string)
    requires |open| > 0 && open[|open| - 1] != '\\'
    requires Run(Splice(open), Outside) == Some((Inside, title))
    requires Run(Splice(body), Inside) == Some((Inside, text))
    ensures Decode(open + body + CLOSE) == Some(title + text)
  {
    var tail := Splice(body) + CLOSE;
    assert Splice(open + body + CLOSE) == Splice(open) + tail by {
      assert open + body + CLOSE == open + (body + CLOSE);
      SpliceAppend(open, body + CLOSE);
      SpliceAppend(body, CLOSE);
      SpliceNoNewline(CLOSE);
    }
    assert Run(tail, Inside) == Some((Outside, text)) by {
      RunAppend(Splice(body), CLOSE, Inside);
      RunClosing();
      assert text + "" == text;
    }
    assert Run(Splice(open) + tail, Outside) == Some((Outside, title + text)) by {
      RunAppend(Splice(open), tail, Outside);
    }
  }

  /** The closing quote ends the literal and denotes nothing. */
  lemma RunClosing()
    ensures Run(CLOSE, Inside) == Some((Outside, ""))
  {
    assert CLOSE == "\"" + "";
    RunClose("");
  }

  /** A license file ending in a newline survives the trip through the corrected literal. */
  lemma LicenseLiteralRoundTrip(text: string)
    requires |text| == 0 || text[|text| - 1] == '\n'
    ensures Decode(LicenseLiteral(text, true)) == Some("\n" + text)
  {
    SuffixIsGood();
    LinesTerminated(text);
    LiteralLinesReadBack(Lines(text), SUFFIX);
    FramedDecode(OPEN, LiteralLines(Lines(text), SUFFIX, true), "\n", text);
  }

  /** A license of one plain line becomes that line less its last character, then the suffix. */
  lemma OneLineLiteral(line: string, backslashes: bool)
    requires IsLine(line) && '"' !in line && (backslashes ==> '\\' !in line)
    ensures LiteralLines(Lines(line), SUFFIX, backslashes) == line[..|line| - 1] + SUFFIX
  {
    LinesOfOneLine(line);
    EscapePlain(line, backslashes);
    assert LiteralLines([line], SUFFIX, backslashes) == LineLiteral(line, SUFFIX, backslashes) + "";
  }

  /** A one-line license free of quotes and backslashes whose line has no newline. */
  predicate UnterminatedPlainLine(line: string) {
    IsLine(line) && line[|line| - 1] != '\n' && '"' !in line && '\\' !in line
  }

  /**
   * `line[:-1]` takes the newline off every line, but a last line without
   * one loses its last character instead: such a license gives the same
   * literal as the license whose last character is a newline, in both
   * generators.
   */
  lemma UnterminatedLastLineLiterals(line: string)
    requires UnterminatedPlainLine(line)
    ensures LicenseLiteral(line, false) == LicenseLiteral(line, true) == LicenseLiteral(line[..|line| - 1] + "\n", true)
  {
    var terminated := line[..|line| - 1] + "\n";
    assert terminated[..|terminated| - 1] == line[..|line| - 1];
    assert '"' !in terminated && '\\' !in terminated by {
      assert forall c | c in terminated :: c in line[..|line| - 1] || c == '\n';
    }
    OneLineLiteral(line, false);
    OneLineLiteral(line, true);
    OneLineLiteral(terminated, true);
  }

  /** Hence that literal reads back with the last character replaced by a newline, so the license is lost. */
  lemma UnterminatedLastLineCounterexample(line: string)
    requires UnterminatedPlainLine(line)
    ensures Decode(LicenseLiteral(line, true)) == Some("\n" + line[..|line| - 1] + "\n")
    ensures Decode(LicenseLiteral(line, true)) != Some("\n" + line)
  {
    var terminated := line[..|line| - 1] + "\n";
    assert Decode(LicenseLiteral(line, true)) == Some("\n" + terminated) by {
      UnterminatedLastLineLiterals(line);
      LicenseLiteralRoundTrip(terminated);
    }
    assert "\n" + terminated == "\n" + line[..|line| - 1] + "\n";
    assert ("\n" + terminated)[|line|] != ("\n" + line)[|line|];
  }

  /** Where the license has no backslash the source as written and the corrected one coincide. */
  lemma {:induction false} NoBackslashAgrees(lines: seq<string>, suffix: string)
    requires forall i | 0 <= i < |lines| :: '\\' !in lines[i]
    ensures LiteralLines(lines, suffix, false) == LiteralLines(lines, suffix, true)
    decreases |lines|
  {
    if |lines| > 0 {
      EscapeAgrees(lines[0]);
      NoBackslashAgrees(lines[1..], suffix);
    }
  }

  /** Hence a backslash-free license ending in a newline also survives the source as written. */
  lemma LicenseLiteralAsWrittenRoundTrip(text: string)
    requires |text| == 0 || text[|text| - 1] == '\n'
    requires '\\' !in text
    ensures Decode(LicenseLiteral(text, false)) == Some("\n" + text)
  {
    var lines := Lines(text);
    forall i | 0 <= i < |lines|
      ensures '\\' !in lines[i]
    {
      InConcat(lines, i);
    }
    NoBackslashAgrees(lines, SUFFIX);
    LicenseLiteralRoundTrip(text);
  }

  /** Every character of a line is a character of the joined text. */
  lemma {:induction false} InConcat(lines: seq<string>, i: nat)
    requires i < |lines|
    ensures forall c | c in lines[i] :: c in Concat(lines)
    decreases i
  {
    if i > 0 {
      InConcat(lines[1..], i - 1);
    }
  }

  /** A text with no newline before its last character is read as one line. */
  lemma LinesOfOneLine(line: string)
    requires IsLine(line)
    ensures Lines(line) == [line]
  {
    var n := LineLength(line);
    assert n == |line|;
    assert line[..n] == line;
    assert line[n..] == "";
  }

  /**
   * A license line holding the two characters `\` and `n` comes back as a
   * newline: the text `\n` followed by a newline decodes to three newlines.
   */
  lemma BackslashCounterexample(text: string)
    requires text == "\\n\n"
    ensures Decode(LicenseLiteral(text, false)) == Some("\n\n\n")
    ensures Decode(LicenseLiteral(text, true)) == Some("\n" + text)
    ensures "\n\n\n" != "\n" + text
  {
    BackslashBody(text);
    BackslashBodyDecodes();
    SuffixIsGood();
    assert "\n" + "\n\n" == "\n\n\n";
    FramedDecode(OPEN, "\\n" + SUFFIX, "\n", "\n\n");
    LicenseLiteralRoundTrip(text);
  }

  /** As written, the line `\n` followed by a newline becomes the body `\n` plus the line suffix. */
  lemma BackslashBody(text: string)
    requires text == "\\n\n"
    ensures LiteralLines(Lines(text), SUFFIX, false) == "\\n" + SUFFIX
  {
    assert text[..2] == "\\n";
    assert IsTerminated(text);
    LinesOfOneLine(text);
    EscapePlain(text, false);
    assert Slice(text, 0, -1) == "\\n";
    assert LineLiteral(text, SUFFIX, false) == "\\n" + SUFFIX;
    assert LiteralLines([text], SUFFIX, false) == LineLiteral(text, SUFFIX, false) + LiteralLines([], SUFFIX, false);
  }

  /** That body reads as two newline escapes. */
  lemma BackslashBodyDecodes()
    ensures Run(Splice("\\n" + SUFFIX), Inside) == Some((Inside, "\n\n"))
  {
    SuffixIsGood();
    SpliceAppend("\\n", SUFFIX);
    SpliceNoNewline("\\n");
    RunAppend("\\n", "\\n", Inside);
    RunNewlineEscape();
    assert Splice("\\n" + SUFFIX) == "\\n" + "\\n";
    assert "\n" + "\n" == "\n\n";
  }

  // ---------------------------------------------------------------------
  // The generator under scripts/
  // ---------------------------------------------------------------------

  const SCRIPTS: string := "scripts"

  /**
   * The directory the generator under scripts/ works from: a trailing
   * `scripts` removed, then a `/` appended, since no text ends with both `/`
   * and `\`.
   */
  function ScriptsDirectory(cwd: string): (dir: string)
    ensures |dir| > 0 && dir[|dir| - 1] == '/'
    ensures EndsWith(cwd, SCRIPTS) ==> dir == cwd[..|cwd| - |SCRIPTS|] + "/"
    ensures !EndsWith(cwd, SCRIPTS) ==> dir == cwd + "/"
  {
    var directory := if EndsWith(cwd, SCRIPTS) then cwd[..|cwd| - |SCRIPTS|] else cwd;
    SeparatorTestHolds(directory);
    if !EndsWith(directory, "/") || !EndsWith(directory, "\\") then directory + "/" else directory
  }

  /** The guard of the `/` append is true of every text. */
  lemma SeparatorTestHolds(directory: string)
    ensures !EndsWith(directory, "/") || !EndsWith(directory, "\\")
  {
  }

  /** A directory that already ends in `/` gets a second one. */
  lemma ScriptsDirectoryDoublesSlash(cwd: string)
    requires EndsWith(cwd, "/")
    ensures ScriptsDirectory(cwd) == cwd + "/"
    ensures EndsWith(ScriptsDirectory(cwd), "//")
  {
  }

  /**
   * Run from the scripts/ directory itself, the trimmed path already ends
   * in `/` and as written gets a second one; the evidently intended test
   * leaves it as it is.
   */
  lemma FromScriptsDoublesSlash(base: string)
    requires EndsWith(base, "/")
    ensures EndsWith(ScriptsDirectory(base + SCRIPTS), "//")
    ensures ScriptsDirectoryIntended(base + SCRIPTS) == base
  {
    var cwd := base + SCRIPTS;
    assert EndsWith(cwd, SCRIPTS) by {
      assert cwd[|cwd| - |SCRIPTS|..] == SCRIPTS;
    }
    assert cwd[..|cwd| - |SCRIPTS|] == base;
    ScriptsDirectoryDoublesSlash(base);
    assert base[|base| - 1] == '/';
    assert !EndsWith(base, "\\");
  }

  /** The directory the separator test evidently meant: `/` appended only when neither separator ends it. */
  function ScriptsDirectoryIntended(cwd: string): (dir: string)
    ensures EndsWith(dir, "/") || EndsWith(dir, "\\")
    ensures var base := if EndsWith(cwd, SCRIPTS) then cwd[..|cwd| - |SCRIPTS|] else cwd;
            |base| <= |dir| <= |base| + 1 && dir[..|base|] == base
  {
    var directory := if EndsWith(cwd, SCRIPTS) then cwd[..|cwd| - |SCRIPTS|] else cwd;
    if !EndsWith(directory, "/") && !EndsWith(directory, "\\") then directory + "/" else directory
  }

  /** A path ending in a separator does not end in `scripts`. */
  lemma SeparatorIsNotScripts(dir: string)
    requires EndsWith(dir, "/") || EndsWith(dir, "\\")
    ensures !EndsWith(dir, SCRIPTS)
  {
    assert dir[|dir| - 1] == '/' || dir[|dir| - 1] == '\\';
  }

  /** Corrected, the directory is a fixed point: working from it again gives it back. */
  lemma ScriptsDirectoryIntendedIdempotent(cwd: string)
    ensures ScriptsDirectoryIntended(ScriptsDirectoryIntended(cwd)) == ScriptsDirectoryIntended(cwd)
  {
    SeparatorIsNotScripts(ScriptsDirectoryIntended(cwd));
  }

  /** As written it never is: each pass appends one more `/`. */
  lemma ScriptsDirectoryGrows(cwd: string)
    ensures ScriptsDirectory(ScriptsDirectory(cwd)) == ScriptsDirectory(cwd) + "/"
  {
    var dir := ScriptsDirectory(cwd);
    assert EndsWith(dir, "/");
    SeparatorIsNotScripts(dir);
  }

  /**
   * The Doxygen comment block of the generator under scripts/, up to the `=`
   * of the declaration. `copyright` is the copyright line and `notice` the
   * lines of the MIT license notice the script writes into the block, each
   * starting ` * `.
   */
  function ScriptsHeader(date: string, copyright: string, notice: string): string
  {
    "/*\n * NimbleLicense.c\n * Nimble Game Engine\n *\n * Created automatically by LicenseGenerator.py on "
    + date + ".\n * " + copyright + "\n *\n */\n\n"
    + "/**\n * @file NimbleLicense.c\n * @author Avery Aaron\n * @copyright\n * @parblock\n"
    + notice
    + " * @endparblock\n * @date 2020-01-30\n * \n"
    + " * @brief Defines the value of #LICENSE_md, which gets compiled into the binaries.\n */\n\n\n"
    + "/**\n * @brief The license that gets compiled into the binaries.\n */\n"
    + "const char LICENSE_md[] = "
  }

  /** A literal holding a newline and the title, closed, continued, and a new literal opened. */
  const SCRIPTS_OPEN: string := ("\"" + ("\\n" + (TITLE + "\""))) + ("\\\n" + "\"")
  /** Each line closes its literal after a newline escape, continues, and opens the next. */
  const SCRIPTS_SUFFIX: string := "\\n\"\\\n\""
  const SCRIPTS_TITLE: string := "\n" + TITLE

  function ScriptsLicenseLiteral(text: string, backslashes: bool): string
  {
    SCRIPTS_OPEN + LiteralLines(Lines(text), SCRIPTS_SUFFIX, backslashes) + CLOSE
  }

  /** The file the generator under scripts/ writes. */
  function ScriptsLicenseSource(date: string, copyright: string, notice: string, text: string): string
  {
    Framed(ScriptsHeader(date, copyright, notice), ScriptsLicenseLiteral(text, false), TRAILER)
  }

  lemma ScriptsSuffixIsGood()
    ensures GoodSuffix(SCRIPTS_SUFFIX)
  {
    assert SCRIPTS_SUFFIX == "\\n\"" + ("\\\n" + "\"");
    SpliceAppend("\\n\"", "\\\n" + "\"");
    SpliceNoNewline("\\n\"");
    SpliceContinuation("\"");
    SpliceNoNewline("\"");
    assert Splice(SCRIPTS_SUFFIX) == "\\n" + ("\"" + ("\"" + ""));
    RunNewlineEscape();
    RunAppend("\\n", "\"" + ("\"" + ""), Inside);
    RunClose("\"" + "");
    RunOpen("");
    assert Run("", Inside) == Some((Inside, ""));
    assert "\n" + "" == "\n";
  }

  const TITLE: string := "Nimble Game Engine License:"

  lemma TitleIsPlain()
    ensures '"' !in TITLE && '\\' !in TITLE && '\n' !in TITLE
  {
  }

  /** Plain text, read inside a literal and followed by a close and a reopen, gives itself. */
  lemma PlainReadsBack(title: string, rest: string)
    requires '"' !in title && '\\' !in title && '\n' !in title
    requires rest == "\"" + ("\"" + "")
    ensures Run(title + rest, Inside) == Some((Inside, title))
  {
    EscapePlain(title, true);
    RunEscaped(title);
    RunAppend(title, rest, Inside);
    RunClose("\"" + "");
    RunOpen("");
    assert Run("", Inside) == Some((Inside, ""));
    assert title + "" == title;
  }

  /** An opening piece of the scripts/ shape splices to itself minus its continuation. */
  lemma OpenSplice(title: string)
    requires '\n' !in title
    ensures Splice(("\"" + ("\\n" + (title + "\""))) + ("\\\n" + "\""))
            == "\"" + ("\\n" + (title + ("\"" + ("\"" + ""))))
  {
    var head := "\"" + ("\\n" + (title + "\""));
    assert '\n' !in head;
    SpliceAppend(head, "\\\n" + "\"");
    SpliceNoNewline(head);
    SpliceContinuation("\"");
    SpliceNoNewline("\"");
  }

  /** The opening piece written under scripts/ holds a newline and the title, and leaves a literal open. */
  lemma OpenReadsTitle(title: string)
    requires '"' !in title && '\\' !in title && '\n' !in title
    ensures Run(Splice(("\"" + ("\\n" + (title + "\""))) + ("\\\n" + "\"")), Outside) == Some((Inside, "\n" + title))
  {
    var rest := "\"" + ("\"" + "");
    OpenSplice(title);
    PlainReadsBack(title, rest);
    RunNewlineEscape();
    RunAppend("\\n", title + rest, Inside);
    RunOpen("\\n" + (title + rest));
  }

  lemma ScriptsOpenReadsTitle()
    ensures Run(Splice(SCRIPTS_OPEN), Outside) == Some((Inside, SCRIPTS_TITLE))
  {
    TitleIsPlain();
    OpenReadsTitle(TITLE);
  }

  /** The literals written under scripts/ denote the title line followed by the license text. */
  lemma ScriptsLicenseLiteralRoundTrip(text: string)
    requires |text| == 0 || text[|text| - 1] == '\n'
    ensures Decode(ScriptsLicenseLiteral(text, true)) == Some(SCRIPTS_TITLE + text)
    ensures '\\' !in text ==> Decode(ScriptsLicenseLiteral(text, false)) == Some(SCRIPTS_TITLE + text)
  {
    ScriptsSuffixIsGood();
    ScriptsOpenReadsTitle();
    LinesTerminated(text);
    LiteralLinesReadBack(Lines(text), SCRIPTS_SUFFIX);
    FramedDecode(SCRIPTS_OPEN, LiteralLines(Lines(text), SCRIPTS_SUFFIX, true), SCRIPTS_TITLE, text);
    if '\\' !in text {
      var lines := Lines(text);
      forall i | 0 <= i < |lines|
        ensures '\\' !in lines[i]
      {
        InConcat(lines, i);
      }
      NoBackslashAgrees(lines, SCRIPTS_SUFFIX);
    }
  }
}

=== FILE: logger.dfy ===
/**
 * `nimbleLoggerLog`: checks its arguments, builds one log line
 * `[MM-DD-YYYY HH:MM:SS +uuuuuu] <tag><entry>\n` with `snprintf` and three
 * bounded `strncat`s, and writes it to the log file and optionally the
 * console. The calendar fields, the microsecond reading and the file's error
 * indicator after the write are inputs here.
 */
module Logger {
  import opened CTypes
  import Decimal
  import NimbleMemory

  const LOG_ERROR_NOENTRY: uint8 := 1
  const LOG_ERROR_NOLENGTH: uint8 := 2
  const LOG_ERROR_FWRITE: uint8 := 3

  const ENTRY_TYPE_PRINT: uint8 := 0
  const ENTRY_TYPE_INFO: uint8 := 1
  const ENTRY_TYPE_WARNING: uint8 := 2

  /** The `printf` format of the timestamp and the length the source budgets for it. */
  const ENTRY_TIME_FORMAT: string := "[%02d-%02d-%04d %02d:%02d:%02d +%06d] "
  const FORMAT_LENGTH_4: nat := 4
  const ENTRY_TIME_FORMATTED_LENGTH: nat := |ENTRY_TIME_FORMAT| - FORMAT_LENGTH_4 * 7 + 2 + 2 + 4 + 2 + 2 + 2 + 6

  /** The `struct tm` fields (`tm_mon` counts from 0, `tm_year` from 1900) and `tv_usec`. */
  datatype Clock = Clock(tmMon: int, tmMday: int, tmYear: int, tmHour: int, tmMin: int, tmSec: int, usec: int)

  /** The ranges `localtime` and `gettimeofday` report in, for years 1000 to 9999. */
  predicate ClockInRange(c: Clock) {
    && 0 <= c.tmMon <= 11 && 1 <= c.tmMday <= 31 && 1000 <= c.tmYear + 1900 <= 9999
    && 0 <= c.tmHour <= 23 && 0 <= c.tmMin <= 59 && 0 <= c.tmSec <= 60 && 0 <= c.usec <= 999_999
  }

  /** `[MM-DD-YYYY`: the bracket and the date, `tm_mon` shifted to count from 1. */
  function DatePart(c: Clock): (p: string)
    requires ClockInRange(c)
    ensures |p| == 11 && p[0] == '[' && p[3] == '-' && p[6] == '-'
    ensures p[1..3] == Decimal.ZeroPad(c.tmMon + 1, 2)
    ensures p[4..6] == Decimal.ZeroPad(c.tmMday, 2)
    ensures p[7..11] == Decimal.ZeroPad(c.tmYear + 1900, 4)
  {
    Decimal.ZeroPadWidth(c.tmMon + 1, 2);
    Decimal.ZeroPadWidth(c.tmMday, 2);
    Decimal.ZeroPadWidth(c.tmYear + 1900, 4);
    var mm, dd, yyyy := Decimal.ZeroPad(c.tmMon + 1, 2), Decimal.ZeroPad(c.tmMday, 2), Decimal.ZeroPad(c.tmYear + 1900, 4);
    var p := "[" + mm + "-" + dd + "-" + yyyy;
    assert p[1..3] == mm && p[4..6] == dd && p[7..11] == yyyy;
    p
  }

  /** `HH:MM:SS`. */
  function TimePart(c: Clock): (p: string)
    requires ClockInRange(c)
    ensures |p| == 8 && p[2] == ':' && p[5] == ':'
    ensures p[..2] == Decimal.ZeroPad(c.tmHour, 2)
    ensures p[3..5] == Decimal.ZeroPad(c.tmMin, 2)
    ensures p[6..8] == Decimal.ZeroPad(c.tmSec, 2)
  {
    Decimal.ZeroPadWidth(c.tmHour, 2);
    Decimal.ZeroPadWidth(c.tmMin, 2);
    Decimal.ZeroPadWidth(c.tmSec, 2);
    var hh, mm, ss := Decimal.ZeroPad(c.tmHour, 2), Decimal.ZeroPad(c.tmMin, 2), Decimal.ZeroPad(c.tmSec, 2);
    var p := hh + ":" + mm + ":" + ss;
    assert p[..2] == hh && p[3..5] == mm && p[6..8] == ss;
    p
  }

  /** The timestamp `snprintf` produces from the format above. */
  function Timestamp(c: Clock): (p: string)
    requires ClockInRange(c)
    ensures |p| == ENTRY_TIME_FORMATTED_LENGTH == 30
    ensures p[0..11] == DatePart(c) && p[11] == ' ' && p[12..20] == TimePart(c)
    ensures p[20..22] == " +" && p[22..28] == Decimal.ZeroPad(c.usec, 6) && p[28..] == "] "
  {
    Decimal.ZeroPadWidth(c.usec, 6);
    DatePart(c) + " " + TimePart(c) + " +" + Decimal.ZeroPad(c.usec, 6) + "] "
  }

  /** Each field of the timestamp reads back as the calendar value it was made from. */
  lemma TimestampFieldsReadBack(c: Clock)
    requires ClockInRange(c)
    ensures Decimal.AllDigits(Timestamp(c)[1..3]) && Decimal.ValueOf(Timestamp(c)[1..3]) == c.tmMon + 1
    ensures Decimal.AllDigits(Timestamp(c)[4..6]) && Decimal.ValueOf(Timestamp(c)[4..6]) == c.tmMday
    ensures Decimal.AllDigits(Timestamp(c)[7..11]) && Decimal.ValueOf(Timestamp(c)[7..11]) == c.tmYear + 1900
    ensures Decimal.AllDigits(Timestamp(c)[12..14]) && Decimal.ValueOf(Timestamp(c)[12..14]) == c.tmHour
    ensures Decimal.AllDigits(Timestamp(c)[15..17]) && Decimal.ValueOf(Timestamp(c)[15..17]) == c.tmMin
    ensures Decimal.AllDigits(Timestamp(c)[18..20]) && Decimal.ValueOf(Timestamp(c)[18..20]) == c.tmSec
    ensures Decimal.AllDigits(Timestamp(c)[22..28]) && Decimal.ValueOf(Timestamp(c)[22..28]) == c.usec
  {
    var p := Timestamp(c);
    DateFieldsReadBack(c, p);
    TimeFieldsReadBack(c, p);
    Decimal.ValueOfZeroPad(c.usec, 6);
  }

  lemma DateFieldsReadBack(c: Clock, p: string)
    requires ClockInRange(c) && |p| >= 11 && p[0..11] == DatePart(c)
    ensures Decimal.AllDigits(p[1..3]) && Decimal.ValueOf(p[1..3]) == c.tmMon + 1
    ensures Decimal.AllDigits(p[4..6]) && Decimal.ValueOf(p[4..6]) == c.tmMday
    ensures Decimal.AllDigits(p[7..11]) && Decimal.ValueOf(p[7..11]) == c.tmYear + 1900
  {
    var d := DatePart(c);
    FieldReadBack(p, d, 0, 1, 3, c.tmMon + 1, 2);
    FieldReadBack(p, d, 0, 4, 6, c.tmMday, 2);
    FieldReadBack(p, d, 0, 7, 11, c.tmYear + 1900, 4);
  }

  lemma TimeFieldsReadBack(c: Clock, p: string)
    requires ClockInRange(c) && |p| >= 20 && p[12..20] == TimePart(c)
    ensures Decimal.AllDigits(p[12..14]) && Decimal.ValueOf(p[12..14]) == c.tmHour
    ensures Decimal.AllDigits(p[15..17]) && Decimal.ValueOf(p[15..17]) == c.tmMin
    ensures Decimal.AllDigits(p[18..20]) && Decimal.ValueOf(p[18..20]) == c.tmSec
  {
    var t := TimePart(c);
    FieldReadBack(p, t, 12, 0, 2, c.tmHour, 2);
    FieldReadBack(p, t, 12, 3, 5, c.tmMin, 2);
    FieldReadBack(p, t, 12, 6, 8, c.tmSec, 2);
  }

  /** A zero-padded field of a part placed at `at` in the line reads back as its number. */
  lemma FieldReadBack(p: string, part: string, at: nat, i: nat, j: nat, n: nat, w: nat)
    requires i <= j <= |part| && at + |part| <= |p| && p[at..at + |part|] == part
    requires part[i..j] == Decimal.ZeroPad(n, w)
    ensures Decimal.AllDigits(p[at + i..at + j]) && Decimal.ValueOf(p[at + i..at + j]) == n
  {
    forall k | 0 <= k < j - i
      ensures p[at + i..at + j][k] == part[i..j][k]
    {
      assert p[at..at + |part|][i + k] == part[i + k];
    }
    assert p[at + i..at + j] == part[i..j];
    Decimal.ValueOfZeroPad(n, w);
  }

  /** The tag an entry type adds after the timestamp. */
  function Tag(entryType: uint8): (t: string)
    ensures entryType == ENTRY_TYPE_INFO ==> t == "INFO: "
    ensures entryType == ENTRY_TYPE_WARNING ==> t == "WARNING: "
    ensures entryType != ENTRY_TYPE_INFO && entryType != ENTRY_TYPE_WARNING ==> t == ""
  {
    if entryType == ENTRY_TYPE_INFO then "INFO: "
    else if entryType == ENTRY_TYPE_WARNING then "WARNING: "
    else ""
  }

  /** `strncat(dst, src, n)`: at most n characters of src appended. */
  function Strncat(dst: string, src: string, n: int): (r: string)
    requires n >= 0
    ensures |r| == |dst| + (if n < |src| then n else |src|)
    ensures r[..|dst|] == dst
    ensures r[|dst|..] == src[..|r| - |dst|]
  {
    dst + (if n < |src| then src[..n] else src)
  }

  /**
   * The `size_t` sums of the source stay below 2^64, `ptrSize + outputLength`
   * included, so no length wraps round.
   */
  predicate LengthFits(entryLength: int, entryType: uint8) {
    ENTRY_TIME_FORMATTED_LENGTH + |Tag(entryType)| + entryLength + 1 + 1 + NimbleMemory.POINTER_SIZE < UINT64_LIMIT
  }

  /**
   * The line as the source assembles it around `time`, the timestamp text
   * (`Timestamp` of the clock), in `size_t` arithmetic. `outputLength`
   * is the `snprintf` size and `ptrSize + outputLength` the buffer; each
   * `strncat` may append `outputLength - currentOutputLength` characters,
   * reduced modulo 2^64. A zero `outputLength` leaves the buffer without a
   * terminator for `strncat` to find, and a line longer than the buffer is
   * written past its end: both are undefined.
   */
  function FormatLine(time: string, entry: string, entryLength: uint64, entryType: uint8): (r: Outcome<string>)
    requires |time| == ENTRY_TIME_FORMATTED_LENGTH
    ensures LengthFits(entryLength, entryType) ==>
      r.Returns? && |r.value| == 30 + |Tag(entryType)| + (if |entry| <= entryLength + 1 then |entry| else entryLength + 1) + 1
    ensures r.Returns? ==> |r.value| < BufferSize(entryLength, |Tag(entryType)|)
    ensures r.Returns? ==> 0 < |r.value| && r.value[|r.value| - 1] == '\n'
  {
    var tag := Tag(entryType);
    var outputLength := OutputLength(entryLength, |tag|);
    FittingBudgets(entryLength, |tag|);
    if outputLength == 0 then Undefined
    else
      var stamp := Snprintf(time, outputLength);
      var current := 1 + ENTRY_TIME_FORMATTED_LENGTH;
      var output := Append(stamp, tag,
                           Sub64(outputLength, current), entry, Sub64(outputLength, current + |tag|),
                           Sub64(outputLength, Add64(current + |tag|, entryLength)));
      if BufferSize(entryLength, |tag|) <= |output| then Undefined else Returns(output)
  }

  /** What `snprintf(output, outputLength, …)` leaves: as much of the text as fits before the NUL. */
  function Snprintf(text: string, outputLength: nat): (written: string)
    requires outputLength > 0
    ensures |written| == Min(|text|, outputLength - 1)
    ensures written == text[..|written|]
  {
    if outputLength > |text| then text else text[..outputLength - 1]
  }

  /**
   * The three `strncat`s after the timestamp, with their budgets: the tag
   * (empty for an untagged type), the entry, and the newline.
   */
  function Append(stamp: string, tag: string, tagBudget: nat, entry: string, entryBudget: nat, newlineBudget: nat): (output: string)
    ensures |output| == |stamp| + Min(|tag|, tagBudget) + Min(|entry|, entryBudget) + Min(1, newlineBudget)
    ensures output[..|stamp|] == stamp
    ensures newlineBudget > 0 ==> output[|output| - 1] == '\n'
  {
    Strncat(Strncat(Strncat(stamp, tag, tagBudget), entry, entryBudget), "\n", newlineBudget)
  }

  function Min(a: int, b: int): int {
    if a < b then a else b
  }

  /** `outputLength`: timestamp, tag, entry, newline and NUL, summed as a `size_t`. */
  function OutputLength(entryLength: uint64, tagLength: nat): (n: uint64)
    requires tagLength <= 9
    ensures Sub64(n, Add64(1 + ENTRY_TIME_FORMATTED_LENGTH + tagLength, entryLength)) == 1
  {
    Add64(ENTRY_TIME_FORMATTED_LENGTH + tagLength + 1 + 1, entryLength)
  }

  /** The bytes `malloc(ptrSize + outputLength)` asks for, as a `size_t`. */
  function BufferSize(entryLength: uint64, tagLength: nat): uint64
    requires tagLength <= 9
  {
    Add64(NimbleMemory.POINTER_SIZE, OutputLength(entryLength, tagLength))
  }

  /** While nothing wraps, the budgets leave room for the whole tag and `entryLength + 1` entry characters. */
  lemma FittingBudgets(entryLength: uint64, tagLength: nat)
    requires tagLength <= 9
    ensures ENTRY_TIME_FORMATTED_LENGTH + tagLength + entryLength + 1 + 1 + NimbleMemory.POINTER_SIZE < UINT64_LIMIT ==>
      && OutputLength(entryLength, tagLength) == ENTRY_TIME_FORMATTED_LENGTH + tagLength + entryLength + 1 + 1
      && BufferSize(entryLength, tagLength) == OutputLength(entryLength, tagLength) + NimbleMemory.POINTER_SIZE
      && Sub64(OutputLength(entryLength, tagLength), 1 + ENTRY_TIME_FORMATTED_LENGTH) == tagLength + entryLength + 1
      && Sub64(OutputLength(entryLength, tagLength), 1 + ENTRY_TIME_FORMATTED_LENGTH + tagLength) == entryLength + 1
  {
  }

  /**
   * Once `outputLength` wraps it is at most `31 + tagLength`, and the budgets
   * left after the timestamp and after the tag borrow round to huge values
   * unless they are exactly 0 or within the tag.
   */
  lemma WrappedBudgets(entryLength: uint64, tagLength: nat)
    requires tagLength <= 9
    ensures ENTRY_TIME_FORMATTED_LENGTH + tagLength + entryLength + 1 + 1 >= UINT64_LIMIT ==>
      var n := OutputLength(entryLength, tagLength);
      && n == ENTRY_TIME_FORMATTED_LENGTH + tagLength + entryLength + 1 + 1 - UINT64_LIMIT
      && BufferSize(entryLength, tagLength) == n + NimbleMemory.POINTER_SIZE
      && (n <= ENTRY_TIME_FORMATTED_LENGTH ==> Sub64(n, 1 + ENTRY_TIME_FORMATTED_LENGTH) >= tagLength)
      && (n > ENTRY_TIME_FORMATTED_LENGTH ==> Sub64(n, 1 + ENTRY_TIME_FORMATTED_LENGTH) == n - 1 - ENTRY_TIME_FORMATTED_LENGTH)
      && (n < 1 + ENTRY_TIME_FORMATTED_LENGTH + tagLength ==> Sub64(n, 1 + ENTRY_TIME_FORMATTED_LENGTH + tagLength) >= NimbleMemory.POINTER_SIZE)
      && (entryLength == UINT64_LIMIT - 1 <==> n == 1 + ENTRY_TIME_FORMATTED_LENGTH + tagLength)
  {
  }

  /** Short of wrapping, a sum within `ptrSize` of 2^64 makes the buffer smaller than `ptrSize`. */
  lemma NearlyWrappedBuffer(entryLength: uint64, tagLength: nat)
    requires tagLength <= 9
    ensures ENTRY_TIME_FORMATTED_LENGTH + tagLength + entryLength + 1 + 1 < UINT64_LIMIT <=
            ENTRY_TIME_FORMATTED_LENGTH + tagLength + entryLength + 1 + 1 + NimbleMemory.POINTER_SIZE ==>
      && OutputLength(entryLength, tagLength) > ENTRY_TIME_FORMATTED_LENGTH
      && BufferSize(entryLength, tagLength) < NimbleMemory.POINTER_SIZE
  {
  }

  /** With budgets that do not cut the tag, the entry cut to `entryLength + 1` characters and a newline follow the timestamp. */
  lemma AppendWithinBudget(t: string, tag: string, entry: string, entryLength: nat)
    ensures Append(t, tag, |tag| + entryLength + 1, entry, entryLength + 1, 1) ==
      t + tag + (if |entry| <= entryLength + 1 then entry else entry[..entryLength + 1]) + "\n"
  {
    assert Strncat(t, tag, |tag| + entryLength + 1) == t + tag;
  }

  /** With no room for the entry, the line is the timestamp, the tag and the newline. */
  lemma AppendNoEntry(t: string, tag: string, entry: string)
    ensures Append(t, tag, |tag|, entry, 0, 1) == t + tag + "\n"
  {
    assert Strncat(t, tag, |tag|) == t + tag;
    assert Strncat(t + tag, entry, 0) == t + tag;
  }

  /**
   * While the lengths fit, the budgets never cut the tag or the newline: the
   * line is the timestamp, the tag, at most `entryLength + 1` characters of the
   * entry, and a newline.
   */
  lemma FormatLineContents(time: string, entry: string, entryLength: uint64, entryType: uint8)
    requires |time| == ENTRY_TIME_FORMATTED_LENGTH
    ensures LengthFits(entryLength, entryType) && |entry| <= entryLength + 1 ==>
      FormatLine(time, entry, entryLength, entryType) == Returns(time + Tag(entryType) + entry + "\n")
    ensures LengthFits(entryLength, entryType) && |entry| > entryLength + 1 ==>
      FormatLine(time, entry, entryLength, entryType) == Returns(time + Tag(entryType) + entry[..entryLength + 1] + "\n")
  {
    var tag := Tag(entryType);
    FittingBudgets(entryLength, |tag|);
    if LengthFits(entryLength, entryType) {
      var t := time;
      var n := OutputLength(entryLength, |tag|);
      assert Snprintf(time, n) == t;
      AppendWithinBudget(t, tag, entry, entryLength);
    }
  }

  /**
   * Past that range `outputLength` wraps round. The largest length leaves it
   * one past the timestamp and tag, so the line has none of the entry.
   */
  lemma FormatLineDropsEntry(time: string, entry: string, entryType: uint8)
    requires |time| == ENTRY_TIME_FORMATTED_LENGTH
    ensures !LengthFits(UINT64_LIMIT - 1, entryType)
    ensures FormatLine(time, entry, UINT64_LIMIT - 1, entryType) == Returns(time + Tag(entryType) + "\n")
  {
    var tag := Tag(entryType);
    WrappedBudgets(UINT64_LIMIT - 1, |tag|);
    var t := time;
    assert Snprintf(time, OutputLength(UINT64_LIMIT - 1, |tag|)) == t;
    AppendNoEntry(t, tag, entry);
  }

  /**
   * Every other length past that range wraps `outputLength` or
   * `ptrSize + outputLength` round, and the line then runs past the buffer
   * once the entry has at least `ptrSize` characters.
   */
  lemma FormatLineOverruns(time: string, entry: string, entryLength: uint64, entryType: uint8)
    requires |time| == ENTRY_TIME_FORMATTED_LENGTH && !LengthFits(entryLength, entryType) && entryLength < UINT64_LIMIT - 1
    requires |entry| >= NimbleMemory.POINTER_SIZE
    ensures FormatLine(time, entry, entryLength, entryType) == Undefined
  {
    var tag := Tag(entryType);
    var n := OutputLength(entryLength, |tag|);
    WrappedBudgets(entryLength, |tag|);
    NearlyWrappedBuffer(entryLength, |tag|);
    if n > 0 {
      var current := 1 + ENTRY_TIME_FORMATTED_LENGTH;
      AppendOverruns(Snprintf(time, n), tag, Sub64(n, current), entry, Sub64(n, current + |tag|),
                     Sub64(n, Add64(current + |tag|, entryLength)), BufferSize(entryLength, |tag|));
    }
  }

  /**
   * The line outgrows a buffer when the newline is appended and either the
   * stamp alone fills the buffer, or the stamp, the appended part of the tag
   * and `ptrSize` characters of the entry do.
   */
  lemma AppendOverruns(stamp: string, tag: string, tagBudget: nat, entry: string, entryBudget: nat, newlineBudget: nat, size: nat)
    requires newlineBudget > 0
    requires || size <= |stamp| + 1
             || (&& |entry| >= NimbleMemory.POINTER_SIZE && entryBudget >= NimbleMemory.POINTER_SIZE
                 && size <= |stamp| + Min(|tag|, tagBudget) + NimbleMemory.POINTER_SIZE + 1)
    ensures size <= |Append(stamp, tag, tagBudget, entry, entryBudget, newlineBudget)|
  {
  }

  /**
   * When `entryLength` is the entry's length and the lengths fit, the line is
   * exactly timestamp, tag, entry and newline, and the entry can be cut back
   * out of it.
   */
  lemma FormatLineExact(time: string, entry: string, entryType: uint8)
    requires |time| == ENTRY_TIME_FORMATTED_LENGTH && LengthFits(|entry|, entryType)
    ensures FormatLine(time, entry, |entry|, entryType).Returns?
    ensures |FormatLine(time, entry, |entry|, entryType).value| == 30 + |Tag(entryType)| + |entry| + 1
    ensures FormatLine(time, entry, |entry|, entryType).value[30 + |Tag(entryType)|..30 + |Tag(entryType)| + |entry|] == entry
    ensures FormatLine(time, entry, |entry|, entryType).value[..30] == time
  {
    FormatLineContents(time, entry, |entry|, entryType);
  }

  /** Where a copy of the line goes. */
  datatype Stream = Stdout | Stderr | LogFile

  datatype LogResult = LogResult(status: uint8, writes: seq<(Stream, string)>)

  /**
   * The writes of one assembled line: a console copy first when asked for,
   * then the log file; the status reports the file's error indicator.
   */
  function Emit(line: string, entryType: uint8, logToConsole: uint8, fileError: bool): (r: LogResult)
    ensures r.status == (if fileError then LOG_ERROR_FWRITE else 0)
    ensures |r.writes| == (if logToConsole != 0 then 2 else 1)
    ensures r.writes[|r.writes| - 1].0 == LogFile
    ensures logToConsole != 0 ==> r.writes[0].0 == (if entryType == ENTRY_TYPE_WARNING then Stderr else Stdout)
    ensures forall k | 0 <= k < |r.writes| :: r.writes[k].1 == line
  {
    var console := if logToConsole != 0 then [(if entryType == ENTRY_TYPE_WARNING then Stderr else Stdout, line)] else [];
    LogResult(if fileError then LOG_ERROR_FWRITE else 0, console + [(LogFile, line)])
  }

  /**
   * `nimbleLoggerLog`. `entry` is None for a NULL pointer; `fileError` is the
   * log file's error indicator after the write. A NULL entry is reported
   * before a zero length, and the call is undefined exactly when assembling
   * the line is.
   */
  function Log(entry: Option<string>, entryLength: uint64, entryType: uint8, logToConsole: uint8,
               c: Clock, fileError: bool): (r: Outcome<LogResult>)
    requires ClockInRange(c)
    ensures entry.None? ==> r == Returns(LogResult(LOG_ERROR_NOENTRY, []))
    ensures entry.Some? && entryLength == 0 ==> r == Returns(LogResult(LOG_ERROR_NOLENGTH, []))
    ensures entry.Some? && entryLength > 0 ==>
      var line := FormatLine(Timestamp(c), entry.value, entryLength, entryType);
      && (r.Returns? <==> line.Returns?)
      && (r.Returns? ==> r.value == Emit(line.value, entryType, logToConsole, fileError))
  {
    if entry.None? then Returns(LogResult(LOG_ERROR_NOENTRY, []))
    else if entryLength == 0 then Returns(LogResult(LOG_ERROR_NOLENGTH, []))
    else
      match FormatLine(Timestamp(c), entry.value, entryLength, entryType)
      case Returns(line) => Returns(Emit(line, entryType, logToConsole, fileError))
      case _ => Undefined
  }

  /** Only a WARNING goes to standard error, and every other type, PRINT included, is untagged unless INFO. */
  lemma LogConsoleStream(entry: string, entryLength: uint64, entryType: uint8, c: Clock)
    requires ClockInRange(c) && entryLength > 0
    ensures LengthFits(entryLength, entryType) ==> Log(Some(entry), entryLength, entryType, 1, c, false).Returns?
    ensures Log(Some(entry), entryLength, entryType, 1, c, false).Returns? ==>
      && (Log(Some(entry), entryLength, entryType, 1, c, false).value.writes[0].0 == Stderr <==> entryType == ENTRY_TYPE_WARNING)
      && Log(Some(entry), entryLength, entryType, 1, c, false).value.status == 0
  {
  }
}

=== FILE: nimble_error.dfy ===
/**
 * The engine's error codes and their messages.
 *
 * An error code is a 32-bit word: bit 31 marks it as an error, bits 24..30
 * hold the category (GENERAL, MATH, BIGNUM) and bits 0..23 the code within
 * the category. The header builds every code as an unparenthesised chain of
 * `|`, so each code is the flat OR of its three fields.
 */
module NimbleError {
  import opened CTypes

  const ERROR_BIT: bv32 := 1 << 31

  /** Category fields, already shifted into bits 24..30. */
  const CATEGORY_GENERAL: bv32 := (0x00 << 24) | ERROR_BIT
  const CATEGORY_MATH: bv32 := (0x01 << 24) | ERROR_BIT
  const CATEGORY_BIGNUM: bv32 := (0x02 << 24) | ERROR_BIT

  /** An error code is a 32-bit pattern. */
  type ErrorCode = bv32

  const GENERAL_NULL: ErrorCode := CATEGORY_GENERAL | 0x000001
  const MATH_OVERFLOW: ErrorCode := CATEGORY_MATH | 0x000001
  const MATH_DIVIDE_BY_ZERO: ErrorCode := CATEGORY_MATH | 0x000002
  const BIGNUM_OVERFLOW: ErrorCode := CATEGORY_BIGNUM | 0x000001

  const KnownCodes: set<ErrorCode> := {GENERAL_NULL, MATH_OVERFLOW, MATH_DIVIDE_BY_ZERO, BIGNUM_OVERFLOW}

  /** True when bit 31, the error marker, is set. */
  predicate HasErrorBit(code: ErrorCode) {
    code & ERROR_BIT != 0
  }

  /** Bits 24..30 of a code. */
  function Category(code: ErrorCode): bv32 {
    (code >> 24) & 0x7f
  }

  /** Bits 0..23 of a code. */
  function SubCode(code: ErrorCode): bv32 {
    code & 0xff_ffff
  }

  /**
   * Builds an error code the way the header's macros do: the category
   * shifted into place, OR the error bit, OR the sub-code.
   */
  function MakeError(category: bv32, sub: bv32): (code: ErrorCode)
    requires category < 0x80 && sub < 0x100_0000
    ensures HasErrorBit(code)
    ensures Category(code) == category && SubCode(code) == sub
  {
    (category << 24) | ERROR_BIT | sub
  }

  /** The value a C caller sees when an error code is returned as `int32_t`. */
  function AsInt32(code: ErrorCode): (v: int32)
    ensures v < 0 <==> HasErrorBit(code)
    ensures v == code as int || v == code as int - UINT32_LIMIT
  {
    if HasErrorBit(code) then code as int - UINT32_LIMIT
    else
      assert code < ERROR_BIT;
      code as int
  }

  const NullMessage: string := "Unexpected null pointer in function."
  const OverflowMessage: string := "Math operation was too large and would overflow."
  const DivideByZeroMessage: string := "Math function divisor input was zero."
  const BignumOverflowMessage: string := "Big number function input was too large and would overflow memory."
  const UnknownMessage: string := "Unknown error code."

  /** The description `nimbleErrorString` returns for a code. */
  function ErrorString(code: ErrorCode): (message: string)
    ensures message == UnknownMessage <==> code !in KnownCodes
    ensures code == GENERAL_NULL ==> message == NullMessage
    ensures code == MATH_OVERFLOW ==> message == OverflowMessage
    ensures code == MATH_DIVIDE_BY_ZERO ==> message == DivideByZeroMessage
    ensures code == BIGNUM_OVERFLOW ==> message == BignumOverflowMessage
  {
    if code == GENERAL_NULL then NullMessage
    else if code == MATH_OVERFLOW then OverflowMessage
    else if code == MATH_DIVIDE_BY_ZERO then DivideByZeroMessage
    else if code == BIGNUM_OVERFLOW then BignumOverflowMessage
    else UnknownMessage
  }

  /** The four codes the header defines, with their fields. */
  lemma CodeLayout()
    ensures GENERAL_NULL == 0x8000_0001 && MATH_OVERFLOW == 0x8100_0001
    ensures MATH_DIVIDE_BY_ZERO == 0x8100_0002 && BIGNUM_OVERFLOW == 0x8200_0001
    ensures forall code | code in KnownCodes :: HasErrorBit(code)
    ensures Category(GENERAL_NULL) == 0 && Category(MATH_OVERFLOW) == 1
    ensures Category(MATH_DIVIDE_BY_ZERO) == 1 && Category(BIGNUM_OVERFLOW) == 2
    ensures |KnownCodes| == 4
  {
  }

  /** Distinct known codes have distinct messages. */
  lemma ErrorStringInjective(a: ErrorCode, b: ErrorCode)
    requires a in KnownCodes && b in KnownCodes && a != b
    ensures ErrorString(a) != ErrorString(b)
  {
  }
}

=== FILE: nimble_math.dfy ===
/**
 * Integer digit counting and the vector initialisers of the math library.
 *
 * Every digit counter is a cascade of `x >= 10^k` thresholds. They are
 * related here to one reference definition, `NumDigits`, the number of
 * decimal digits of a natural number (0 has one digit). The signed counters
 * count the digits of |x| and special-case the type's minimum value, whose
 * absolute value does not fit the type. For 64 and 32 bits that test comes
 * too late: the multiplication computing |x| overflows first, which is
 * undefined behaviour, so the counters as written are `Undefined` there.
 */
module NimbleMath {
  import opened CTypes
  import NimbleError

  /** 10^k. */
  function Pow10(k: nat): (p: nat)
    ensures p >= 1
  {
    if k == 0 then 1 else 10 * Pow10(k - 1)
  }

  /** The powers of ten the cascades compare against. */
  lemma Pow10Values()
    ensures Pow10(0) == 1
    ensures Pow10(1) == 10
    ensures Pow10(2) == 100
    ensures Pow10(3) == 1_000
    ensures Pow10(4) == 10_000
    ensures Pow10(5) == 100_000
    ensures Pow10(6) == 1_000_000
    ensures Pow10(7) == 10_000_000
    ensures Pow10(8) == 100_000_000
    ensures Pow10(9) == 1_000_000_000
    ensures Pow10(10) == 10_000_000_000
    ensures Pow10(11) == 100_000_000_000
    ensures Pow10(12) == 1_000_000_000_000
    ensures Pow10(13) == 10_000_000_000_000
    ensures Pow10(14) == 100_000_000_000_000
    ensures Pow10(15) == 1_000_000_000_000_000
    ensures Pow10(16) == 10_000_000_000_000_000
    ensures Pow10(17) == 100_000_000_000_000_000
    ensures Pow10(18) == 1_000_000_000_000_000_000
    ensures Pow10(19) == 10_000_000_000_000_000_000
    ensures Pow10(20) == 100_000_000_000_000_000_000
  {
  }

  /** The number of decimal digits of n; 0 is written with one digit. */
  function NumDigits(n: nat): (d: nat)
    ensures d >= 1
  {
    if n < 10 then 1 else 1 + NumDigits(n / 10)
  }

  /** A number between 10^(d-1) and 10^d has exactly d digits. */
  lemma {:induction false} NumDigitsIs(n: nat, d: nat)
    requires d >= 1 && n < Pow10(d)
    requires d == 1 || Pow10(d - 1) <= n
    ensures NumDigits(n) == d
  {
    if d > 1 {
      assert n >= 10 by {
        PowMonotone(1, d - 1);
      }
      NumDigitsIs(n / 10, d - 1);
    }
  }

  /** 10^k grows with k. */
  lemma {:induction false} PowMonotone(j: nat, k: nat)
    requires j <= k
    ensures Pow10(j) <= Pow10(k)
  {
    if j < k {
      PowMonotone(j, k - 1);
    }
  }

  /** More digits never belong to a smaller number. */
  lemma {:induction false} NumDigitsMonotone(x: nat, y: nat)
    requires x <= y
    ensures NumDigits(x) <= NumDigits(y)
  {
    if x >= 10 {
      NumDigitsMonotone(x / 10, y / 10);
    }
  }

  /** |x| as the source computes it: `((x >> (w-1)) | 1) * x` is -1 * x for negative x. */
  function CAbs(x: int): (a: nat)
    ensures a == x || a == -x
  {
    (if x < 0 then -1 else 1) * x
  }

  // ---------------------------------------------------------------------
  // 64-bit counters.

  /**
   * `nimbleMathDigits64u` as written. The threshold 10^15 appears twice and
   * 10^14 never, so every value in [10^14, 10^15) is reported with 14 digits.
   */
  function Digits64uAsWritten(x: uint64): (r: nat)
    ensures 1 <= r <= 20 && r != 15
  {
    if x >= 10_000_000_000_000_000_000 then 20
    else if x >= 1_000_000_000_000_000_000 then 19
    else if x >= 100_000_000_000_000_000 then 18
    else if x >= 10_000_000_000_000_000 then 17
    else if x >= 1_000_000_000_000_000 then 16
    // The source repeats the 10^15 test here with result 15; it can never succeed.
    else if x >= 10_000_000_000_000 then 14
    else if x >= 1_000_000_000_000 then 13
    else if x >= 100_000_000_000 then 12
    else if x >= 10_000_000_000 then 11
    else if x >= 1_000_000_000 then 10
    else if x >= 100_000_000 then 9
    else if x >= 10_000_000 then 8
    else if x >= 1_000_000 then 7
    else if x >= 100_000 then 6
    else if x >= 10_000 then 5
    else if x >= 1_000 then 4
    else if x >= 100 then 3
    else if x >= 10 then 2
    else 1
  }

  /** `nimbleMathDigits64u` with the second 10^15 threshold read as 10^14. */
  function Digits64u(x: uint64): (r: nat)
    ensures 1 <= r <= 20
  {
    if x >= 10_000_000_000_000_000_000 then 20
    else if x >= 1_000_000_000_000_000_000 then 19
    else if x >= 100_000_000_000_000_000 then 18
    else if x >= 10_000_000_000_000_000 then 17
    else if x >= 1_000_000_000_000_000 then 16
    else if x >= 100_000_000_000_000 then 15
    else if x >= 10_000_000_000_000 then 14
    else if x >= 1_000_000_000_000 then 13
    else if x >= 100_000_000_000 then 12
    else if x >= 10_000_000_000 then 11
    else if x >= 1_000_000_000 then 10
    else if x >= 100_000_000 then 9
    else if x >= 10_000_000 then 8
    else if x >= 1_000_000 then 7
    else if x >= 100_000 then 6
    else if x >= 10_000 then 5
    else if x >= 1_000 then 4
    else if x >= 100 then 3
    else if x >= 10 then 2
    else 1
  }

  /** The corrected cascade counts decimal digits exactly. */
  lemma Digits64uCorrect(x: uint64)
    ensures Digits64u(x) == NumDigits(x)
  {
    Pow10Values();
    NumDigitsIs(x, Digits64u(x));
  }

  /** The cascade as written is right everywhere outside [10^14, 10^15). */
  lemma Digits64uAsWrittenAgrees(x: uint64)
    requires !(100_000_000_000_000 <= x < 1_000_000_000_000_000)
    ensures Digits64uAsWritten(x) == NumDigits(x)
  {
    Digits64uCorrect(x);
  }

  /** 10^14 has fifteen digits, but the cascade as written reports fourteen. */
  lemma Digits64uAsWrittenCounterexample()
    ensures Digits64uAsWritten(100_000_000_000_000) == 14
    ensures NumDigits(100_000_000_000_000) == 15
  {
    Digits64uCorrect(100_000_000_000_000);
  }

  /**
   * `nimbleMathDigits64` as written. `((x >> 63) | 1) * x` overflows for
   * INT64_MIN before the test that special-cases it, which is undefined
   * behaviour; for every other value the cascade on |x| repeats the
   * duplicated 10^15 threshold.
   */
  function Digits64AsWritten(x: int64): (r: Outcome<nat>)
    ensures r.Undefined? <==> x == INT64_MIN
    ensures r.Returns? ==> 1 <= r.value <= 19 && r.value != 15
  {
    var absx := CAbs(x);
    if absx > INT64_MAX then Undefined
    else Returns(
      if absx >= 1_000_000_000_000_000_000 then 19
      else if absx >= 100_000_000_000_000_000 then 18
      else if absx >= 10_000_000_000_000_000 then 17
      else if absx >= 1_000_000_000_000_000 then 16
      // The source repeats the 10^15 test here with result 15; it can never succeed.
      else if absx >= 10_000_000_000_000 then 14
      else if absx >= 1_000_000_000_000 then 13
      else if absx >= 100_000_000_000 then 12
      else if absx >= 10_000_000_000 then 11
      else if absx >= 1_000_000_000 then 10
      else if absx >= 100_000_000 then 9
      else if absx >= 10_000_000 then 8
      else if absx >= 1_000_000 then 7
      else if absx >= 100_000 then 6
      else if absx >= 10_000 then 5
      else if absx >= 1_000 then 4
      else if absx >= 100 then 3
      else if absx >= 10 then 2
      else 1)
  }

  /**
   * `nimbleMathDigits64` as intended: the second 10^15 threshold read as
   * 10^14, and INT64_MIN answered before |x| is computed.
   */
  function Digits64(x: int64): (r: nat)
    ensures 1 <= r <= 19
  {
    var absx := CAbs(x);
    if x == INT64_MIN || absx >= 1_000_000_000_000_000_000 then 19
    else if absx >= 100_000_000_000_000_000 then 18
    else if absx >= 10_000_000_000_000_000 then 17
    else if absx >= 1_000_000_000_000_000 then 16
    else if absx >= 100_000_000_000_000 then 15
    else if absx >= 10_000_000_000_000 then 14
    else if absx >= 1_000_000_000_000 then 13
    else if absx >= 100_000_000_000 then 12
    else if absx >= 10_000_000_000 then 11
    else if absx >= 1_000_000_000 then 10
    else if absx >= 100_000_000 then 9
    else if absx >= 10_000_000 then 8
    else if absx >= 1_000_000 then 7
    else if absx >= 100_000 then 6
    else if absx >= 10_000 then 5
    else if absx >= 1_000 then 4
    else if absx >= 100 then 3
    else if absx >= 10 then 2
    else 1
  }

  /** The corrected signed counter counts the digits of |x|, the sign not included. */
  lemma Digits64Correct(x: int64)
    ensures Digits64(x) == NumDigits(CAbs(x))
  {
    Pow10Values();
    if x == INT64_MIN {
      NumDigitsIs(CAbs(x), 19);
    } else {
      NumDigitsIs(CAbs(x), Digits64(x));
    }
  }

  /**
   * Outside |x| in [10^14, 10^15) the signed cascade as written is right,
   * except at INT64_MIN, where it is undefined.
   */
  lemma Digits64AsWrittenAgrees(x: int64)
    requires !(100_000_000_000_000 <= CAbs(x) < 1_000_000_000_000_000)
    ensures x != INT64_MIN ==> Digits64AsWritten(x) == Returns(NumDigits(CAbs(x)))
    ensures x == INT64_MIN ==> Digits64AsWritten(x).Undefined?
  {
    Digits64Correct(x);
  }

  /** -10^14 has fifteen digits without its sign, but the signed cascade as written reports fourteen. */
  lemma Digits64AsWrittenCounterexample()
    ensures Digits64AsWritten(-100_000_000_000_000) == Returns(14)
    ensures NumDigits(CAbs(-100_000_000_000_000)) == 15
  {
    Digits64Correct(-100_000_000_000_000);
  }

  // ---------------------------------------------------------------------
  // 32-, 16- and 8-bit counters (their cascades are correct as written).

  /** `nimbleMathDigits32u`. */
  function Digits32u(x: uint32): (r: nat)
    ensures 1 <= r <= 10
  {
    if x >= 1_000_000_000 then 10
    else if x >= 100_000_000 then 9
    else if x >= 10_000_000 then 8
    else if x >= 1_000_000 then 7
    else if x >= 100_000 then 6
    else if x >= 10_000 then 5
    else if x >= 1_000 then 4
    else if x >= 100 then 3
    else if x >= 10 then 2
    else 1
  }

  lemma Digits32uCorrect(x: uint32)
    ensures Digits32u(x) == NumDigits(x)
  {
    Pow10Values();
    NumDigitsIs(x, Digits32u(x));
  }

  /**
   * `nimbleMathDigits32` as written: `((x >> 31) | 1) * x` overflows for
   * INT32_MIN, undefined behaviour, before the test that would give 10;
   * every other value gets the digits of |x|.
   */
  function Digits32AsWritten(x: int32): (r: Outcome<nat>)
    ensures r.Undefined? <==> x == INT32_MIN
    ensures x != INT32_MIN ==> r == Returns(NumDigits(CAbs(x)))
  {
    if CAbs(x) > INT32_MAX then Undefined
    else
      Digits32uCorrect(CAbs(x));
      Returns(Digits32u(CAbs(x)))
  }

  /** `nimbleMathDigits32` as intended: INT32_MIN answered with ten digits before |x| is computed. */
  function Digits32(x: int32): (r: nat)
    ensures 1 <= r <= 10
  {
    if x == INT32_MIN then 10 else Digits32u(CAbs(x))
  }

  lemma Digits32Correct(x: int32)
    ensures Digits32(x) == NumDigits(CAbs(x))
  {
    Pow10Values();
    if x == INT32_MIN {
      NumDigitsIs(CAbs(x), 10);
    } else {
      Digits32uCorrect(CAbs(x));
    }
  }

  /** `nimbleMathDigits16u`. */
  function Digits16u(x: uint16): (r: nat)
    ensures 1 <= r <= 5
  {
    if x >= 10_000 then 5
    else if x >= 1_000 then 4
    else if x >= 100 then 3
    else if x >= 10 then 2
    else 1
  }

  lemma Digits16uCorrect(x: uint16)
    ensures Digits16u(x) == NumDigits(x)
  {
    Pow10Values();
    NumDigitsIs(x, Digits16u(x));
  }

  /** `nimbleMathDigits16`: INT16_MIN has five digits, otherwise the digits of |x|. */
  function Digits16(x: int16): (r: nat)
    ensures 1 <= r <= 5
  {
    if x == INT16_MIN then 5 else Digits16u(CAbs(x))
  }

  lemma Digits16Correct(x: int16)
    ensures Digits16(x) == NumDigits(CAbs(x))
  {
    Pow10Values();
    if x == INT16_MIN {
      NumDigitsIs(CAbs(x), 5);
    } else {
      Digits16uCorrect(CAbs(x));
    }
  }

  /** `nimbleMathDigits8u` (NimbleMath.h, repeated verbatim in GameMath.h). */
  function Digits8u(x: uint8): (r: nat)
    ensures 1 <= r <= 3
  {
    if x >= 100 then 3 else if x >= 10 then 2 else 1
  }

  lemma Digits8uCorrect(x: uint8)
    ensures Digits8u(x) == NumDigits(x)
  {
    Pow10Values();
    NumDigitsIs(x, Digits8u(x));
  }

  /**
   * `nimbleMathDigits8` (NimbleMath.h, repeated verbatim in GameMath.h):
   * -128 has three digits, otherwise the digits of |x|.
   */
  function Digits8(x: int8): (r: nat)
    ensures 1 <= r <= 3
  {
    if x == -128 then 3 else Digits8u(CAbs(x))
  }

  lemma Digits8Correct(x: int8)
    ensures Digits8(x) == NumDigits(CAbs(x))
  {
    Pow10Values();
    if x == -128 {
      NumDigitsIs(128, 3);
    } else {
      Digits8uCorrect(CAbs(x));
    }
  }

  /** The unsigned counters are monotone. */
  lemma Digits32uMonotone(x: uint32, y: uint32)
    requires x <= y
    ensures Digits32u(x) <= Digits32u(y)
  {
    Digits32uCorrect(x);
    Digits32uCorrect(y);
    NumDigitsMonotone(x, y);
  }

  lemma Digits64uMonotone(x: uint64, y: uint64)
    requires x <= y
    ensures Digits64u(x) <= Digits64u(y)
  {
    Digits64uCorrect(x);
    Digits64uCorrect(y);
    NumDigitsMonotone(x, y);
  }

  /** The signed counters ignore the sign and pin the minimum values. */
  lemma SignedDigitsSymmetric(x64: int64, x32: int32, x16: int16, x8: int8)
    requires x64 > INT64_MIN && x32 > INT32_MIN && x16 > INT16_MIN && x8 > -128
    ensures Digits64AsWritten(x64) == Digits64AsWritten(-x64)
    ensures Digits32(x32) == Digits32(-x32)
    ensures Digits16(x16) == Digits16(-x16)
    ensures Digits8(x8) == Digits8(-x8)
  {
  }

  /**
   * At the minimum values the 64- and 32-bit counters as written overflow and
   * are undefined, and the intended ones give 19 and 10. The 16- and 8-bit
   * ones compute |x| in `int`, so their special cases are reached.
   */
  lemma SignedDigitsMinimum()
    ensures Digits64AsWritten(INT64_MIN).Undefined? && Digits64(INT64_MIN) == 19
    ensures Digits32AsWritten(INT32_MIN).Undefined? && Digits32(INT32_MIN) == 10
    ensures Digits16(INT16_MIN) == 5
    ensures Digits8(-128) == 3
  {
  }

  // ---------------------------------------------------------------------
  // Null-checked vector initialisers of NimbleMath.h.

  /**
   * The observable effect of an initialiser: the destination array (absent
   * when the pointer is NULL) and the error cell (absent when the error
   * pointer is NULL).
   */
  datatype VecWrite = VecWrite(destination: Option<seq<Float>>, error: Option<NimbleError.ErrorCode>)

  /** The NULL branch shared by all four initialisers: flag GENERAL_NULL if there is somewhere to flag it. */
  function FlagNull(destination: Option<seq<Float>>, error: Option<NimbleError.ErrorCode>): (w: VecWrite)
    ensures w.destination == destination
    ensures w.error.Some? <==> error.Some?
    ensures error.Some? ==> w.error.value == NimbleError.GENERAL_NULL
  {
    VecWrite(destination, if error.Some? then Some(NimbleError.GENERAL_NULL) else None)
  }

  /** `nimbleMathVec3Init`: a non-NULL destination gets the three values; nothing else is touched. */
  function Vec3Init(destination: Option<seq<Float>>, v0: Float, v1: Float, v2: Float,
                    error: Option<NimbleError.ErrorCode>): (w: VecWrite)
    requires destination.Some? ==> |destination.value| >= 3
    ensures destination.Some? ==> w.error == error && w.destination.Some?
    ensures destination.Some? ==> |w.destination.value| == |destination.value|
    ensures destination.Some? ==> w.destination.value[..3] == [v0, v1, v2]
    ensures destination.Some? ==> w.destination.value[3..] == destination.value[3..]
    ensures destination.None? ==> w == FlagNull(destination, error)
  {
    if destination.Some? then
      VecWrite(Some(destination.value[0 := v0][1 := v1][2 := v2]), error)
    else
      FlagNull(destination, error)
  }

  /** `nimbleMathVec3InitFrom`: copies from[0..2] when both pointers are non-NULL. */
  function Vec3InitFrom(destination: Option<seq<Float>>, from: Option<seq<Float>>,
                        error: Option<NimbleError.ErrorCode>): (w: VecWrite)
    requires destination.Some? ==> |destination.value| >= 3
    requires from.Some? ==> |from.value| >= 3
    ensures destination.Some? && from.Some? ==> w.error == error && w.destination.Some?
    ensures destination.Some? && from.Some? ==> |w.destination.value| == |destination.value|
    ensures destination.Some? && from.Some? ==> w.destination.value[..3] == from.value[..3]
    ensures destination.Some? && from.Some? ==> w.destination.value[3..] == destination.value[3..]
    ensures destination.None? || from.None? ==> w == FlagNull(destination, error)
  {
    if destination.Some? && from.Some? then
      VecWrite(Some(destination.value[0 := from.value[0]][1 := from.value[1]][2 := from.value[2]]), error)
    else
      FlagNull(destination, error)
  }

  /** `nimbleMathVec4Init`: a non-NULL destination gets the four values. */
  function Vec4Init(destination: Option<seq<Float>>, v0: Float, v1: Float, v2: Float, v3: Float,
                    error: Option<NimbleError.ErrorCode>): (w: VecWrite)
    requires destination.Some? ==> |destination.value| >= 4
    ensures destination.Some? ==> w.error == error && w.destination.Some?
    ensures destination.Some? ==> |w.destination.value| == |destination.value|
    ensures destination.Some? ==> w.destination.value[..4] == [v0, v1, v2, v3]
    ensures destination.Some? ==> w.destination.value[4..] == destination.value[4..]
    ensures destination.None? ==> w == FlagNull(destination, error)
  {
    if destination.Some? then
      VecWrite(Some(destination.value[0 := v0][1 := v1][2 := v2][3 := v3]), error)
    else
      FlagNull(destination, error)
  }

  /**
   * `nimbleMathVec4InitFrom`. Index 1 is filled from `from[2]`, not from
   * `from[1]`, so `from[1]` is never read and `from[2]` appears twice.
   */
  function Vec4InitFrom(destination: Option<seq<Float>>, from: Option<seq<Float>>,
                        error: Option<NimbleError.ErrorCode>): (w: VecWrite)
    requires destination.Some? ==> |destination.value| >= 4
    requires from.Some? ==> |from.value| >= 4
    ensures destination.Some? && from.Some? ==> w.error == error && w.destination.Some?
    ensures destination.Some? && from.Some? ==> |w.destination.value| == |destination.value|
    ensures destination.Some? && from.Some? ==>
      w.destination.value[..4] == [from.value[0], from.value[2], from.value[2], from.value[3]]
    ensures destination.Some? && from.Some? ==> w.destination.value[4..] == destination.value[4..]
    ensures destination.None? || from.None? ==> w == FlagNull(destination, error)
  {
    if destination.Some? && from.Some? then
      VecWrite(Some(destination.value[0 := from.value[0]][1 := from.value[2]][2 := from.value[2]][3 := from.value[3]]), error)
    else
      FlagNull(destination, error)
  }

  /** `nimbleMathVec4InitFrom` as its comment describes it: the four components of `from` copied. */
  function Vec4InitFromIntended(destination: Option<seq<Float>>, from: Option<seq<Float>>,
                                error: Option<NimbleError.ErrorCode>): (w: VecWrite)
    requires destination.Some? ==> |destination.value| >= 4
    requires from.Some? ==> |from.value| >= 4
    ensures destination.Some? && from.Some? ==> w.error == error && w.destination.Some?
    ensures destination.Some? && from.Some? ==> |w.destination.value| == |destination.value|
    ensures destination.Some? && from.Some? ==> w.destination.value[..4] == from.value[..4]
    ensures destination.Some? && from.Some? ==> w.destination.value[4..] == destination.value[4..]
    ensures destination.None? || from.None? ==> w == FlagNull(destination, error)
  {
    if destination.Some? && from.Some? then
      VecWrite(Some(destination.value[0 := from.value[0]][1 := from.value[1]][2 := from.value[2]][3 := from.value[3]]), error)
    else
      FlagNull(destination, error)
  }

  /** The copy as written is the intended one exactly when the two middle components are equal. */
  lemma Vec4InitFromIntendedAgrees(destination: Option<seq<Float>>, from: Option<seq<Float>>,
                                   error: Option<NimbleError.ErrorCode>)
    requires destination.Some? ==> |destination.value| >= 4
    requires from.Some? ==> |from.value| >= 4
    ensures destination.Some? && from.Some? ==>
              (Vec4InitFrom(destination, from, error) == Vec4InitFromIntended(destination, from, error)
               <==> from.value[1] == from.value[2])
    ensures destination.None? || from.None? ==>
              Vec4InitFrom(destination, from, error) == Vec4InitFromIntended(destination, from, error)
  {
    if destination.Some? && from.Some? {
      var written := Vec4InitFrom(destination, from, error).destination.value;
      var intended := Vec4InitFromIntended(destination, from, error).destination.value;
      if from.value[1] == from.value[2] {
        assert written == intended;
      } else {
        assert written[1] != intended[1];
      }
    }
  }

  /** Consequently the copy loses `from[1]` whenever it differs from `from[2]`. */
  lemma Vec4InitFromDropsIndexOne(destination: seq<Float>, from: seq<Float>, error: Option<NimbleError.ErrorCode>)
    requires |destination| >= 4 && |from| >= 4 && from[1] != from[2]
    ensures Vec4InitFrom(Some(destination), Some(from), error).destination.value[..4] != from[..4]
  {
    assert Vec4InitFrom(Some(destination), Some(from), error).destination.value[1] == from[2];
  }
}

/**
 * The older, unchecked vector initialisers of GameMath.h: no NULL test, no
 * error cell. Their digit counters are the same as NimbleMath's.
 */
module GameMath {
  import opened CTypes
  import NimbleMath
  import NimbleError

  /** `nimbleMathVec3Init`: writes exactly indices 0..2. */
  function Vec3Init(destination: seq<Float>, v0: Float, v1: Float, v2: Float): (d: seq<Float>)
    requires |destination| >= 3
    ensures |d| == |destination| && d[..3] == [v0, v1, v2] && d[3..] == destination[3..]
  {
    destination[0 := v0][1 := v1][2 := v2]
  }

  /** `nimbleMathVec3InitFrom`: copies from[0..2] unconditionally. */
  function Vec3InitFrom(destination: seq<Float>, from: seq<Float>): (d: seq<Float>)
    requires |destination| >= 3 && |from| >= 3
    ensures |d| == |destination| && d[..3] == from[..3] && d[3..] == destination[3..]
  {
    destination[0 := from[0]][1 := from[1]][2 := from[2]]
  }

  /** `nimbleMathVec4Init`: writes exactly indices 0..3. */
  function Vec4Init(destination: seq<Float>, v0: Float, v1: Float, v2: Float, v3: Float): (d: seq<Float>)
    requires |destination| >= 4
    ensures |d| == |destination| && d[..4] == [v0, v1, v2, v3] && d[4..] == destination[4..]
  {
    destination[0 := v0][1 := v1][2 := v2][3 := v3]
  }

  /** `nimbleMathVec4InitFrom`: the same `from[2]` duplication into index 1 as the checked version. */
  function Vec4InitFrom(destination: seq<Float>, from: seq<Float>): (d: seq<Float>)
    requires |destination| >= 4 && |from| >= 4
    ensures |d| == |destination| && d[4..] == destination[4..]
    ensures d[..4] == [from[0], from[2], from[2], from[3]]
  {
    destination[0 := from[0]][1 := from[2]][2 := from[2]][3 := from[3]]
  }

  /** On non-NULL pointers the unchecked initialisers write what the checked ones of NimbleMath.h write. */
  lemma UncheckedMatchesChecked(destination: seq<Float>, from: seq<Float>, v0: Float, v1: Float, v2: Float, v3: Float,
                                error: Option<NimbleError.ErrorCode>)
    requires |destination| >= 4 && |from| >= 4
    ensures NimbleMath.Vec3Init(Some(destination), v0, v1, v2, error)
         == NimbleMath.VecWrite(Some(Vec3Init(destination, v0, v1, v2)), error)
    ensures NimbleMath.Vec3InitFrom(Some(destination), Some(from), error)
         == NimbleMath.VecWrite(Some(Vec3InitFrom(destination, from)), error)
    ensures NimbleMath.Vec4Init(Some(destination), v0, v1, v2, v3, error)
         == NimbleMath.VecWrite(Some(Vec4Init(destination, v0, v1, v2, v3)), error)
    ensures NimbleMath.Vec4InitFrom(Some(destination), Some(from), error)
         == NimbleMath.VecWrite(Some(Vec4InitFrom(destination, from)), error)
  {
  }
}

=== FILE: nimble_memory.dfy ===
/**
 * The engine's allocation accounting. `nimbleMemoryUsed` is an unsigned
 * 64-bit counter: allocation adds the requested size, reallocation adds
 * `newSize - oldSize` (unsigned, so a shrink wraps round), and freeing
 * subtracts the size. Every block is requested `sizeof(void *)` bytes larger
 * than asked. Whether the C allocator succeeds is not modelled: the counter
 * moves either way.
 */
module NimbleMemory {
  import opened CTypes

  /** `sizeof(void *)` on the 64-bit targets the engine builds for. */
  const POINTER_SIZE: int := 8

  /** The allocator call a wrapper makes, with the byte count it asks for. */
  datatype AllocatorCall = Malloc(bytes: uint64) | Realloc(bytes: uint64) | FreeBlock

  datatype Step = Step(used: uint64, call: AllocatorCall)

  /** `nimbleMemoryAllocate`: size added to the counter, size + 8 bytes requested. */
  function Allocate(used: uint64, size: uint64): (s: Step)
    ensures (s.used - used - size) % UINT64_LIMIT == 0
    ensures s.call.Malloc? && (s.call.bytes - size - POINTER_SIZE) % UINT64_LIMIT == 0
  {
    Step(Wrap64(used + size), Malloc(Wrap64(POINTER_SIZE + size)))
  }

  /**
   * `nimbleMemoryReallocate`: the counter moves by `newSize - oldSize`
   * modulo 2^64; a NULL pointer is served by `malloc`, any other by `realloc`.
   */
  function Reallocate(used: uint64, pointerIsNull: bool, oldSize: uint64, newSize: uint64): (s: Step)
    ensures (s.used - used - newSize + oldSize) % UINT64_LIMIT == 0
    ensures s.call.Malloc? <==> pointerIsNull
    ensures s.call.Realloc? <==> !pointerIsNull
    ensures !s.call.FreeBlock? && (s.call.bytes - newSize - POINTER_SIZE) % UINT64_LIMIT == 0
  {
    var counted := Wrap64(used + Wrap64(newSize - oldSize));
    var bytes := Wrap64(POINTER_SIZE + newSize);
    Step(counted, if pointerIsNull then Malloc(bytes) else Realloc(bytes))
  }

  /** `nimbleMemoryFree`: size subtracted modulo 2^64. */
  function Free(used: uint64, size: uint64): (s: Step)
    ensures (s.used - used + size) % UINT64_LIMIT == 0
    ensures s.call == FreeBlock
  {
    Step(Wrap64(used - size), FreeBlock)
  }

  /** Freeing what was allocated restores the counter, whatever wrapped in between. */
  lemma FreeUndoesAllocate(used: uint64, size: uint64)
    ensures Free(Allocate(used, size).used, size).used == used
  {
  }

  /** Resizing a block and resizing it back restores the counter. */
  lemma ReallocateRoundTrip(used: uint64, pointerIsNull: bool, oldSize: uint64, newSize: uint64)
    ensures Reallocate(Reallocate(used, pointerIsNull, oldSize, newSize).used, false, newSize, oldSize).used == used
  {
    var first := Reallocate(used, pointerIsNull, oldSize, newSize).used;
    var second := Reallocate(first, false, newSize, oldSize).used;
    SumOfMultiples(first - used - newSize + oldSize, second - first - oldSize + newSize);
    SameResidue(second, used);
  }

  /** A reallocation accounts exactly like a free of the old size followed by an allocation of the new. */
  lemma ReallocateIsFreeThenAllocate(used: uint64, pointerIsNull: bool, oldSize: uint64, newSize: uint64)
    ensures Reallocate(used, pointerIsNull, oldSize, newSize).used
         == Allocate(Free(used, oldSize).used, newSize).used
  {
    var resized := Reallocate(used, pointerIsNull, oldSize, newSize).used;
    var freed := Free(used, oldSize).used;
    var afterAlloc := Allocate(freed, newSize).used;
    FreeThenAllocateResidue(used, oldSize, newSize, resized, freed, afterAlloc);
    SameResidue(resized, afterAlloc);
  }

  /** The residue arithmetic behind the previous lemma: both routes move the counter by newSize - oldSize. */
  lemma FreeThenAllocateResidue(used: int, oldSize: int, newSize: int, resized: int, freed: int, afterAlloc: int)
    requires (resized - used - newSize + oldSize) % UINT64_LIMIT == 0
    requires (freed - used + oldSize) % UINT64_LIMIT == 0
    requires (afterAlloc - freed - newSize) % UINT64_LIMIT == 0
    ensures (resized - afterAlloc) % UINT64_LIMIT == 0
  {
    var x := freed - used + oldSize;
    var y := afterAlloc - freed - newSize;
    var z := resized - used - newSize + oldSize;
    SumOfMultiples(x, y);
    SumOfMultiples(z, x + y);
    assert z - (x + y) == resized - afterAlloc;
  }

  /** Allocating a block and then resizing it counts as allocating the final size. */
  lemma AllocateThenReallocate(used: uint64, oldSize: uint64, newSize: uint64)
    ensures Reallocate(Allocate(used, oldSize).used, false, oldSize, newSize).used == Wrap64(used + newSize)
  {
    var after := Allocate(used, oldSize).used;
    assert after == Wrap64(used + oldSize);
    var grown := newSize - oldSize;
    Wrap64Add(after, grown);
    Wrap64Add(grown, used + oldSize);
    assert after + grown == grown + Wrap64(used + oldSize);
    assert grown + (used + oldSize) == used + newSize;
  }

  /** One accounting operation of a program run. */
  datatype MemOp = Alloc(size: uint64) | Resize(oldSize: uint64, newSize: uint64) | Release(size: uint64)

  /** The counter after running the operations from left to right. */
  function Apply(used: uint64, ops: seq<MemOp>): uint64
    decreases |ops|
  {
    if |ops| == 0 then used
    else
      var next := match ops[0]
        case Alloc(size) => Allocate(used, size).used
        case Resize(oldSize, newSize) => Reallocate(used, false, oldSize, newSize).used
        case Release(size) => Free(used, size).used;
      Apply(next, ops[1..])
  }

  /** The bytes the operations acquire, net of those they give back. */
  function Net(ops: seq<MemOp>): int
  {
    if |ops| == 0 then 0
    else
      var delta: int := match ops[0]
        case Alloc(size) => size
        case Resize(oldSize, newSize) => newSize - oldSize
        case Release(size) => -(size as int);
      delta + Net(ops[1..])
  }

  /** The counter is always the starting value plus the net bytes, reduced modulo 2^64. */
  lemma {:induction false} ApplyIsNet(used: uint64, ops: seq<MemOp>)
    ensures Apply(used, ops) == Wrap64(used + Net(ops))
    decreases |ops|
  {
    if |ops| > 0 {
      var next := match ops[0]
        case Alloc(size) => Allocate(used, size).used
        case Resize(oldSize, newSize) => Reallocate(used, false, oldSize, newSize).used
        case Release(size) => Free(used, size).used;
      ApplyIsNet(next, ops[1..]);
      ModuloShift(used, next, ops);
    }
  }

  lemma ModuloShift(used: uint64, next: uint64, ops: seq<MemOp>)
    requires |ops| > 0
    requires next == match ops[0]
        case Alloc(size) => Allocate(used, size).used
        case Resize(oldSize, newSize) => Reallocate(used, false, oldSize, newSize).used
        case Release(size) => Free(used, size).used
    ensures Wrap64(next + Net(ops[1..])) == Wrap64(used + Net(ops))
  {
    var delta := Net(ops) - Net(ops[1..]);
    assert (next - used - delta) % UINT64_LIMIT == 0;
    SameResidue(next + Net(ops[1..]), used + Net(ops));
  }

  lemma SameResidue(a: int, b: int)
    requires (a - b) % UINT64_LIMIT == 0
    ensures a % UINT64_LIMIT == b % UINT64_LIMIT
  {
    var k := (a - b) / UINT64_LIMIT;
    assert a == b + k * UINT64_LIMIT;
  }

  lemma SumOfMultiples(a: int, b: int)
    requires a % UINT64_LIMIT == 0 && b % UINT64_LIMIT == 0
    ensures (a + b) % UINT64_LIMIT == 0 && (a - b) % UINT64_LIMIT == 0
  {
    var i := a / UINT64_LIMIT;
    var j := b / UINT64_LIMIT;
    assert a + b == (i + j) * UINT64_LIMIT;
    assert a - b == (i - j) * UINT64_LIMIT;
  }

  /** A run that frees everything it acquires leaves the counter where it started. */
  lemma BalancedRunRestoresCounter(used: uint64, ops: seq<MemOp>)
    requires Net(ops) == 0
    ensures Apply(used, ops) == used
  {
    ApplyIsNet(used, ops);
  }
}

=== FILE: nimble_time.dfy ===
/**
 * Time arithmetic on `struct timeval` values: a count of seconds and a
 * count of microseconds, neither normalised. The wall clock the source reads
 * with `gettimeofday` is a parameter (`now`) here.
 */
module NimbleTime {
  import opened CTypes

  const MICROS_PER_SEC: int := 1_000_000
  const MICROS_PER_MILLI: int := 1_000
  const MILLIS_PER_SEC: int := 1_000

  datatype TimeVal = TimeVal(sec: int, usec: int)

  /** The instant a time value denotes, in microseconds. */
  function Micros(t: TimeVal): int {
    t.sec * MICROS_PER_SEC + t.usec
  }

  /** `nimbleTimeAdd`: the two instants added, in microseconds. */
  function TimeAdd(t1: TimeVal, t2: TimeVal): (r: int)
    ensures r == Micros(t1) + Micros(t2)
  {
    (t1.sec + t2.sec) * MICROS_PER_SEC + (t1.usec + t2.usec)
  }

  /** `nimbleTimeSub`: the distance from t2 to t1, in microseconds. */
  function TimeSub(t1: TimeVal, t2: TimeVal): (r: int)
    ensures r == Micros(t1) - Micros(t2)
  {
    (t1.sec - t2.sec) * MICROS_PER_SEC + (t1.usec - t2.usec)
  }

  /**
   * `nimbleTimeSub` where `clock_t` is `unsigned long`, as on Darwin: the
   * signed distance is converted to 64 bits without sign, so a t1 that lies
   * d microseconds before t2 gives 2^64 - d rather than -d.
   */
  function TimeSubUnsigned(t1: TimeVal, t2: TimeVal): (r: uint64)
    ensures 0 <= Micros(t1) - Micros(t2) < UINT64_LIMIT ==> r == Micros(t1) - Micros(t2)
    ensures -UINT64_LIMIT <= Micros(t1) - Micros(t2) < 0 ==> r == UINT64_LIMIT + (Micros(t1) - Micros(t2))
  {
    var d := TimeSub(t1, t2);
    if -UINT64_LIMIT <= d < 2 * UINT64_LIMIT then
      Wrap64Near(d);
      Wrap64(d)
    else Wrap64(d)
  }

  /**
   * Without a sign the two directions of a distance no longer negate each
   * other: of two distinct instants less than 2^64 microseconds apart, the
   * two differences add up to 2^64, so the backward one is huge.
   */
  lemma TimeSubUnsignedDirections(t1: TimeVal, t2: TimeVal)
    requires Micros(t1) != Micros(t2) && -UINT64_LIMIT < Micros(t1) - Micros(t2) < UINT64_LIMIT
    ensures TimeSubUnsigned(t1, t2) + TimeSubUnsigned(t2, t1) == UINT64_LIMIT
    ensures Micros(t1) < Micros(t2) && Micros(t2) - Micros(t1) <= UINT64_LIMIT / 2 ==> TimeSubUnsigned(t1, t2) >= UINT64_LIMIT / 2
    ensures TimeSub(t1, t2) > 0 ==> TimeSubUnsigned(t1, t2) == TimeSub(t1, t2)
  {
  }

  /** Adding back what `TimeSub` took away returns to t1; swapping the operands negates it. */
  lemma TimeSubInvertsAdd(t1: TimeVal, t2: TimeVal)
    ensures TimeSub(t1, t2) + Micros(t2) == Micros(t1)
    ensures TimeSub(t1, t2) == -TimeSub(t2, t1)
    ensures TimeAdd(t1, t2) == TimeAdd(t2, t1)
    ensures TimeSub(t1, t1) == 0
    ensures MICROS_PER_SEC == MICROS_PER_MILLI * MILLIS_PER_SEC
  {
  }

  /** `nimbleTimeHasPast`: 1 when the clock reading is strictly later than t. */
  function HasPast(now: TimeVal, t: TimeVal): (r: uint8)
    ensures r == 0 || r == 1
    ensures r == 1 <==> TimeSub(now, t) > 0
  {
    if now.sec * MICROS_PER_SEC + now.usec > t.sec * MICROS_PER_SEC + t.usec then 1 else 0
  }

  /** The current instant has not passed itself; of two distinct instants, exactly one has passed the other. */
  lemma HasPastStrictOrder(a: TimeVal, b: TimeVal)
    ensures HasPast(a, a) == 0
    ensures Micros(a) != Micros(b) ==> HasPast(a, b) + HasPast(b, a) == 1
    ensures Micros(a) == Micros(b) ==> HasPast(a, b) == 0 && HasPast(b, a) == 0
  {
  }

  /**
   * `nimbleTimeSetTimerMillis` as written: the seconds get `ms / 1000` and
   * the microseconds get `ms % 1000`, a count of milliseconds added as if it
   * were microseconds (C division, truncating toward zero).
   */
  function SetTimerMillisAsWritten(now: TimeVal, milliseconds: int): (r: TimeVal)
    ensures r.sec == now.sec + CDiv(milliseconds, MILLIS_PER_SEC)
    ensures TimeSub(r, now) == CDiv(milliseconds, MILLIS_PER_SEC) * MICROS_PER_SEC + CMod(milliseconds, MILLIS_PER_SEC)
  {
    TimeVal(now.sec + CDiv(milliseconds, MILLIS_PER_SEC), now.usec + CMod(milliseconds, MILLIS_PER_SEC))
  }

  /** A 1.5 second timer set as written expires after 1.0005 seconds. */
  lemma SetTimerMillisAsWrittenCounterexample(now: TimeVal)
    ensures TimeSub(SetTimerMillisAsWritten(now, 1500), now) == 1_000_500
    ensures TimeSub(SetTimerMillis(now, 1500), now) == 1_500_000
  {
  }

  /** The timer as written has not passed at the instant it is set either; it is exact only for whole seconds. */
  lemma SetTimerMillisAsWrittenExactIff(now: TimeVal, milliseconds: int)
    ensures milliseconds >= 0 ==> HasPast(now, SetTimerMillisAsWritten(now, milliseconds)) == 0
    ensures TimeSub(SetTimerMillisAsWritten(now, milliseconds), now) == milliseconds * MICROS_PER_MILLI
        <==> CMod(milliseconds, MILLIS_PER_SEC) == 0
  {
  }

  /** The timer with the remainder scaled to microseconds: `ms % 1000 * 1000`. */
  function SetTimerMillis(now: TimeVal, milliseconds: int): (r: TimeVal)
    ensures r.sec == now.sec + CDiv(milliseconds, MILLIS_PER_SEC)
    ensures -MICROS_PER_SEC < r.usec - now.usec < MICROS_PER_SEC
    ensures TimeSub(r, now) == milliseconds * MICROS_PER_MILLI
  {
    TimeVal(now.sec + CDiv(milliseconds, MILLIS_PER_SEC),
            now.usec + CMod(milliseconds, MILLIS_PER_SEC) * MICROS_PER_MILLI)
  }

  /**
   * A timer set for a non-negative delay has not yet passed at the instant it was
   * set, and has passed at any reading later than the delay.
   */
  lemma TimerExpiresAfterDelay(now: TimeVal, milliseconds: int, later: TimeVal)
    requires milliseconds >= 0
    ensures HasPast(now, SetTimerMillis(now, milliseconds)) == 0
    ensures HasPast(later, SetTimerMillis(now, milliseconds)) == 1
        <==> TimeSub(later, now) > milliseconds * MICROS_PER_MILLI
  {
  }
}

=== FILE: py_text.dfy ===
/**
 * The parts of Python's `str` the build scripts rely on: `find`, slicing with
 * negative and out-of-range bounds, `rindex`, `endswith` and
 * `replace(pattern, "")`.
 */
module PyText {

  /** `needle` occurs in `haystack` at position i. */
  predicate MatchAt(haystack: string, needle: string, i: int) {
    0 <= i && i + |needle| <= |haystack| && haystack[i..i + |needle|] == needle
  }

  /** `haystack.find(needle, start)` for start >= 0: the first match at or after start, or -1. */
  function Find(haystack: string, needle: string, start: nat): (r: int)
    ensures r == -1 || (start <= r && MatchAt(haystack, needle, r))
    decreases |haystack| - start
  {
    if start + |needle| > |haystack| then -1
    else if haystack[start..start + |needle|] == needle then start
    else Find(haystack, needle, start + 1)
  }

  /** The suffix test of `str.endswith`. */
  predicate EndsWith(s: string, suffix: string) {
    |suffix| <= |s| && s[|s| - |suffix|..] == suffix
  }

  /** Python's normalisation of one slice bound: negative counts from the end, then clamped. */
  function SliceBound(i: int, length: nat): (b: nat)
    ensures b <= length
    ensures 0 <= i <= length ==> b == i
    ensures -(length as int) <= i < 0 ==> b == length + i
  {
    var j := if i < 0 then i + length else i;
    if j < 0 then 0 else if j > length then length else j
  }

  /** `s[a:b]` with Python's rules. */
  function Slice(s: string, a: int, b: int): (r: string)
    ensures SliceBound(a, |s|) <= SliceBound(b, |s|) ==> r == s[SliceBound(a, |s|)..SliceBound(b, |s|)]
    ensures SliceBound(a, |s|) > SliceBound(b, |s|) ==> r == ""
  {
    var lo := SliceBound(a, |s|);
    var hi := SliceBound(b, |s|);
    if lo <= hi then s[lo..hi] else ""
  }

  /** `s.rindex(c)` for a character the caller knows is present. */
  function RIndex(s: string, c: char): (i: nat)
    requires c in s
    ensures i < |s| && s[i] == c && c !in s[i + 1..]
  {
    if s[|s| - 1] == c then |s| - 1
    else
      assert s == s[..|s| - 1] + [s[|s| - 1]];
      RIndex(s[..|s| - 1], c)
  }

  /** `s.replace(pattern, "")`: non-overlapping occurrences removed left to right. */
  function RemoveAll(s: string, pattern: string): (r: string)
    ensures |r| <= |s|
    decreases |s|
  {
    if |pattern| == 0 || |s| == 0 then s
    else if MatchAt(s, pattern, 0) then RemoveAll(s[|pattern|..], pattern)
    else [s[0]] + RemoveAll(s[1..], pattern)
  }

  /** Text before the pattern's first character can appear is kept as it is. */
  lemma {:induction false} RemoveAllSkips(prefix: string, rest: string, pattern: string)
    requires |pattern| > 0 && pattern[0] !in prefix
    ensures RemoveAll(prefix + rest, pattern) == prefix + RemoveAll(rest, pattern)
    decreases |prefix|
  {
    if |prefix| > 0 {
      var s := prefix + rest;
      assert s[0] == prefix[0];
      assert !MatchAt(s, pattern, 0);
      assert s[1..] == prefix[1..] + rest;
      RemoveAllSkips(prefix[1..], rest, pattern);
    } else {
      assert prefix + rest == rest;
    }
  }

  /** A text without the pattern's first character is left unchanged. */
  lemma RemoveAllAbsent(s: string, pattern: string)
    requires |pattern| > 0 && pattern[0] !in s
    ensures RemoveAll(s, pattern) == s
  {
    RemoveAllSkips(s, "", pattern);
    assert s + "" == s;
  }

  /** One occurrence, surrounded by text that cannot start another, is cut out. */
  lemma RemoveAllOnce(prefix: string, pattern: string, suffix: string)
    requires |pattern| > 0 && pattern[0] !in prefix && pattern[0] !in suffix
    ensures RemoveAll(prefix + pattern + suffix, pattern) == prefix + suffix
  {
    assert prefix + pattern + suffix == prefix + (pattern + suffix);
    RemoveAllSkips(prefix, pattern + suffix, pattern);
    assert MatchAt(pattern + suffix, pattern, 0);
    assert (pattern + suffix)[|pattern|..] == suffix;
    RemoveAllAbsent(suffix, pattern);
  }

  /** `find` returns the first match: there is none from `start` up to it, and none at all when it reports -1. */
  lemma {:induction false} FindFirst(haystack: string, needle: string, start: nat)
    ensures var r := Find(haystack, needle, start);
            forall i | start <= i && (r == -1 || i < r) :: !MatchAt(haystack, needle, i)
    decreases |haystack| - start
  {
    if start + |needle| <= |haystack| && haystack[start..start + |needle|] != needle {
      FindFirst(haystack, needle, start + 1);
    }
  }

  /** A match with none before it, from `start`, is what `find` returns. */
  lemma FindIsFirst(haystack: string, needle: string, start: nat, i: nat)
    requires start <= i && MatchAt(haystack, needle, i)
    requires forall j | start <= j < i :: !MatchAt(haystack, needle, j)
    ensures Find(haystack, needle, start) == i
  {
    FindFirst(haystack, needle, start);
  }
}

=== FILE: system_info.dfy ===
/**
 * `nimbleSystemGetOSString`: the operating system's name and the length the
 * routine reports through its `uint8_t` out-parameter. Each platform's query
 * (`GetVersionEx`, `sysctl`, `uname`) is an input.
 */
module SystemInfo {
  import opened CTypes

  /** `VER_NT_WORKSTATION` is the product type of client editions. */
  datatype WindowsVersion = WindowsVersion(major: uint32, minor: uint32, workstation: bool)

  /**
   * The answers the platform gives. For Apple each `sysctl` answer is None
   * when the call fails; for Linux the two `uname` fields.
   */
  datatype Platform =
    | Windows(version: WindowsVersion)
    | Apple(ostype: Option<string>, osrelease: Option<string>)
    | Linux(sysname: string, release: string)

  /** The returned string (None for NULL) and the value left in `*length` (None when it is not written). */
  datatype OsString = OsString(name: Option<string>, length: Option<uint8>)

  /** The Windows table: major 10, and major 6 with minor 0 to 3, per edition. */
  function WindowsName(v: WindowsVersion): (name: Option<string>)
    ensures name.Some? <==> v.major == 10 || (v.major == 6 && v.minor <= 3)
    ensures name.Some? ==> 7 <= |name.value| < 256 && name.value[..7] == "Windows"
    ensures v.major == 10 ==> name == Some(if v.workstation then "Windows 10" else "Windows Server Technical Preview")
  {
    if v.major == 10 then
      Some(if v.workstation then "Windows 10" else "Windows Server Technical Preview")
    else if v.major == 6 && v.workstation then
      if v.minor == 3 then Some("Windows 8.1")
      else if v.minor == 2 then Some("Windows 8")
      else if v.minor == 1 then Some("Windows 7")
      else if v.minor == 0 then Some("Windows Vista")
      else None
    else if v.major == 6 then
      if v.minor == 3 then Some("Windows Server 2012 R2")
      else if v.minor == 2 then Some("Windows Server 2012")
      else if v.minor == 1 then Some("Windows Server 2008 R2")
      else if v.minor == 0 then Some("Windows Server 2008")
      else None
    else None
  }

  /** The known versions have pairwise distinct names; for major 10 the minor version is not consulted. */
  lemma WindowsNamesDistinct(a: WindowsVersion, b: WindowsVersion)
    requires WindowsName(a).Some? && WindowsName(b).Some?
    requires a.workstation != b.workstation || (a.major != b.major) || (a.major == 6 && a.minor != b.minor)
    ensures WindowsName(a) != WindowsName(b)
  {
  }

  /** Linux's `struct utsname` fields are 65-byte arrays, so each string `uname` reports has at most 64 characters. */
  const UTSNAME_LENGTH: nat := 65

  predicate UnameFields(sysname: string, release: string) {
    |sysname| < UTSNAME_LENGTH && |release| < UTSNAME_LENGTH
  }

  /**
   * The Linux name: sysname, a space, release; the length is their sum plus
   * one, stored in 8 bits, a cut that strings from `uname` never reach.
   */
  function LinuxOsString(sysname: string, release: string): (r: OsString)
    requires UnameFields(sysname, release)
    ensures r.name == Some(sysname + " " + release)
    ensures r.length.Some? && r.length.value == |r.name.value|
  {
    OsString(Some(sysname + " " + release), Some((|sysname| + |release| + 1) % UINT8_LIMIT))
  }

  /** A sysname without spaces can be split back out of the Linux name. */
  lemma LinuxNameSplits(sysname: string, release: string)
    requires UnameFields(sysname, release) && ' ' !in sysname
    ensures var name := LinuxOsString(sysname, release).name.value;
            && name[..|sysname|] == sysname
            && name[|sysname|] == ' '
            && name[|sysname| + 1..] == release
            && (forall i | 0 <= i < |sysname| :: name[i] != ' ')
  {
  }

  /** Sizes of the buffers `sysctl` fills; a longer answer makes the call fail. */
  const OS_BUFFER_SIZE: nat := 32
  const OS_VERSION_BUFFER_SIZE: nat := 10

  /**
   * The Apple branch as written. The reported length is
   * `(osBufferLength - 1) + (osVersionBufferLength - 1)`, where each buffer
   * length counts the NUL: the separating space is not counted.
   */
  function AppleOsStringAsWritten(ostype: Option<string>, osrelease: Option<string>): (r: OsString)
    ensures ostype.None? || |ostype.value| >= OS_BUFFER_SIZE ==> r == OsString(None, None)
    ensures r.name.Some? <==> (&& ostype.Some? && osrelease.Some?
                               && |ostype.value| < OS_BUFFER_SIZE && |osrelease.value| < OS_VERSION_BUFFER_SIZE)
    ensures r.name.None? && ostype.Some? && |ostype.value| < OS_BUFFER_SIZE ==> r.length == Some(|ostype.value|)
    ensures r.name.Some? ==> r.name == Some(ostype.value + " " + osrelease.value)
    ensures r.name.Some? ==> r.length == Some(|r.name.value| - 1)
  {
    if ostype.None? || |ostype.value| + 1 > OS_BUFFER_SIZE then OsString(None, None)
    else
      var length := |ostype.value|;
      if osrelease.None? || |osrelease.value| + 1 > OS_VERSION_BUFFER_SIZE then OsString(None, Some(length))
      else OsString(Some(ostype.value + " " + osrelease.value), Some(length + |osrelease.value|))
  }

  /** On a Darwin 19.6.0 system the name has 13 characters but 12 are reported. */
  lemma AppleLengthCounterexample()
    ensures AppleOsStringAsWritten(Some("Darwin"), Some("19.6.0")) == OsString(Some("Darwin 19.6.0"), Some(12))
    ensures |"Darwin 19.6.0"| == 13
    ensures AppleOsString(Some("Darwin"), Some("19.6.0")).length == Some(13)
  {
    assert "Darwin" + " " + "19.6.0" == "Darwin 19.6.0";
  }

  /**
   * The Apple branch with the space counted. A failed first query leaves
   * `*length` alone; a failed second query has already written the first part.
   */
  function AppleOsString(ostype: Option<string>, osrelease: Option<string>): (r: OsString)
    ensures ostype.None? || |ostype.value| >= OS_BUFFER_SIZE ==> r == OsString(None, None)
    ensures r.name.None? && ostype.Some? && |ostype.value| < OS_BUFFER_SIZE ==> r.length == Some(|ostype.value|)
    ensures r.name.Some? <==> (&& ostype.Some? && osrelease.Some?
                               && |ostype.value| < OS_BUFFER_SIZE && |osrelease.value| < OS_VERSION_BUFFER_SIZE)
    ensures r.name.Some? ==> r.name == Some(ostype.value + " " + osrelease.value) && r.length == Some(|r.name.value|)
  {
    if ostype.None? || |ostype.value| + 1 > OS_BUFFER_SIZE then OsString(None, None)
    else
      var length := |ostype.value|;
      if osrelease.None? || |osrelease.value| + 1 > OS_VERSION_BUFFER_SIZE then OsString(None, Some(length))
      else OsString(Some(ostype.value + " " + osrelease.value), Some(length + 1 + |osrelease.value|))
  }

  /** `nimbleSystemGetOSString` as written: the Apple branch leaves the space out of the reported length. */
  function GetOSStringAsWritten(p: Platform): (r: OsString)
    requires p.Linux? ==> UnameFields(p.sysname, p.release)
    ensures p.Windows? ==> r.name == WindowsName(p.version)
    ensures p.Windows? ==> (r.length.Some? <==> r.name.Some?)
    ensures !p.Apple? && r.name.Some? && r.length.Some? && |r.name.value| < UINT8_LIMIT ==> r.length.value == |r.name.value|
    ensures p.Apple? && r.name.Some? ==> r.length == Some(|r.name.value| - 1)
  {
    match p
    case Apple(ostype, osrelease) => AppleOsStringAsWritten(ostype, osrelease)
    case _ => GetOSString(p)
  }

  /**
   * The correction changes one thing only: the length a successful Apple
   * query reports, which grows by the space.
   */
  lemma GetOSStringCorrectionOnlyApple(p: Platform)
    requires p.Linux? ==> UnameFields(p.sysname, p.release)
    ensures GetOSStringAsWritten(p).name == GetOSString(p).name
    ensures GetOSStringAsWritten(p).length != GetOSString(p).length <==> p.Apple? && GetOSString(p).name.Some?
    ensures p.Apple? && GetOSString(p).name.Some? ==> GetOSString(p).length.value == GetOSStringAsWritten(p).length.value + 1
  {
  }

  /** `nimbleSystemGetOSString` with the Apple length corrected. */
  function GetOSString(p: Platform): (r: OsString)
    requires p.Linux? ==> UnameFields(p.sysname, p.release)
    ensures p.Windows? ==> r.name == WindowsName(p.version)
    ensures p.Windows? ==> (r.length.Some? <==> r.name.Some?)
    ensures r.name.Some? && r.length.Some? && |r.name.value| < UINT8_LIMIT ==> r.length.value == |r.name.value|
  {
    match p
    case Windows(v) =>
      var name := WindowsName(v);
      OsString(name, if name.Some? then Some(|name.value|) else None)
    case Apple(ostype, osrelease) => AppleOsString(ostype, osrelease)
    case Linux(sysname, release) => LinuxOsString(sysname, release)
  }
}

=== FILE: world_objects.dfy ===
/**
 * The world-object and texture tables: growable arrays of records, each
 * record knowing its own position in the table (`objectIndex`,
 * `textureIndex`). Creation appends a record; destruction removes one,
 * renumbers the records after it and shrinks the table by one.
 *
 * OpenGL object names and the decoded image are inputs here; the GL calls the
 * source makes on teardown are returned as a list. Only the allocation
 * counter of every `realloc` is kept, not the bytes.
 */
module WorldObjects {
  import opened CTypes
  import NimbleMemory
  import GameMath

  /**
   * Record sizes the tables are resized by. A texture record is two 32-bit,
   * two 16-bit and one 8-bit field, padded to 16 bytes. A world-object record
   * is 1104 bytes on a 64-bit target with cglm's 16-byte aligned quaternion.
   */
  const TEXTURE_RECORD_SIZE: nat := 16
  const OBJECT_RECORD_SIZE: nat := 1104

  /** `parentObject` holds 0 when an object has no parent. */
  const NO_PARENT: uint32 := 0

  datatype Mesh = Mesh(vao: uint32, vbo: uint32, ibo: uint32, indexCount: uint32, vertexCount: uint32)

  /**
   * A world object. `textureIDs` holds the entries creation writes; the rest
   * of the 256-entry array stays uninitialised and is not modelled.
   */
  datatype WorldObject = WorldObject(
    objectID: uint32,
    objectIndex: uint32,
    mesh: Mesh,
    textureIDs: seq<uint32>,
    position: seq<Float>,
    orientation: seq<Float>,
    parentObject: uint32)

  datatype Texture = Texture(textureID: uint32, textureIndex: uint32, width: uint16, height: uint16, colorChannels: uint8)

  /** The module's globals: both tables, the next object ID and the memory counter. */
  datatype Registry = Registry(objects: seq<WorldObject>, nextID: uint32, textures: seq<Texture>, memoryUsed: uint64)

  /** What `stbi_load` reports for an image it decoded. */
  datatype Image = Image(width: int32, height: int32, colorChannels: int32)

  /** A GL object deletion the teardown code issues. */
  datatype GlDelete = DeleteBuffer(name: uint32) | DeleteVertexArray(name: uint32) | DeleteTexture(name: uint32)

  /** Every record's index field is its position in the table. */
  predicate ObjectsIndexed(objects: seq<WorldObject>) {
    forall i | 0 <= i < |objects| :: objects[i].objectIndex == i
  }

  predicate TexturesIndexed(textures: seq<Texture>) {
    forall i | 0 <= i < |textures| :: textures[i].textureIndex == i
  }

  /** Object IDs strictly increase along the table and stay below `nextID`. */
  predicate IdsOrdered(objects: seq<WorldObject>, nextID: uint32) {
    && (forall i, j | 0 <= i < j < |objects| :: objects[i].objectID < objects[j].objectID)
    && (forall i | 0 <= i < |objects| :: objects[i].objectID < nextID)
  }

  /** Both counts are `uint32_t` in the source. */
  predicate CountsFit(r: Registry) {
    |r.objects| < UINT32_LIMIT && |r.textures| < UINT32_LIMIT
  }

  predicate Valid(r: Registry) {
    CountsFit(r) && ObjectsIndexed(r.objects) && TexturesIndexed(r.textures) && IdsOrdered(r.objects, r.nextID)
  }

  /** The registry at program start: empty tables, next ID 0. */
  function Initial(memoryUsed: uint64): (r: Registry)
    ensures Valid(r) && |r.objects| == 0 && |r.textures| == 0
  {
    Registry([], 0, [], memoryUsed)
  }

  /** The allocation counter after a table of records is resized from one count to another. */
  function Resized(used: uint64, recordSize: nat, oldCount: nat, newCount: nat): uint64
    requires recordSize * oldCount < UINT64_LIMIT && recordSize * newCount < UINT64_LIMIT
  {
    NimbleMemory.Reallocate(used, false, recordSize * oldCount, recordSize * newCount).used
  }

  /** The counter after a table of `count` records grows by one: one record size more, modulo 2^64. */
  function Grown(used: uint64, recordSize: nat, count: nat): (u: uint64)
    requires recordSize <= OBJECT_RECORD_SIZE && count + 1 < UINT32_LIMIT
    ensures u == Wrap64(used + recordSize)
  {
    TableFits(recordSize, count + 1);
    OneMoreRecord(recordSize, count);
    Resized(used, recordSize, count, count + 1)
  }

  /** The counter after a table of `count` records shrinks by one: one record size less, modulo 2^64. */
  function Shrunk(used: uint64, recordSize: nat, count: nat): (u: uint64)
    requires recordSize <= OBJECT_RECORD_SIZE && 1 <= count < UINT32_LIMIT
    ensures u == Wrap64(used - recordSize)
  {
    TableFits(recordSize, count);
    OneMoreRecord(recordSize, count - 1);
    Wrap64Add(used, recordSize * (count - 1) - recordSize * count);
    Resized(used, recordSize, count, count - 1)
  }

  lemma OneMoreRecord(recordSize: nat, count: nat)
    ensures recordSize * (count + 1) == recordSize * count + recordSize
  {
  }

  lemma TableFits(recordSize: nat, count: nat)
    requires recordSize <= OBJECT_RECORD_SIZE && count < UINT32_LIMIT
    ensures recordSize * count < UINT64_LIMIT && recordSize * (count - 1) < UINT64_LIMIT
  {
    assert recordSize * count <= OBJECT_RECORD_SIZE * count by {
      assert (OBJECT_RECORD_SIZE - recordSize) * count >= 0;
    }
  }

  /** `uint32_t` increment, wrapping to zero. */
  function Inc32(x: uint32): (y: uint32)
    ensures x < UINT32_LIMIT - 1 ==> y == x + 1
    ensures x == UINT32_LIMIT - 1 ==> y == 0
  {
    if x == UINT32_LIMIT - 1 then 0 else x + 1
  }

  /** `uint32_t` decrement, wrapping at zero. */
  function Dec32(x: uint32): (y: uint32)
    ensures x > 0 ==> y == x - 1
    ensures x == 0 ==> y == UINT32_LIMIT - 1
  {
    (x - 1) % UINT32_LIMIT
  }

  // ---------------------------------------------------------------------
  // Removal of one record: the intended shift and the `memcpy` as written.

  /** Remove position `index` of a table: the later records move down one slot. */
  function ShiftDown<T>(table: seq<T>, index: nat): (r: seq<T>)
    requires index < |table|
    ensures |r| == |table| - 1
    ensures forall j | 0 <= j < index :: r[j] == table[j]
    ensures forall j | index <= j < |r| :: r[j] == table[j + 1]
  {
    table[..index] + table[index + 1..]
  }

  /**
   * The `memcpy` of the removal as written. Pointer arithmetic on a record
   * pointer already scales by the record size, and the code multiplies by it
   * once more: it copies `count - index - 1` records from position
   * `size * index + 1` to position `size * index`. Reading or writing past the
   * end of the table is undefined behaviour, and so is a `memcpy` whose source
   * and destination overlap, as they do whenever more than one record is
   * copied. The last record (`index == count - 1`) skips the copy.
   */
  function ShiftDownAsWritten<T>(table: seq<T>, index: nat, recordSize: nat): (r: Outcome<seq<T>>)
    requires index < |table|
    ensures r.Returns? ==> |r.value| == |table| - 1
  {
    var count := |table|;
    if index == count - 1 then Returns(table[..index])
    else
      var dst := recordSize * index;
      var src := dst + 1;
      var n := count - index - 1;
      if src + n > count || dst + n > src then Undefined
      else Returns((table[..dst] + table[src..src + n] + table[dst + n..])[..count - 1])
  }

  /**
   * For records wider than one byte the copy as written is defined only for
   * the last position and for the first of exactly two records, and there it
   * agrees with the intended shift.
   */
  lemma ShiftDownAsWrittenDefinedIff<T>(table: seq<T>, index: nat, recordSize: nat)
    requires index < |table| && recordSize >= 2
    ensures ShiftDownAsWritten(table, index, recordSize).Returns? <==>
              index == |table| - 1 || (index == 0 && |table| == 2)
    ensures ShiftDownAsWritten(table, index, recordSize).Returns? ==>
              ShiftDownAsWritten(table, index, recordSize).value == ShiftDown(table, index)
  {
    if index != |table| - 1 && index > 0 {
      assert recordSize * index >= 2 * index;
    }
  }

  /**
   * Destroying the middle object of three reads past the end of the table,
   * and destroying the first copies between overlapping ranges.
   */
  lemma ShiftDownAsWrittenCounterexample(table: seq<WorldObject>)
    requires |table| == 3
    ensures ShiftDownAsWritten(table, 1, OBJECT_RECORD_SIZE).Undefined?
    ensures ShiftDownAsWritten(table, 0, OBJECT_RECORD_SIZE).Undefined?
    ensures |ShiftDown(table, 1)| == 2 && |ShiftDown(table, 0)| == 2
  {
  }

  // ---------------------------------------------------------------------
  // Objects.

  /**
   * The reference result of destroying an object: the record removed and
   * every later record's index decremented.
   */
  function RemoveObject(objects: seq<WorldObject>, index: nat): (r: seq<WorldObject>)
    requires index < |objects|
    ensures |r| == |objects| - 1
    ensures forall j | 0 <= j < index :: r[j] == objects[j]
    ensures forall j | index <= j < |r| :: r[j] == objects[j + 1].(objectIndex := Dec32(objects[j + 1].objectIndex))
  {
    objects[..index] + seq(|objects| - index - 1, k requires 0 <= k < |objects| - index - 1 =>
      objects[index + 1 + k].(objectIndex := Dec32(objects[index + 1 + k].objectIndex)))
  }

  /** `nimbleObjectCreate`'s record: ID, index, mesh, `faces & 0xff` texture IDs, pose and parent. */
  function NewObject(objectID: uint32, objectIndex: uint32, handles: Mesh, textureIDs: seq<uint32>, faces: uint32,
                     position: seq<Float>, orientation: seq<Float>, parent: uint32): (o: WorldObject)
    requires |textureIDs| >= faces % 256 && |position| >= 3 && |orientation| >= 4
    ensures o.objectID == objectID && o.objectIndex == objectIndex && o.parentObject == parent
    ensures o.mesh == handles
    ensures o.textureIDs == textureIDs[..faces % 256]
    ensures o.position == position[..3]
    ensures o.orientation == [orientation[0], orientation[2], orientation[2], orientation[3]]
  {
    var blank: seq<Float> := [0, 0, 0, 0];
    WorldObject(objectID, objectIndex, handles, textureIDs[..faces % 256],
                GameMath.Vec3InitFrom(blank[..3], position), GameMath.Vec4InitFrom(blank, orientation), parent)
  }

  /**
   * `nimbleObjectCreate`: grows the table by one record, hands out `nextID`
   * and increments it (wrapping at 2^32). `vao`, `vbo` and `ibo` are the names
   * OpenGL generated. The texture-ID array is read for `faces & 0xff` entries.
   */
  function ObjectCreate(r: Registry, position: seq<Float>, orientation: seq<Float>, parentObjectID: uint32,
                        vertexCount: uint32, indexCount: uint32, faces: uint32, textureIDs: seq<uint32>,
                        vao: uint32, vbo: uint32, ibo: uint32): (result: (Registry, uint32))
    requires |r.objects| + 1 < UINT32_LIMIT
    requires |position| >= 3 && |orientation| >= 4 && |textureIDs| >= faces % 256
    ensures result.1 == r.nextID
    ensures result.0.nextID == Inc32(r.nextID)
    ensures |result.0.objects| == |r.objects| + 1 && result.0.objects[..|r.objects|] == r.objects
    ensures result.0.objects[|r.objects|]
         == NewObject(r.nextID, |r.objects|, Mesh(vao, vbo, ibo, indexCount, vertexCount), textureIDs, faces,
                      position, orientation, parentObjectID)
    ensures result.0.textures == r.textures
    ensures result.0.memoryUsed == Wrap64(r.memoryUsed + OBJECT_RECORD_SIZE)
  {
    var count := |r.objects|;
    var used := Grown(r.memoryUsed, OBJECT_RECORD_SIZE, count);
    var record := NewObject(r.nextID, count, Mesh(vao, vbo, ibo, indexCount, vertexCount), textureIDs, faces,
                            position, orientation, parentObjectID);
    (Registry(r.objects + [record], Inc32(r.nextID), r.textures, used), r.nextID)
  }

  /** Creation keeps the registry valid while `nextID` has not reached its last value. */
  lemma ObjectCreatePreservesValid(r: Registry, position: seq<Float>, orientation: seq<Float>, parentObjectID: uint32,
                                   vertexCount: uint32, indexCount: uint32, faces: uint32, textureIDs: seq<uint32>,
                                   vao: uint32, vbo: uint32, ibo: uint32)
    requires Valid(r) && |r.objects| + 1 < UINT32_LIMIT && r.nextID + 1 < UINT32_LIMIT
    requires |position| >= 3 && |orientation| >= 4 && |textureIDs| >= faces % 256
    ensures Valid(ObjectCreate(r, position, orientation, parentObjectID, vertexCount, indexCount, faces,
                               textureIDs, vao, vbo, ibo).0)
  {
    var next := ObjectCreate(r, position, orientation, parentObjectID, vertexCount, indexCount, faces,
                             textureIDs, vao, vbo, ibo).0;
    var n := |r.objects|;
    var record := next.objects[n];
    assert next.objects == r.objects + [record] by {
      assert next.objects == next.objects[..n] + [record];
    }
    AppendPreservesOrder(r.objects, record, r.nextID);
    ValidAfterAppend(r, next, record);
  }

  /** The registry after an append is valid when the grown table is indexed and ordered. */
  lemma ValidAfterAppend(r: Registry, next: Registry, record: WorldObject)
    requires Valid(r) && next.objects == r.objects + [record] && next.textures == r.textures
    requires |next.objects| < UINT32_LIMIT
    requires ObjectsIndexed(next.objects) && IdsOrdered(next.objects, next.nextID)
    ensures Valid(next)
  {
  }

  /** A record appended with the next index and the next ID keeps the table indexed and ordered. */
  lemma AppendPreservesOrder(objects: seq<WorldObject>, record: WorldObject, nextID: uint32)
    requires ObjectsIndexed(objects) && IdsOrdered(objects, nextID) && nextID + 1 < UINT32_LIMIT
    requires record.objectIndex == |objects| && record.objectID == nextID
    ensures ObjectsIndexed(objects + [record]) && IdsOrdered(objects + [record], nextID + 1)
  {
    var after := objects + [record];
    forall i | 0 <= i < |objects|
      ensures after[i] == objects[i]
    {
    }
  }

  /** The first object ever created gets ID 0, the same value that marks "no parent". */
  lemma FirstObjectIdIsNoParent(memoryUsed: uint64, position: seq<Float>, orientation: seq<Float>,
                                vertexCount: uint32, indexCount: uint32, faces: uint32, textureIDs: seq<uint32>,
                                vao: uint32, vbo: uint32, ibo: uint32)
    requires |position| >= 3 && |orientation| >= 4 && |textureIDs| >= faces % 256
    ensures ObjectCreate(Initial(memoryUsed), position, orientation, NO_PARENT, vertexCount, indexCount, faces,
                         textureIDs, vao, vbo, ibo).1 == NO_PARENT
  {
  }

  /** The slot a destroyed object leaves behind before it is overwritten: ID, handles and index count zeroed. */
  function ClearSlot(o: WorldObject): (c: WorldObject)
    ensures c.objectID == 0 && c.mesh.vao == 0 && c.mesh.vbo == 0 && c.mesh.ibo == 0 && c.mesh.indexCount == 0
    ensures c.mesh.vertexCount == o.mesh.vertexCount && c.objectIndex == o.objectIndex
    ensures c.textureIDs == o.textureIDs && c.parentObject == o.parentObject
  {
    o.(objectID := 0, mesh := o.mesh.(vao := 0, vbo := 0, ibo := 0, indexCount := 0))
  }

  /** The GL deletions teardown issues, in this order: index buffer, vertex buffer, vertex array, each only when non-zero. */
  function MeshDeletions(m: Mesh): (calls: seq<GlDelete>)
    ensures |calls| <= 3
    ensures DeleteBuffer(m.ibo) in calls <==> m.ibo != 0
    ensures DeleteBuffer(m.vbo) in calls <==> m.vbo != 0
    ensures DeleteVertexArray(m.vao) in calls <==> m.vao != 0
    ensures m.ibo != 0 ==> |calls| > 0 && calls[0] == DeleteBuffer(m.ibo)
    ensures m.vbo != 0 ==> var k := if m.ibo != 0 then 1 else 0; k < |calls| && calls[k] == DeleteBuffer(m.vbo)
    ensures m.vao != 0 ==> |calls| > 0 && calls[|calls| - 1] == DeleteVertexArray(m.vao)
    ensures forall c | c in calls :: c.name != 0
  {
    (if m.ibo != 0 then [DeleteBuffer(m.ibo)] else [])
    + (if m.vbo != 0 then [DeleteBuffer(m.vbo)] else [])
    + (if m.vao != 0 then [DeleteVertexArray(m.vao)] else [])
  }

  /**
   * `nimbleObjectDestroy` with the intended shift: clears the slot, renumbers
   * the later records in a loop, moves them down and shrinks the table.
   */
  method ObjectDestroy(r: Registry, objectIndex: uint32) returns (next: Registry, deletions: seq<GlDelete>)
    requires objectIndex < |r.objects| < UINT32_LIMIT
    ensures next.objects == RemoveObject(r.objects, objectIndex)
    ensures deletions == MeshDeletions(r.objects[objectIndex].mesh)
    ensures next.nextID == r.nextID && next.textures == r.textures
    ensures next.memoryUsed == Wrap64(r.memoryUsed - OBJECT_RECORD_SIZE)
    ensures Valid(r) ==> Valid(next)
  {
    var count := |r.objects|;
    deletions := MeshDeletions(r.objects[objectIndex].mesh);
    var table := r.objects[objectIndex := ClearSlot(r.objects[objectIndex])];
    if objectIndex < count - 1 {
      table := RenumberObjects(table, objectIndex + 1);
      table := ShiftDown(table, objectIndex);
    } else {
      table := table[..objectIndex];
    }
    assert table == RemoveObject(r.objects, objectIndex);
    var used := Shrunk(r.memoryUsed, OBJECT_RECORD_SIZE, count);
    next := Registry(table, r.nextID, r.textures, used);
    if Valid(r) {
      RemoveObjectPreservesValid(r, objectIndex);
    }
  }

  /** The renumbering loop: every record from position `from` on has its index decremented. */
  method RenumberObjects(objects: seq<WorldObject>, from: nat) returns (table: seq<WorldObject>)
    requires from <= |objects|
    ensures |table| == |objects|
    ensures forall j | 0 <= j < from :: table[j] == objects[j]
    ensures forall j | from <= j < |objects| :: table[j] == objects[j].(objectIndex := Dec32(objects[j].objectIndex))
  {
    table := objects;
    var i := from;
    while i < |objects|
      invariant from <= i <= |objects|
      invariant |table| == |objects|
      invariant forall j | 0 <= j < from :: table[j] == objects[j]
      invariant forall j | from <= j < i :: table[j] == objects[j].(objectIndex := Dec32(objects[j].objectIndex))
      invariant forall j | i <= j < |objects| :: table[j] == objects[j]
    {
      table := table[i := table[i].(objectIndex := Dec32(table[i].objectIndex))];
      i := i + 1;
    }
  }

  /** Removal keeps the table indexed, the IDs ordered and every surviving ID. */
  lemma RemoveObjectPreservesValid(r: Registry, index: nat)
    requires Valid(r) && index < |r.objects|
    ensures Valid(r.(objects := RemoveObject(r.objects, index)))
    ensures forall j | 0 <= j < |r.objects| && j != index :: r.objects[j].objectID in IdsOf(RemoveObject(r.objects, index))
    ensures r.objects[index].objectID !in IdsOf(RemoveObject(r.objects, index))
  {
    var after := RemoveObject(r.objects, index);
    forall j | 0 <= j < |r.objects| && j != index
      ensures r.objects[j].objectID in IdsOf(after)
    {
      var k := if j < index then j else j - 1;
      assert after[k].objectID == r.objects[j].objectID;
    }
    forall k | 0 <= k < |after|
      ensures after[k].objectID != r.objects[index].objectID
    {
      if k < index {
        assert after[k].objectID < r.objects[index].objectID;
      } else {
        assert after[k].objectID == r.objects[k + 1].objectID;
      }
    }
  }

  /** The IDs present in a table. */
  function IdsOf(objects: seq<WorldObject>): (ids: set<uint32>)
    ensures forall i | 0 <= i < |objects| :: objects[i].objectID in ids
    ensures forall id | id in ids :: exists i | 0 <= i < |objects| :: objects[i].objectID == id
  {
    set i | 0 <= i < |objects| :: objects[i].objectID
  }

  // ---------------------------------------------------------------------
  // Textures.

  /**
   * `nimbleTextureLoad`. A failed decode returns 0 and changes nothing.
   * Otherwise the table grows by one record holding the GL name, its index and
   * the image's size and channel count narrowed to the record's field widths.
   */
  function TextureLoad(r: Registry, image: Option<Image>, glName: uint32): (result: (Registry, uint32))
    requires |r.textures| + 1 < UINT32_LIMIT
    ensures image.None? ==> result == (r, 0)
    ensures image.Some? ==> result.1 == glName && result.0.memoryUsed == Wrap64(r.memoryUsed + TEXTURE_RECORD_SIZE)
    ensures image.Some? ==> result.0.textures == r.textures + [Texture(glName, |r.textures|,
              image.value.width % UINT16_LIMIT, image.value.height % UINT16_LIMIT,
              image.value.colorChannels % UINT8_LIMIT)]
    ensures result.0.objects == r.objects && result.0.nextID == r.nextID
    ensures TexturesIndexed(r.textures) ==> TexturesIndexed(result.0.textures)
  {
    match image
    case None => (r, 0)
    case Some(img) =>
      var count := |r.textures|;
      var used := Grown(r.memoryUsed, TEXTURE_RECORD_SIZE, count);
      var record := Texture(glName, count, img.width % UINT16_LIMIT, img.height % UINT16_LIMIT,
                            img.colorChannels % UINT8_LIMIT);
      (r.(textures := r.textures + [record], memoryUsed := used), glName)
  }

  /** The reference result of unloading: the record removed, later indices decremented. */
  function RemoveTexture(textures: seq<Texture>, index: nat): (r: seq<Texture>)
    requires index < |textures|
    ensures |r| == |textures| - 1
    ensures forall j | 0 <= j < index :: r[j] == textures[j]
    ensures forall j | index <= j < |r| :: r[j] == textures[j + 1].(textureIndex := Dec32(textures[j + 1].textureIndex))
  {
    textures[..index] + seq(|textures| - index - 1, k requires 0 <= k < |textures| - index - 1 =>
      textures[index + 1 + k].(textureIndex := Dec32(textures[index + 1 + k].textureIndex)))
  }

  /**
   * `nimbleTextureUnload` with the intended shift: deletes the GL texture,
   * renumbers the later records, moves them down and shrinks the table.
   */
  method TextureUnload(r: Registry, textureIndex: uint32) returns (next: Registry, deletion: GlDelete)
    requires textureIndex < |r.textures| < UINT32_LIMIT
    ensures next.textures == RemoveTexture(r.textures, textureIndex)
    ensures deletion == DeleteTexture(r.textures[textureIndex].textureID)
    ensures next.objects == r.objects && next.nextID == r.nextID
    ensures next.memoryUsed == Wrap64(r.memoryUsed - TEXTURE_RECORD_SIZE)
    ensures TexturesIndexed(r.textures) ==> TexturesIndexed(next.textures)
  {
    var count := |r.textures|;
    deletion := DeleteTexture(r.textures[textureIndex].textureID);
    var table := r.textures[textureIndex := r.textures[textureIndex].(textureID := 0)];
    if textureIndex < count - 1 {
      var i := textureIndex + 1;
      while i < count
        invariant textureIndex + 1 <= i <= count
        invariant |table| == count
        invariant forall j | 0 <= j < textureIndex :: table[j] == r.textures[j]
        invariant forall j | textureIndex < j < i :: table[j] == r.textures[j].(textureIndex := Dec32(r.textures[j].textureIndex))
        invariant forall j | i <= j < count :: table[j] == r.textures[j]
      {
        table := table[i := table[i].(textureIndex := Dec32(table[i].textureIndex))];
        i := i + 1;
      }
      table := ShiftDown(table, textureIndex);
    } else {
      table := table[..textureIndex];
    }
    var used := Shrunk(r.memoryUsed, TEXTURE_RECORD_SIZE, count);
    next := Registry(r.objects, r.nextID, table, used);
    if TexturesIndexed(r.textures) {
      RemoveTexturePreservesIndexed(r.textures, textureIndex);
    }
  }

  /** Unloading keeps the texture table indexed. */
  lemma RemoveTexturePreservesIndexed(textures: seq<Texture>, index: nat)
    requires TexturesIndexed(textures) && index < |textures|
    ensures TexturesIndexed(RemoveTexture(textures, index))
  {
  }

  /** Loading and then unloading the last texture gives back the texture table. */
  lemma TextureLoadUnloadLast(r: Registry, image: Image, glName: uint32)
    requires |r.textures| + 1 < UINT32_LIMIT
    ensures RemoveTexture(TextureLoad(r, Some(image), glName).0.textures, |r.textures|) == r.textures
  {
  }
}
